=== FILE: README.md ===
# jangbom core, modelled in Dafny

jangbom is a neighbourhood-shopping web app. A user picks a recipe or some
leftover ingredients, and the app builds a shopping list (the cart) from the
ingredient catalogue. It then sends the user on foot to the nearest market. A
completed trip earns points: 100 P per kilometre walked. The points are spent
at a barcode counter, where staff enter a four-digit PIN.

This project models the parts of the app whose behaviour can be stated
precisely and proves properties of them:

- **The point ledger.** This covers:
  - the balance per user, the usage rows and the activity rows;
  - the barcode redemption view with its ordered guards;
  - the request-id replay guard and the balance-guarded deduction;
  - the once-only award when a trip is completed;
  - the weekly rank, the week bounds, and the history filter and order.
- **Opening hours.**
  - `is_open_now` and `minutes_until_close`, including overnight windows and equal open/close times.
  - The nearest-market view's own closing countdown, which relies on `timedelta.seconds` wrapping modulo one day.
- **The cart and the session lists of the food views.**
  - Add or remove a name, with the lists kept free of duplicates.
  - Replace the cart with the de-duplicated catalogue names.
  - Roll a cancelled search back to its snapshot.
  - Drop the per-cart keys when the active cart changes.
  - Keep the chat history to its last 20 messages.
  - Parse the `ids` parameter of the leftover chat.
- **Reading the model's replies.**
  - The quoted recipe name.
  - The "기본:" / "선택:" ingredient lines.
  - The two praise lines shown on arrival.
- **Structural helpers.**
  - The stock match of a shopping set.
  - The route polyline built from vertex pairs.
  - The travel-time fallback.
  - The address-search size clamp and document mapping.
  - The address mirror on the user, and the distance total.
- **The browser pages.**
  - The barcode page: PIN boxes, use-point rules, balance text and submit guard.
  - The market secret-code page: digit boxes, submit guard and success modal.
  - The activity history page: detail URL, date parsing, point label, period filter and newest-first reordering.

**Time.** Local instants are whole seconds since 0001-01-01 00:00, which was a
Monday. The weekday and the time of day are therefore integer divisions (module
`Calendar`). A time of day is measured in seconds rather than minutes. This
keeps the `// 60` floors of the countdowns faithful for clock times that are
not on a whole minute.

**Strings, digits and numbers.** Strings are `seq<char>`. Digits and whitespace
are the ASCII ones. Python's `int()` is modelled with its optional sign,
surrounding whitespace and single underscores between digits (`Text.ParsePyInt`).
Python string order is code-point order (`Lex.Less`).

**The database and the session.** Database tables are Dafny values or fields:
- the point tables: `PointUtils.LedgerState` and the `PointUtils.Ledger` class;
- the cart rows of the active list: the `Carts.Cart` class;
- the Django session: the `Sessions.Session` class over a map.

Views that change state are methods proved against pure functions on these
values.

**The browser pages** are classes whose fields are the page's elements and
their state. Page elements that a script only reaches through optional
chaining are fields flagged as present or absent.

## Model

| member | source | states |
|---|---|---|
| PointUtils.Valid4Digit | point/utils.py:127-129 | true exactly when the code has length 4 and only decimal digits; such a code is its own digit filter |
| PointUtils.ParseUsePoint | point/utils.py:138-145 | accepts exactly the texts `int()` reads as a non-negative multiple of 100, returning that value; every other text is the `ValueError` (None) |
| PointUtils.ParseUsePointOfStep | point/utils.py:142-145 | every non-negative multiple of 100, written in decimal, is accepted as itself, zero included |
| PointUtils.ParseUsePointOffStep | point/utils.py:143-144 | an amount that is not a multiple of 100 is refused |
| PointUtils.ParseUsePointNegative | point/utils.py:143-144 | a minus sign followed by digits of non-zero value (a negative amount) is refused |
| PointUtils.EnsureRequestId | point/utils.py:148-151 | the stripped submitted id when it is non-empty, otherwise the generated 24-character id; the result is never empty and has no surrounding whitespace |
| PointUtils.EnsureRequestIdStable | point/utils.py:148-151 | re-submitting the id a form was given yields the same id whatever would have been generated |
| PointUtils.WeeklyRankAmong | point/utils.py:63-77 | None exactly when the user's weekly points are not positive; otherwise a rank between 1 and the number of users + 1 |
| PointUtils.WeeklyRankTop | point/utils.py:69-77 | a user with points and nobody strictly ahead ranks first |
| PointUtils.CountAbovePermutation | point/utils.py:71-76 | the count of users strictly ahead does not depend on the order in which the groups come back |
| PointUtils.CountAboveConcat | point/utils.py:71-76 | the count of users strictly ahead adds up over two parts of the groups |
| PointUtils.WeeklyRankMonotone | point/utils.py:69-77 | more weekly points never give a worse rank, so users with equal points share a rank |
| PointUtils.WeeklyRankIsBoardPosition | point/utils.py:63-77 | the rank is 1 + the position of the first leaderboard entry not above the user, where the leaderboard is sorted largest first |
| PointUtils.WeekBounds | point/utils.py:34-45 | the start is a Monday midnight, the end is seven days later, and now lies in [start, end) |
| PointUtils.WeekBoundsUnique | point/utils.py:41-43 | only one Monday-midnight week contains now |
| PointUtils.WeekBoundsSameWeek | point/utils.py:41-43 | every instant of a week has the same bounds |
| PointUtils.KeepSince | point/utils.py:114-115 | keeps exactly the rows visited at or after the cutoff, each as many times as the input holds it |
| PointUtils.FilterHistoryPeriod | point/utils.py:109-115 | with no day count the rows are unchanged; otherwise a row is kept exactly when visited at or after now minus that many days, as many times as the input holds it |
| PointUtils.OrderHistory | point/utils.py:118-121 | a permutation of the rows, newest first for "latest" and most points first for any other key |
| PointUtils.GetOrCreate | point/views.py:110 | a missing balance row starts at 0; all other balances and all rows are unchanged |
| PointUtils.Deduct | point/utils.py:154-173 | succeeds exactly when the balance covers the amount: the balance drops by the amount, exactly one usage row with the amount, request id and memo is added, and the new balance is returned; otherwise INSUFFICIENT and nothing changes |
| PointUtils.GetOrCreateConsistent | point/views.py:110 | creating a balance row keeps every balance equal to earned minus redeemed |
| PointUtils.DeductConsistent | point/utils.py:162-172 | a deduction keeps every balance equal to earned minus redeemed |
| PointUtils.UsedAppend | point/utils.py:172 | a new usage row adds its amount to its user's redeemed total only |
| PointUtils.EarnedAppend | market/views.py:328-333 | a new activity row adds its points to its user's earned total only |
| PointUtils.Ledger.GetOrCreatePoint | point/views.py:110 | the ledger becomes `GetOrCreate` of the old one, and the method returns the user's balance |
| PointUtils.Ledger.DeductPointsAndLog | point/utils.py:154-173 | the ledger and the result are exactly `Deduct` of the old ledger |
| PointUtils.Ledger.HasRequest | point/views.py:130-131 | agrees with `RequestSeen` on the ledger state, the idempotency test `Redeem` makes before deducting |
| PointUtils.Ledger.HasLog | market/views.py:304 | agrees with `Credited` on the ledger state, the test that keeps `ShoppingSuccess` from awarding a trip twice |
| PointViews.PeriodDays | point/views.py:48-50 | "all" and unknown keys give no limit; the other keys give 30, 90, 180 or 365 days |
| PointViews.PointHistory | point/views.py:53-62 | a row is listed exactly when it is the user's and inside the period (default one month; none for "all" or an unknown key), as many times as the table holds it; the list is sorted newest first for "latest" (the default) and most points first for any other key |
| PointViews.ListedCounts | point/views.py:59-60 | the user filter followed by the period filter keeps each listed row with its multiplicity and nothing else |
| PointViews.PointHistoryDefaults | point/views.py:57-62 | without parameters the list is newest first and covers the last 30 days |
| PointViews.VerifyStaffPin | point/utils.py:132-135 | true exactly when an active staff PIN exists and equals the code |
| PointViews.Redeem | point/views.py:129-150 | a request id already in the usage history is turned away with nothing changed; otherwise the redemption succeeds exactly when the user has a balance covering the amount, and success means the balance dropped by the amount, one usage row was added and the remaining balance is returned |
| PointViews.Barcode | point/views.py:110-149 | the guards run in order (PIN format, PIN match, amount, replay, balance); each of the first three outcomes holds exactly when its guard is the first to fail; any failure leaves only the created balance row; once the three guards pass, the result is exactly `Redeem` with the parsed amount and the ensured request id |
| PointViews.NewCoveredRedeemDeducts | point/views.py:129-149 | with a new request id and a covering balance, `Redeem` is the deduction and reports the amount and the remaining balance |
| PointViews.AcceptedBarcodeRedeems | point/views.py:110-131 | once the PIN and the amount are accepted, for a user who already has a balance row, the barcode view is exactly the replay check and deduction on the ledger as it stands |
| PointViews.ValidRedemptionDeducts | point/views.py:110-149 | a valid PIN, an accepted amount, a new request id and a covering balance always deduct exactly that amount |
| PointViews.RedeemField | point/views.py:122-149 | a missing amount reads as "0"; an amount `parse_use_point` refuses is turned away with nothing changed; otherwise the outcome is exactly `Redeem`'s, using the parsed amount |
| PointViews.BadPinIgnoresStaffPin | point/views.py:115-120 | a malformed PIN gives the same outcome whatever the stored staff PIN is |
| PointViews.ReplayedRequestIsRejected | point/views.py:129-133 | posting a request id that is already in the usage history never deducts |
| PointViews.BarcodeConsistent | point/views.py:110-149 | the barcode view keeps every balance equal to earned minus redeemed |
| PointViews.BarcodePost | point/views.py:110-156 | the ledger and the outcome are `Barcode` of the old ledger; on success the session gains `point_processed = (used, remaining)`, and on failure the session is unchanged |
| PointViews.BarcodeOn | point/views.py:110-149 | on the ledger object: its new state and the outcome are exactly `Barcode` of its old state |
| PointViews.RedeemOn | point/views.py:129-149 | on the ledger object: its new state and the outcome are exactly `Redeem` of its old state |
| PointViews.BarcodeGet | point/views.py:109-164 | creates the balance row and returns the balance; returns the stored success notice and removes it, so it shows at most once |
| Calendar.Weekday | market/utils.py:202 | a weekday number below 7, Monday 0 |
| Calendar.DayStart | point/utils.py:41-42 | midnight of the instant's date: at most the instant, less than a day before it, and a whole number of days |
| MarketUtils.OpenDaySet | market/utils.py:203 | a day is in the set exactly when it is a non-empty stripped comma-separated piece of the text; every entry has no comma and no surrounding whitespace; an empty text gives no days |
| MarketUtils.OpenDaysOfJoined | market/utils.py:203 | day names joined with commas are read back as exactly that set of days |
| MarketUtils.InWindowCases | market/utils.py:213-218 | the reference window is `open <= t <= close` for a same-day window and `t >= open or t <= close` for an overnight one |
| MarketUtils.IsOpenNow | market/utils.py:191-218 | open exactly when the days and both times are present, today's Korean weekday is among the day entries, and either open equals close with `treat_equal_as_24h` or the time lies in the window |
| MarketUtils.MinutesUntilClose | market/utils.py:221-241 | 0 without both times or outside the window; otherwise the whole minutes until the closing time, counted to the next day once the clock has passed it in an overnight window |
| MarketUtils.OpenWhileMinutesRemain | market/utils.py:191-241 | while minutes remain before closing, a market open on this weekday is open |
| MarketUtils.AllDayHasNoCountdown | market/utils.py:210-241 | equal open and close times read as open all day, yet the countdown is 0 |
| MarketUtils.TravelInfo | market/utils.py:92-110 | the route's distance when positive, else the straight-line distance; the expected minutes, at least 1, are the route's duration when positive, else the fallback walking time, rounded up to whole minutes |
| MarketUtils.FallbackSeconds | market/utils.py:106-108 | at least 60 seconds, and the whole part of max(240, 3·distance)/4 |
| MarketUtils.CeilMinutes | market/utils.py:110 | the smallest number of whole minutes covering the seconds |
| MarketUtils.FallbackMinutesTolerateFloat | market/utils.py:106-110 | taking the fallback time one second lower, as floating point can, never changes the expected minutes |
| MarketUtils.FallbackMonotone | market/utils.py:106-110 | without a route, a longer walk never takes fewer expected minutes |
| MarketUtils.Pairs | market/utils.py:77-80 | one point per vertex pair |
| MarketUtils.PairsAt | market/utils.py:77-80 | point k is vertex 2k+1 as latitude and vertex 2k as longitude |
| MarketUtils.WalkingDirections | market/utils.py:65-83 | no route gives []; any odd-length vertex list gives []; otherwise the points of all roads, road after road |
| MarketUtils.ItemsWhere | market/utils.py:150-152 | exactly the names of the order whose stock status is the wanted one, each with its catalogue image |
| MarketUtils.ItemsWhereSorted | market/utils.py:150-152 | filtering an ascending list keeps it ascending |
| MarketUtils.ItemsWhereSizes | market/utils.py:150-152 | every name lands in exactly one of the two lists |
| MarketUtils.MatchIngredients | market/utils.py:138-154 | matched holds exactly the stocked shopping names and unmatched the others, both in ascending order, each item with its image, and their sizes add up to the set's |
| MarketUtils.ResetCartSession | market/utils.py:247-256 | exactly the seven recipe and cart keys are removed and `active_sl_id` becomes None |
| MarketUtils.DropBullets | market/utils.py:345 | the line without its leading run of bullet characters |
| MarketUtils.CleanLineStart | market/utils.py:345 | a non-empty cleaned line does not start with a bullet |
| MarketUtils.CleanLineNoBreaks | market/utils.py:345 | cleaning a line that has no line break gives a line with none |
| MarketUtils.PraiseLinesAsWritten | market/utils.py:342-347 | the post-processing as written, with at most two lines |
| MarketUtils.NumberingCleaned | market/utils.py:345-346 | a numbering-only line such as "1." passes the blank filter yet cleans to "" |
| MarketUtils.NumberedLineComesOutEmpty | market/utils.py:344-347 | as written, a reply whose first line is numbering only yields "" and the first proper line, and the second proper line is cut off |
| MarketUtils.SampleNumberedReply | market/utils.py:344-347 | the reply "1.\nA\nB" yields ["", "A"] as written |
| MarketUtils.PraiseLines | market/utils.py:306-347 | the corrected clean-up gives at most two lines, none empty, none starting with a bullet and none spanning a line break |
| MarketUtils.NumberedLineSkipped | market/utils.py:344-347 | with the corrected clean-up the same reply yields the two proper lines |
| MarketUtils.SampleNumberedReplyCorrected | market/utils.py:344-347 | the reply "1.\nA\nB" yields ["A", "B"] when corrected |
| MarketUtils.CleanLinesNoBreaks | market/utils.py:345-346 | cleaning never joins lines |
| MarketUtils.LinesNoBreaks | market/utils.py:346 | no line of a split text holds a line break |
| MarketViews.NearestIndex | market/views.py:137-140 | None exactly when there is no market (the `ValueError` of `min`); otherwise the first market whose distance is at most every other market's |
| MarketViews.TimedeltaSeconds | market/views.py:158-169 | a difference within one day is its own seconds part |
| MarketViews.ClosingInMinutes | market/views.py:149-171 | below one day; 0 outside the window; inside it (or when open equals close) the whole minutes of (close − now) modulo one day |
| MarketViews.ClosingAgreesWithCountdown | market/views.py:153-171 | unless open equals close, the view's countdown equals `minutes_until_close` |
| MarketViews.ClosingAllDay | market/views.py:161-169 | with equal open and close times the view counts down to the next time the clock shows that hour, while `minutes_until_close` gives 0 |
| MarketViews.ShoppingList.AttachMarketIfUnset | market/views.py:208-213 | the list takes the market only when it has none; its done flag is unchanged |
| MarketViews.StockedItems | market/views.py:112-118 | exactly the stocked names of the order, each with its stock image |
| MarketViews.MatchIngredientsView | market/views.py:105-122 | matched is the stocked names in iteration order with their images; unmatched is exactly the other names, sorted ascending |
| MarketViews.VerifySecretCode | market/views.py:257-282 | bad request exactly for a non-POST; verified exactly when a market with the id exists and its secret code equals the password |
| MarketViews.Award | market/views.py:303-333 | afterwards the trip is logged; a trip already logged only creates the missing balance row and credits 0; otherwise the balance grows by exactly the points and exactly one log row is added |
| MarketViews.AwardOnce | market/views.py:303-310 | completing a trip again changes nothing and credits 0 |
| MarketViews.AwardConsistent | market/views.py:318-333 | crediting a trip keeps every balance equal to earned minus redeemed |
| MarketViews.ShoppingSuccess | market/views.py:298-339 | another user's list is a 404 with nothing changed; a trip already logged only gets its balance row and shows the total; a new trip on a list without a market fails before anything is written (the source reads `market.latitude` of `None`); otherwise the ledger is `Award` of the old one, the list is marked done and the page shows the credited points and the total |
| FoodViews.AppendIfAbsent | food/views.py:348-351 | the list gains the name at the end when it lacks it; its members are the old ones plus the name; a duplicate-free list stays duplicate-free |
| FoodViews.RemoveFirst | food/views.py:366-368 | one occurrence of the name fewer; a list without the name is unchanged |
| FoodViews.RemoveFirstDistinct | food/views.py:366-368 | removing from a duplicate-free list leaves it duplicate-free and without the name |
| FoodViews.RemoveUndoesAppend | food/views.py:348-368 | removing a name just appended restores the list |
| FoodViews.Dedupe | food/views.py:239 | no duplicates, and the same members |
| FoodViews.DedupeFirstAppearance | food/views.py:239 | the names appear in the order of their first occurrence |
| FoodViews.DedupeOfDistinct | food/views.py:239 | a duplicate-free list is its own de-duplication |
| FoodViews.KeepIn | food/views.py:206-208 | exactly the names of the list the catalogue knows |
| FoodViews.KeepInConcat | food/views.py:206-208 | filtering works piece by piece, so it keeps the order of what it keeps |
| FoodViews.KeepInDistinct | food/views.py:247-250 | filtering a duplicate-free list leaves it duplicate-free |
| FoodViews.KeepLast | food/views.py:689 | the newest 20 messages, or all of them when there are fewer |
| FoodViews.KeepLastKeepsNewTurns | food/views.py:685-689 | the question and answer just added are always kept |
| FoodViews.DigitTokens | food/views.py:888 | exactly the pieces whose stripped text is all digits, kept as written |
| FoodViews.IdTokensOfBlank | food/views.py:885-886 | a blank `ids` parameter gives no ids |
| FoodViews.IdTokensRoundTrip | food/views.py:885-888 | ids written as comma-separated numerals come back as the same numerals |
| FoodViews.ResetOnChange | food/views.py:137-142 | the marker is stored; an unchanged marker leaves the session as it was; a new marker drops the listed keys; every other key is untouched |
| FoodViews.ResetOnChangeIdempotent | food/views.py:296-301 | recording the same marker twice is the same as recording it once |
| FoodViews.EnterActiveCart | food/views.py:296-301 | the session becomes `ResetOnChange` with the cart id and the five per-cart keys |
| FoodViews.EnterRecipe | food/views.py:144-150 | the session becomes `ResetOnChange` with the recipe name and the four recipe keys |
| FoodViews.AppendToList | food/views.py:348-351 | added exactly when the name was missing; then the list under the key is `AppendIfAbsent` of the old one; otherwise the session is unchanged |
| FoodViews.RemoveFromList | food/views.py:365-368 | removed exactly when the name was present; then the list under the key is `RemoveFirst` of the old one; otherwise the session is unchanged |
| FoodViews.AddExtraIngredient | food/views.py:335-355 | the outcome is empty name, unknown ingredient, already listed or added; only "added" changes the session, by appending the name; the candidates stay duplicate-free |
| FoodViews.DeleteExtraIngredient | food/views.py:359-372 | the name goes from the candidates exactly when it is there; they stay duplicate-free and lose the name |
| FoodViews.ConfirmShoppingList | food/views.py:230-275 | a POST replaces the cart with the catalogue names of the de-duplicated form list in first-appearance order, without duplicates; a GET leaves the cart alone; both record the cart in the session |
| FoodViews.RecipeIngredientsPost | food/views.py:152-191 | the checked names become `optional_selected`; "search" and other buttons change nothing else; confirming nothing changes nothing else; confirming something replaces the cart with the checked catalogue names and records the cart |
| FoodViews.AddIngredient | food/views.py:456-490 | an empty or unknown name changes nothing; otherwise the cart has one row for the name (created only when missing) and `optional_selected` lists it once, with every other key untouched |
| FoodViews.DeleteIngredient | food/views.py:494-521 | an unknown name changes nothing; otherwise the name's cart rows are deleted and its first occurrence leaves `optional_selected` |
| FoodViews.CancelIngredientSearch | food/views.py:390-407 | without a started search nothing changes; otherwise the rows become exactly the old rows without the names added during the search, `optional_selected` becomes the snapshot, and the three search keys are dropped |
| FoodViews.CartAction | food/views.py:986-1056 | without an active cart nothing changes; "clear_all" empties the cart and drops `optional_selected`; "remove_selected" and `remove_one` delete rows by id; "go_confirm" stores the selected names (all names when none is selected) |
| FoodViews.IdeaApi | food/views.py:672-707 | a blank name is refused with nothing changed; a follow-up appends the question and answer and keeps the newest 20 messages; a first visit stores the answer only when there is no history |
| FoodViews.WithSelection | food/views.py:890-893 | stores the ids and the seed, creates the chat keys only when missing, and keeps every other key |
| FoodViews.RestoreSelectedIds | food/views.py:882-894 | ids already in the session are kept with nothing changed; otherwise the digit tokens of `ids` are used and stored when there are any |
| Carts.Cart.GetOrCreate | food/views.py:476-479 | a row for the name is created exactly when none exists; afterwards the cart holds the name and stays duplicate-free |
| Carts.Cart.DeleteNames | food/views.py:509-511 | the rows become exactly the old rows without those names, and the ids stay increasing and below the next id |
| Carts.Cart.DeleteIds | food/views.py:1027-1037 | the rows become exactly the old rows without those ids, and the ids stay increasing and below the next id |
| Carts.Cart.Append | food/views.py:247-252 | the new rows come after the old ones with fresh ids, one per name, in order |
| Carts.NamesWithIds | food/views.py:1043-1047 | exactly the names of the rows whose id is selected |
| Carts.WithoutNamesOrdered | food/views.py:396-399 | deleting by name keeps the row ids increasing |
| Sessions.Session.Pop | point/views.py:159 | the key is removed and its old value returned |
| Sessions.Session.PopAll | market/utils.py:251-255 | exactly the listed keys are removed |
| FoodAi.CloseFrom | food/ai.py:42 | the nearest closing quote on the same line at or after the position, or None when the line has none |
| FoodAi.SpanFrom | food/ai.py:42 | the leftmost quoted span at or after the position, with the nearest closing quote; None exactly when there is none |
| FoodAi.ExtractRecipeName | food/ai.py:40-45 | None exactly when the text holds no quoted span on one line; otherwise the stripped text of the leftmost span, closed at the nearest closing quote |
| FoodAi.QuotedNameFound | food/ai.py:42-44 | a name quoted alone is found, stripped |
| FoodAi.LastFeeding | food/ai.py:24-28 | the last line that feeds the section, or None when no line does |
| FoodAi.StripEach | food/ai.py:26-28 | each piece stripped, in order |
| FoodAi.ItemsHaveNoSeparators | food/ai.py:26-28 | no item holds a colon or a comma |
| FoodAi.ItemsOfWrittenLine | food/ai.py:26-28 | a line written as `head: a, b, c` gives back the stripped items |
| FoodAi.SectionItems | food/ai.py:23-29 | empty exactly when no line feeds the section |
| FoodAi.SectionItemsStep | food/ai.py:25-28 | a line changes a section only when it feeds that section, and then it sets the section to its own items |
| FoodAi.ExtractIngredients | food/ai.py:21-29 | each list is set by the last line that feeds it and is empty when no line does |
| AccountsUtils.User.District | accounts/utils.py:43-50 | the chosen address's non-empty district, else the user's own district field |
| AccountsUtils.User.MirrorAddress | accounts/utils.py:16-30 | the chosen address and its six fields are copied onto the user, the nickname is unchanged, and the district becomes the address's |
| AccountsUtils.WeekBoundsNow | accounts/utils.py:53-63 | the week is seven days long |
| AccountsUtils.WeekBoundsNowIsWeekBounds | accounts/utils.py:58-61 | it is the same week as `week_bounds` gives |
| AccountsUtils.ClampSize | accounts/utils.py:79-83 | the size lies in [1, 30]; a size `int()` rejects becomes 20; in-range sizes are kept; sizes below 1 or above 30 go to the nearest bound |
| AccountsUtils.PlaceOf | accounts/utils.py:92-101 | None exactly when the document has neither address; the road address comes first; the name, the three region levels (empty when missing) and the coordinates follow the chosen address |
| AccountsUtils.PlacesConcat | accounts/utils.py:91-101 | documents are mapped one by one, in order |
| AccountsUtils.PlacesCount | accounts/utils.py:91-101 | every document with an address gives exactly one result |
| AccountsUtils.AddressSearch | accounts/utils.py:79-102 | the clamped size is requested; a non-200 status is the failure; otherwise the results are the mapped documents in order |
| AccountsUtils.TotalDistanceKm | accounts/utils.py:116-117 | 100 P = 1 km, and an empty sum reads as 0 |
| AccountsUtils.PointSum | accounts/utils.py:116 | the SUM aggregate is `None` exactly over no rows and otherwise the total of the rows' points |
| AccountsUtils.TotalDistanceOfConcat | accounts/utils.py:116-117 | the distance of two sets of rows together is the sum of their distances |
| AccountsUtils.PointsOfOwnRows | accounts/utils.py:116-117 | over one user's rows the summed points are what the ledger credited that user, so the distance times 100 is the credited points |
| Text.FirstDigits | static/js/barcode.js:69 | the first digits of the input, at most n of them, as many as there are |
| Text.FirstDigitsIdempotent | static/js/secret_input.js:62 | filtering an already filtered code changes nothing |
| Text.FormatThousands | static/js/barcode.js:135 | a non-empty text that does not start with a comma |
| Text.FormatThousandsReadsBack | static/js/barcode.js:135 | the digits of the formatted number read back as the number |
| Text.DigitsOnlyGrouped | static/js/barcode.js:135 | grouping inserts commas only: the digits are unchanged |
| BarcodeScreen.LeftPoint | static/js/barcode.js:14-19 | the digits of the data attribute when present, else of the non-empty shown balance, read as a number; 0 when neither gives text |
| BarcodeScreen.LeftPointReadsShownBalance | static/js/barcode.js:14-19 | a balance the page printed with separators is read back as itself |
| BarcodeScreen.CheckUsePoint | static/js/barcode.js:139-149 | empty exactly for no digits or zero; off-step exactly for a non-multiple of 100; accepted exactly for a multiple of 100 within the balance, with that amount |
| BarcodeScreen.Remaining | static/js/barcode.js:151-153 | the balance less an accepted amount, else the balance |
| BarcodeScreen.AcceptedAmountParses | static/js/barcode.js:137-149 | an amount the page accepts is one `parse_use_point` accepts, and the balance covers it |
| BarcodeScreen.StepAmountAccepted | static/js/barcode.js:147-149 | every positive multiple of 100 within the balance is accepted as itself |
| BarcodeScreen.ZeroRefusedOnlyByPage | static/js/barcode.js:147 | "0" is refused by the page but accepted by `parse_use_point` |
| BarcodeScreen.Screen.RenderPin | static/js/barcode.js:68-80 | the PIN is the first four digits of the input; box i is masked exactly when i is below the digit count; the next marker sits at the digit count; errors are cleared; the button is disabled unless the PIN is a valid four-digit code |
| BarcodeScreen.Screen.ValidateUsePoint | static/js/barcode.js:137-156 | the field keeps only its digits; the messages and the remaining balance show the check's outcome; the result is whether the amount is accepted; a page without the field accepts |
| BarcodeScreen.Screen.Submit | static/js/barcode.js:160-179 | sent exactly when the PIN is four digits and the amount is accepted; then the code field carries the PIN, which passes `valid_4digit`, and the amount passes `parse_use_point` within the balance; a malformed PIN shows the PIN error |
| SecretInput.ShownSpellsDigits | static/js/secret_input.js:63-67 | boxes that each show the digit at their index spell the code |
| SecretInput.Screen.constructor | static/js/secret_input.js:77-143 | the empty code is rendered, the button is disabled, and the success modal is open exactly when `data-success` is "1" |
| SecretInput.Screen.RenderBoxes | static/js/secret_input.js:61-75 | the code is the first four digits of the input; box i shows digit i; the next marker sits at the digit count; the boxes spell the code; the button is disabled unless there are four digits |
| SecretInput.Screen.Submit | static/js/secret_input.js:112-130 | sent exactly when the code has four digits; then the password field carries it, it passes `valid_4digit`, and the button is disabled; otherwise every box is marked as an error and the message is shown |
| SecretInput.Screen.ConfirmOk | static/js/secret_input.js:146-159 | a link is followed; a button redirects when there is a redirect address and otherwise closes the modal |
| SecretInput.SentCodeVerification | market/views.py:264-278 | a market whose code is not four digits can never be verified from this page |
| ActivityHistory.ZeroSuffix | static/js/activity_history.js:34 | 3 exactly for a trailing "/0/", 2 exactly for a trailing "/0", otherwise 0 |
| ActivityHistory.MakeDetailUrl | static/js/activity_history.js:28-36 | "" without an id or a pattern; a pattern with neither the placeholder nor a trailing "/0" has its first "0" replaced |
| ActivityHistory.DetailUrlOfPlaceholder | static/js/activity_history.js:33 | when `pre` holds no placeholder start before the inserted one, that placeholder and only it is replaced by the id, whatever follows |
| ActivityHistory.DetailUrlOfZeroEnding | static/js/activity_history.js:34 | for a template with no placeholder before the slash, a trailing "/0" or "/0/" becomes "/id/" |
| ActivityHistory.MatchFrom | static/js/activity_history.js:344 | the leftmost position at or after i where the date pattern matches, or None when there is none |
| ActivityHistory.ParseDate | static/js/activity_history.js:341-347 | None (the page's 0) exactly when the trimmed text holds no `YYYY?MM?DD HH:MM` match with `.`, `-` or `/` as separators; otherwise the fields of the leftmost match |
| ActivityHistory.PadReadsBack | static/js/activity_history.js:344 | a zero-padded number reads back as itself |
| ActivityHistory.ParseDateOfShown | static/js/activity_history.js:341-347 | a date shown as `YYYY.MM.DD HH:MM` is read back as itself |
| ActivityHistory.Trunc | static/js/activity_history.js:40-43 | the integer part, towards zero |
| ActivityHistory.PointLabel | static/js/activity_history.js:49 | the label reads `+ … P` |
| ActivityHistory.PointLabelNeverNegative | static/js/activity_history.js:49 | the label has no minus sign and its digits read back as the truncated amount clamped at 0 |
| ActivityHistory.RowsWhere | static/js/activity_history.js:432-433 | exactly the rows of the wanted visibility, in page order |
| ActivityHistory.RowsWhereSplit | static/js/activity_history.js:432-433 | every row is in exactly one of the two lists |
| ActivityHistory.InsertKeepsPageOrder | static/js/activity_history.js:435-443 | inserting newest first keeps rows with the same time in page order |
| ActivityHistory.SortKeepsPageOrder | static/js/activity_history.js:435-443 | the sort is newest first and stable |
| ActivityHistory.RowOrderIsPermutation | static/js/activity_history.js:431-448 | the reordering moves every row exactly once |
| ActivityHistory.RowOrderShownFirst | static/js/activity_history.js:446-447 | the shown rows come first and the hidden rows after them |
| ActivityHistory.RowOrderNewestFirst | static/js/activity_history.js:435-446 | the shown rows are newest first, and rows with the same time keep their page order |
| ActivityHistory.RowOrderHiddenInPageOrder | static/js/activity_history.js:447 | the hidden rows keep their page order |
| ActivityHistory.HistoryPage.ApplyRangeFilter | static/js/activity_history.js:396-403 | with "all" every row is shown; otherwise a row is shown exactly when its timestamp is not before `since` |
| ActivityHistory.HistoryPage.SortLatest | static/js/activity_history.js:431-448 | the rows end up in `RowOrder`: shown rows newest first, then hidden rows in page order |
| Sorting.SortDesc | point/utils.py:120-121 | sorted largest key first, and a permutation of the input |
| Lex.SortedNames | market/views.py:122 | the members of the set in strictly ascending order |
| Lex.StrictlySortedUnique | market/utils.py:150 | two ascending lists with the same members are equal |

## Left out

- Floating point. The haversine distance and the step, calorie and CO₂ estimates are left out. So are `fallback_from_points` and the one-decimal formatter of the history page. Distances are inputs: the straight-line metres in `TravelInfo` and the market distances in `NearestIndex`. Coordinates are copied as reals and never computed with.
- The `point_earned` figure is left out because it rounds a float. `ShoppingSuccess` takes the points as an input. They come from the views module's own `get_travel_info` (market/views.py:89-94), which rounds 100 times the haversine distance in km. The copy in market/utils.py:111, modelled as `TravelInfo`, is not the one `shopping_success_view` calls.
- MarketUtils.TravelInfo: the fallback walking time is the exact whole part of `3 * distance_m / 4` seconds, and at least 60. The source computes `int(distance_m / 80 * 60)` in floating point, which is one lower for some distances (164 m gives 122 seconds, not 123). The walking time is not returned, and `FallbackMinutesTolerateFloat` shows that the expected minutes are the same either way.
- FoodViews.CartAction: the posted `selected` ids and `remove_one` id are numbers. A non-numeric posted id, which makes the source's `id__in` or `id=` filter raise a `ValueError` (a server error), is not modelled.
- MarketViews.VerifySecretCode: the posted `market_id` is a number or missing. A non-numeric id, which makes the source's lookup raise a `ValueError`, is not modelled.
- Calls to the language model are left out: the prompts, `generate_tip_text`, `gpt_conversational_cook`, and the chat round-trips of the recipe and leftover views. Each reply text, or the answer in `IdeaApi`, is an input. The recipe prompt's example puts both sections on one line. What the model does with that example is not modelled. Only the line parser is.
- The views module's own `get_walking_directions` (market/views.py:69-86) is the one `map_direction_view` calls. It is not modelled separately. It reads `road['vertexes']`, so a road without vertexes raises a `KeyError` and the whole result is `[]`. `WalkingDirections` models the market/utils.py:65-83 copy, where such a road contributes nothing. The two agree whenever every road carries its vertexes.
- HTTP clients are left out: the Kakao directions and address requests and the TMAP pedestrian route. The route is an input to `TravelInfo`. The roads are an input to `WalkingDirections`. The status and documents are inputs to `AddressSearch`. Caching is not modelled.
- Transactions are left out: `@transaction.atomic`, the conditional UPDATE and `IntegrityError` races. The deduction and the award are single sequential steps.
- The queryset plumbing is left out: weekly sums, stats, top-N and `total_steps_of`. Per-user weekly sums are given to `WeeklyRankAmong` as a sequence.
- Time zones are left out: `timezone.localtime`, `make_aware` and the naive `datetime.now()` of the nearest-market view. Every instant is a local wall-clock instant. Microseconds are dropped, so the countdowns see whole seconds.
- Unicode is left out. Digits are `0`-`9` and whitespace is the six ASCII space characters (space, tab, line feed, carriage return, vertical tab, form feed). JavaScript's `\d` is exactly `0`-`9`, as modelled. Python's `str.isdigit` also accepts other Unicode digits. Python's `str.strip`, JavaScript's `\s` and `trim` also strip other Unicode spaces, and `str.strip` also strips the ASCII separators `\x1c` to `\x1f`.
- The staff PIN's hash check is left out. `VerifyStaffPin` compares the active PIN with the code directly.
- Date arithmetic in the browser is left out: `calcSince`, `new Date(...).getTime()` and NaN timestamps. The `since` bound and each row's timestamp are inputs. `ParseDate` returns the matched fields rather than a millisecond count.
- The alphabetical sort mode (`localeCompare`) of the history page is left out. So are the accordion, animations, dial pads, focus handling, shake effects and timers.
- JavaScript `Number` precision is left out. Digit strings are read as unbounded integers. A use-point or balance beyond 2^53 would round in the browser.
- `makeDetailUrl` has two behaviours that are not modelled. The id is a string, so the number 0 (which the page treats as missing) is not modelled. `$` patterns in the replacement text are not modelled either.
- `ingredient_search_view`, `ingredient_input_view` and `recipe_ingredient_result` are covered only in part. Only their session resets and list updates are modelled. Searching is left out because `search_ingredients_by_name` is not part of this model. Recent-search updates are left out because `update_recent_searches` is not part of this model. `delete_recent_search`, `clear_recent_searches` and the leftover-flow views are also left out.
- `FoodViews.RecipeIngredientsPost`: the checked names are taken as `extract_checked_names_from_post` returns them. That helper is not part of this model. The active list comes from `get_active_shopping_list_from_session`, which is also not part of this model, so its id is a parameter.
- `FoodViews.RestoreSelectedIds`: the seed is a parameter, because `ids_seed` is not part of this model.
- `FoodViews.IdeaApi`: the history key stands for `idea_hist:` plus the lower-cased name. Lower-casing is not modelled.
- `str.splitlines()` is modelled by `MarketUtils.Lines`. It can give an extra empty piece, after a final break or inside a `\r\n` pair. The blank-line filter drops that piece at every use.
- Display ordering by ingredient name in `confirm_shopping_list` and `cart_view` is not modelled, because it only affects rendering.
- `activity_rows_minimal` is not modelled, because it is a field projection for rendering.
- The parts of `summarize_activity_totals` other than the distance are not modelled.
- Raising on a malformed `x`/`y` in an address document is not modelled. Coordinates are given as reals.
- `BarcodeScreen.Screen.Submit` assumes the code field is present. The OK button of the barcode success modal only closes it, and it is not modelled.
- `SecretInput.Screen.Submit` assumes the error paragraph is present whenever `hasError` holds. Closing the dial pad on submit is not modelled.

## Findings

| source | as written | input that shows it | evidently intended | confidence | as-written member | corrected member |
|---|---|---|---|---|---|---|
| market/utils.py:344-347 | The blank-line filter tests each line before its leading bullets are removed. A line that holds only numbering, such as "1.", passes the filter and then comes out as an empty praise line. Only two lines are kept, so a real line is cut off. | the reply "1.\nA\nB" gives ["", "A"] | the docstring promises two lines of sentences only: ["A", "B"] | medium (not executed) | MarketUtils.NumberedLineComesOutEmpty | MarketUtils.NumberedLineSkipped |

=== FILE: AccountsUtils.dfy ===
/**
 * Account helpers: copying the chosen address onto the user, the user's
 * district, this week's bounds, the address search's size clamp and
 * document mapping, and the distance figure of the activity totals.
 * Coordinates are copied, never computed with, so they are kept as reals.
 */
module AccountsUtils {
  import opened Wrappers
  import opened Calendar
  import PointUtils

  // ---------------------------------------------------------------------------
  // The user's address
  // ---------------------------------------------------------------------------

  /** An `Address` row (all its fields are required). */
  datatype Address = Address(
    id: nat, address: string, level1: string, level2: string, level3: string,
    latitude: real, longitude: real)

  /** The user fields the address helpers touch; each mirror field may be empty (`NULL`). */
  class User {
    var nickname: string
    var selectedAddress: Option<Address>
    var address: Option<string>
    var level1: Option<string>
    var level2: Option<string>
    var level3: Option<string>
    var latitude: Option<real>
    var longitude: Option<real>

    constructor (nickname: string)
      ensures this.nickname == nickname && selectedAddress.None?
      ensures address.None? && level1.None? && level2.None? && level3.None?
      ensures latitude.None? && longitude.None?
    {
      this.nickname := nickname;
      selectedAddress := None;
      address, level1, level2, level3 := None, None, None, None;
      latitude, longitude := None, None;
    }

    /**
     * `my_district`: the district (`addr_level2`) of the chosen address when
     * it has a non-empty one, otherwise the user's own mirror field.
     */
    function District(): (r: Option<string>)
      reads this
      ensures selectedAddress.Some? && selectedAddress.value.level2 != [] ==> r == Some(selectedAddress.value.level2)
      ensures !(selectedAddress.Some? && selectedAddress.value.level2 != []) ==> r == level2
    {
      if selectedAddress.Some? && selectedAddress.value.level2 != [] then Some(selectedAddress.value.level2)
      else level2
    }

    /**
     * `mirror_user_address`: the chosen address becomes `addr` and its six
     * fields are copied onto the user; nothing else about the user changes.
     */
    method MirrorAddress(addr: Address)
      modifies this
      ensures selectedAddress == Some(addr)
      ensures address == Some(addr.address) && level1 == Some(addr.level1)
      ensures level2 == Some(addr.level2) && level3 == Some(addr.level3)
      ensures latitude == Some(addr.latitude) && longitude == Some(addr.longitude)
      ensures nickname == old(nickname)
      ensures District() == Some(addr.level2)
    {
      selectedAddress := Some(addr);
      address := Some(addr.address);
      level1 := Some(addr.level1);
      level2 := Some(addr.level2);
      level3 := Some(addr.level3);
      latitude := Some(addr.latitude);
      longitude := Some(addr.longitude);
    }
  }

  // ---------------------------------------------------------------------------
  // This week
  // ---------------------------------------------------------------------------

  /**
   * `week_bounds_now`, read at `now`: today's date moved back by the weekday,
   * at midnight, and seven days later.
   */
  function WeekBoundsNow(now: nat): (r: (int, int))
    ensures r.1 - r.0 == WeekSeconds
  {
    var start := DayStart(now) - Weekday(now) * DaySeconds;
    (start, start + WeekSeconds)
  }

  /** It is the same week as `week_bounds` gives. */
  lemma WeekBoundsNowIsWeekBounds(now: nat)
    ensures WeekBoundsNow(now) == PointUtils.WeekBounds(now)
  {
    var day := now / DaySeconds;
    var start := (day - day % 7) * DaySeconds;
    assert DayStart(now) - Weekday(now) * DaySeconds == start;
    assert start % DaySeconds == 0 && (start / DaySeconds) % 7 == 0 by {
      assert start / DaySeconds == day - day % 7;
    }
    assert start <= now < start + WeekSeconds;
    PointUtils.WeekBoundsUnique(now, start);
  }

  // ---------------------------------------------------------------------------
  // Address search
  // ---------------------------------------------------------------------------

  const DefaultSearchSize := 20
  const MaxSearchSize := 30

  /**
   * `size = max(1, min(int(size), 30))`, where `None` is a size `int()`
   * rejects, which becomes 20.
   */
  function ClampSize(size: Option<int>): (r: int)
    ensures 1 <= r <= MaxSearchSize
    ensures size.None? ==> r == DefaultSearchSize
    ensures size.Some? && 1 <= size.value <= MaxSearchSize ==> r == size.value
    ensures size.Some? && size.value < 1 ==> r == 1
    ensures size.Some? && size.value > MaxSearchSize ==> r == MaxSearchSize
  {
    var n := if size.Some? then size.value else DefaultSearchSize;
    var capped := if n < MaxSearchSize then n else MaxSearchSize;
    if 1 < capped then capped else 1
  }

  /**
   * One address of a search document (`road_address` or `address`); `None`
   * for a missing or empty entry, absent names are `None`.
   */
  datatype AddressPart = AddressPart(
    addressName: Option<string>, region1: Option<string>, region2: Option<string>, region3: Option<string>,
    x: real, y: real)

  datatype Document = Document(roadAddress: Option<AddressPart>, address: Option<AddressPart>, addressName: Option<string>)

  /** One search result: `{name, l1, l2, l3, lat, lng}`. */
  datatype Place = Place(name: Option<string>, l1: string, l2: string, l3: string, lat: real, lng: real)

  /** `value or ""` for an optional text. */
  function OrEmpty(v: Option<string>): (r: string)
    ensures v.Some? ==> r == v.value
    ensures v.None? ==> r == []
  {
    if v.Some? then v.value else []
  }

  /**
   * The result for one document: the road address if present, else the plain
   * address, else nothing; the name is the address's own non-empty name or
   * the document's; missing region names become empty.
   */
  function PlaceOf(doc: Document): (r: Option<Place>)
    ensures r.None? <==> doc.roadAddress.None? && doc.address.None?
    ensures r.Some? ==>
      var base := if doc.roadAddress.Some? then doc.roadAddress.value else doc.address.value;
      r.value.lat == base.y && r.value.lng == base.x &&
      r.value.l1 == OrEmpty(base.region1) && r.value.l2 == OrEmpty(base.region2) &&
      r.value.l3 == OrEmpty(base.region3) &&
      (base.addressName.Some? && base.addressName.value != [] ==> r.value.name == base.addressName) &&
      (!(base.addressName.Some? && base.addressName.value != []) ==> r.value.name == doc.addressName)
  {
    var base := if doc.roadAddress.Some? then doc.roadAddress else doc.address;
    if base.None? then None
    else
      var b := base.value;
      var name := if b.addressName.Some? && b.addressName.value != [] then b.addressName else doc.addressName;
      Some(Place(name, OrEmpty(b.region1), OrEmpty(b.region2), OrEmpty(b.region3), b.y, b.x))
  }

  /** The results for `docs`, in order, skipping documents without an address. */
  function Places(docs: seq<Document>): (r: seq<Place>)
    ensures |r| <= |docs|
  {
    if docs == [] then []
    else
      var rest := Places(docs[..|docs| - 1]);
      match PlaceOf(docs[|docs| - 1])
      case None => rest
      case Some(p) => rest + [p]
  }

  /** Mapping works document by document. */
  lemma {:induction false} PlacesConcat(a: seq<Document>, b: seq<Document>)
    ensures Places(a + b) == Places(a) + Places(b)
    decreases |b|
  {
    if b == [] {
      assert a + b == a;
    } else {
      var b' := b[..|b| - 1];
      assert (a + b)[..|a + b| - 1] == a + b';
      assert (a + b)[|a + b| - 1] == b[|b| - 1];
      PlacesConcat(a, b');
    }
  }

  /** Every document with an address gives exactly one result. */
  lemma {:induction false} PlacesCount(docs: seq<Document>)
    ensures (forall k | 0 <= k < |docs| :: PlaceOf(docs[k]).Some?) ==> |Places(docs)| == |docs|
  {
    if docs != [] {
      var p := docs[..|docs| - 1];
      PlacesCount(p);
      assert forall k | 0 <= k < |p| :: p[k] == docs[k];
    }
  }

  /**
   * `kakao_address_search` once the service has answered with `status` and
   * `docs`: the size actually requested, and either the results or the
   * failing status.
   */
  method AddressSearch(size: Option<int>, status: int, docs: seq<Document>)
    returns (requested: int, r: Result<seq<Place>, int>)
    ensures requested == ClampSize(size)
    ensures status != 200 <==> r == Failure(status)
    ensures status == 200 ==> r == Success(Places(docs))
  {
    requested := ClampSize(size);
    if status != 200 {
      return requested, Failure(status);
    }
    var items: seq<Place> := [];
    for i := 0 to |docs|
      invariant items == Places(docs[..i])
    {
      assert docs[..i + 1][..i] == docs[..i];
      var doc := docs[i];
      var base := if doc.roadAddress.Some? then doc.roadAddress else doc.address;
      if base.None? {
        continue;
      }
      var b := base.value;
      var name := if b.addressName.Some? && b.addressName.value != [] then b.addressName else doc.addressName;
      items := items + [Place(name, OrEmpty(b.region1), OrEmpty(b.region2), OrEmpty(b.region3), b.y, b.x)];
    }
    assert docs[..|docs|] == docs;
    r := Success(items);
  }

  // ---------------------------------------------------------------------------
  // Activity totals
  // ---------------------------------------------------------------------------

  /** The rule 100 P = 1 km: `total_points / 100.0`, with an empty sum read as 0. */
  function TotalDistanceKm(pointSum: Option<int>): (km: real)
    ensures pointSum.None? ==> km == 0.0
    ensures pointSum.Some? ==> km * 100.0 == pointSum.value as real
  {
    var points := if pointSum.Some? then pointSum.value else 0;
    points as real / 100.0
  }

  /** The points of the rows, added up. */
  function PointsOf(rows: seq<PointUtils.LogEntry>): int {
    if rows == [] then 0 else PointsOf(rows[..|rows| - 1]) + rows[|rows| - 1].pointEarned
  }

  /**
   * `qs.aggregate(s=Sum("point_earned"))["s"]`: SQL's SUM, which is NULL
   * (`None`) over no rows.
   */
  function PointSum(rows: seq<PointUtils.LogEntry>): (s: Option<int>)
    ensures s.None? <==> rows == []
    ensures s.Some? ==> s.value == PointsOf(rows)
  {
    if rows == [] then None else Some(PointsOf(rows))
  }

  lemma {:induction false} PointsOfConcat(a: seq<PointUtils.LogEntry>, b: seq<PointUtils.LogEntry>)
    ensures PointsOf(a + b) == PointsOf(a) + PointsOf(b)
    decreases |b|
  {
    if b != [] {
      assert (a + b)[..|a + b| - 1] == a + b[..|b| - 1];
      PointsOfConcat(a, b[..|b| - 1]);
    } else {
      assert a + b == a;
    }
  }

  /**
   * The distance of two sets of activity rows together is the sum of their
   * distances, an empty set counting as 0 km.
   */
  lemma TotalDistanceOfConcat(a: seq<PointUtils.LogEntry>, b: seq<PointUtils.LogEntry>)
    ensures TotalDistanceKm(PointSum(a + b)) == TotalDistanceKm(PointSum(a)) + TotalDistanceKm(PointSum(b))
  {
    PointsOfConcat(a, b);
  }

  /**
   * Over one user's activity rows the summed points are what the ledger
   * credited that user, so the page's distance is the credited points over 100.
   */
  lemma {:induction false} PointsOfOwnRows(rows: seq<PointUtils.LogEntry>, user: PointUtils.UserId)
    requires forall i | 0 <= i < |rows| :: rows[i].user == user
    ensures PointsOf(rows) == PointUtils.Earned(rows, user)
    ensures TotalDistanceKm(PointSum(rows)) * 100.0 == PointUtils.Earned(rows, user) as real
    decreases |rows|
  {
    if rows != [] {
      PointsOfOwnRows(rows[..|rows| - 1], user);
    }
  }
}

=== FILE: ActivityHistory.dfy ===
/**
 * The activity history page in the browser: the detail address built from a
 * configured pattern, the date read from a row's text, the point label, the
 * period filter that shows or hides rows, and the newest-first reordering
 * that puts shown rows before hidden ones. Rows are known by their position
 * on the page; each row's timestamp is an input.
 */
module ActivityHistory {
  import opened Wrappers
  import opened Text
  import opened Sorting

  // ---------------------------------------------------------------------------
  // Detail address
  // ---------------------------------------------------------------------------

  /** The placeholder a pattern may hold for the id. */
  const IdToken: string := "__ID__"

  /** The length of a trailing `/0` or `/0/` (`/\/0\/?$/`), or 0 when the pattern has neither. */
  function ZeroSuffix(p: string): (n: nat)
    ensures n == 0 || n == 2 || n == 3
    ensures n <= |p|
    ensures n == 3 <==> |p| >= 3 && p[|p| - 3..] == "/0/"
    ensures n == 2 <==> |p| >= 2 && p[|p| - 2..] == "/0"
  {
    if |p| >= 3 && p[|p| - 3..] == "/0/" then
      assert p[|p| - 1] == '/';
      3
    else if |p| >= 2 && p[|p| - 2..] == "/0" then 2
    else 0
  }

  /**
   * `makeDetailUrl`: no id or no pattern gives ""; a pattern with the
   * placeholder has its first one replaced by the id; a pattern ending in
   * `/0` or `/0/` has that ending replaced by `/id/`; any other pattern has
   * its first "0" replaced by the id.
   */
  function MakeDetailUrl(id: string, pattern: string): (url: string)
    ensures id == [] || pattern == [] ==> url == []
    ensures id != [] && pattern != [] && !Contains(pattern, IdToken) && ZeroSuffix(pattern) == 0 ==>
      url == ReplaceFirst(pattern, "0", id)
  {
    if id == [] || pattern == [] then []
    else if Contains(pattern, IdToken) then ReplaceFirst(pattern, IdToken, id)
    else if ZeroSuffix(pattern) != 0 then pattern[..|pattern| - ZeroSuffix(pattern)] + "/" + id + "/"
    else ReplaceFirst(pattern, "0", id)
  }

  /**
   * A pattern whose first placeholder follows `pre` gives the address with
   * the id in that placeholder's place.
   */
  lemma DetailUrlOfPlaceholder(id: string, pre: string, post: string)
    requires id != []
    requires forall j | 0 <= j < |pre| :: !OccursAt(pre + IdToken + post, IdToken, j)
    ensures MakeDetailUrl(id, pre + IdToken + post) == pre + id + post
  {
    var p := pre + IdToken + post;
    assert OccursAt(p, IdToken, |pre|) by {
      assert p[|pre|..|pre| + |IdToken|] == IdToken;
    }
    var k := Find(p, IdToken).value;
    assert k == |pre|;
    assert p[..k] == pre;
    assert p[k + |IdToken|..] == post;
  }

  /** An occurrence of the placeholder starting in `pre` cannot run into a following "/". */
  lemma NoTokenAcrossSlash(pre: string, tail: string, j: nat)
    requires !Contains(pre, IdToken) && tail != [] && tail[0] == '/'
    requires j < |pre|
    ensures !OccursAt(pre + tail, IdToken, j)
  {
    var p := pre + tail;
    if j + |IdToken| <= |pre| {
      assert !OccursAt(pre, IdToken, j);
      assert pre[j..j + |IdToken|] == p[j..j + |IdToken|];
    } else if j + |IdToken| <= |p| {
      var m := |pre| - j;
      assert p[j..j + |IdToken|][m] == p[|pre|] == '/';
      assert IdToken[m] != '/';
    }
  }

  /**
   * A pattern that ends in "/0" or "/0/" and has no placeholder before that
   * ending gives the address for the id.
   */
  lemma DetailUrlOfZeroEnding(id: string, pre: string, slash: bool)
    requires id != [] && !Contains(pre, IdToken)
    ensures MakeDetailUrl(id, pre + "/0" + (if slash then "/" else "")) == pre + "/" + id + "/"
  {
    var tail := "/0" + (if slash then "/" else "");
    var p := pre + tail;
    assert p == pre + "/0" + (if slash then "/" else "");
    forall j | 0 <= j < |pre| ensures !OccursAt(p, IdToken, j) {
      NoTokenAcrossSlash(pre, tail, j);
    }
    forall j | |pre| <= j < |p| ensures !OccursAt(p, IdToken, j) {
      assert p[j] == tail[j - |pre|];
    }
    assert !Contains(p, IdToken);
    if slash {
      assert p[|p| - 3..] == "/0/";
    } else {
      assert p[|p| - 2..] == "/0";
    }
    assert p[..|p| - ZeroSuffix(p)] == pre;
  }

  // ---------------------------------------------------------------------------
  // Dates: /(\d{4})[.\-\/](\d{2})[.\-\/](\d{2})\s+(\d{2}):(\d{2})/
  // ---------------------------------------------------------------------------

  /** The date and time fields a row's text gives. */
  datatype Stamp = Stamp(year: nat, month: nat, day: nat, hour: nat, minute: nat)

  predicate IsDateSep(c: char) { c == '.' || c == '-' || c == '/' }

  /** `n` digits start at `i`. */
  predicate DigitsAt(t: string, i: nat, n: nat) {
    i + n <= |t| && AllDigits(t[i..i + n])
  }

  /** The end of the run of whitespace that starts at `j`. */
  function SpaceEnd(t: string, j: nat): (e: nat)
    requires j <= |t|
    ensures j <= e <= |t| && (e == |t| || !IsSpace(t[e]))
    ensures forall k | j <= k < e :: IsSpace(t[k])
    decreases |t| - j
  {
    if j == |t| || !IsSpace(t[j]) then j else SpaceEnd(t, j + 1)
  }

  /**
   * The pattern matches at `i`: a date with `.`, `-` or `/` between its
   * parts, whitespace, then hours and minutes. Only the whole run of
   * whitespace can be followed by a digit, so the match is determined by `i`.
   */
  predicate MatchAt(t: string, i: nat) {
    i + 11 <= |t| &&
    DigitsAt(t, i, 4) && IsDateSep(t[i + 4]) && DigitsAt(t, i + 5, 2) && IsDateSep(t[i + 7]) &&
    DigitsAt(t, i + 8, 2) && IsSpace(t[i + 10]) &&
    DigitsAt(t, SpaceEnd(t, i + 10), 2) && SpaceEnd(t, i + 10) + 5 <= |t| &&
    t[SpaceEnd(t, i + 10) + 2] == ':' && DigitsAt(t, SpaceEnd(t, i + 10) + 3, 2)
  }

  /** The fields of the match at `i`. */
  function StampAt(t: string, i: nat): Stamp
    requires MatchAt(t, i)
  {
    var j := SpaceEnd(t, i + 10);
    Stamp(DigitsValue(t[i..i + 4]), DigitsValue(t[i + 5..i + 7]), DigitsValue(t[i + 8..i + 10]),
          DigitsValue(t[j..j + 2]), DigitsValue(t[j + 3..j + 5]))
  }

  /** The leftmost match at `i` or later. */
  function MatchFrom(t: string, i: nat): (r: Option<nat>)
    ensures r.Some? ==> i <= r.value && MatchAt(t, r.value)
    ensures r.Some? ==> forall k | i <= k < r.value :: !MatchAt(t, k)
    ensures r.None? ==> forall k: nat | i <= k :: !MatchAt(t, k)
    decreases |t| - i
  {
    if i + 11 > |t| then None
    else if MatchAt(t, i) then Some(i)
    else MatchFrom(t, i + 1)
  }

  /**
   * `parseDate`: the fields of the leftmost match in the trimmed text, or
   * `None` (the 0 the page uses) when nothing matches.
   */
  function ParseDate(text: string): (r: Option<Stamp>)
    ensures r.None? <==> forall i: nat :: !MatchAt(Strip(text), i)
    ensures r.Some? ==> exists i: nat | MatchAt(Strip(text), i) ::
      r.value == StampAt(Strip(text), i) && forall k | 0 <= k < i :: !MatchAt(Strip(text), k)
  {
    var t := Strip(text);
    match MatchFrom(t, 0)
    case None => None
    case Some(i) =>
      assert MatchAt(t, i) && forall k | 0 <= k < i :: !MatchAt(t, k);
      Some(StampAt(t, i))
  }

  function Pow10(w: nat): (r: nat)
    ensures r >= 1
  {
    if w == 0 then 1 else 10 * Pow10(w - 1)
  }

  /** The last `w` decimal digits of `n`, with leading zeros. */
  function Pad(n: nat, w: nat): (r: string)
    ensures |r| == w && AllDigits(r)
  {
    if w == 0 then [] else Pad(n / 10, w - 1) + [('0' as int + n % 10) as char]
  }

  /** A number that fits in `w` digits reads back from its padded form. */
  lemma {:induction false} PadReadsBack(n: nat, w: nat)
    requires n < Pow10(w)
    ensures DigitsValue(Pad(n, w)) == n
  {
    if w > 0 {
      assert n / 10 < Pow10(w - 1);
      PadReadsBack(n / 10, w - 1);
      var p := Pad(n, w);
      assert p[..|p| - 1] == Pad(n / 10, w - 1);
    }
  }

  /** A stamp whose fields fit the pattern's widths. */
  predicate Fits(s: Stamp) {
    s.year < 10000 && s.month < 100 && s.day < 100 && s.hour < 100 && s.minute < 100
  }

  /** The text `YYYY.MM.DD HH:MM` a row shows for a stamp. */
  function ShowStamp(s: Stamp): (t: string)
    ensures |t| == 16
  {
    var y, mo, d, h, mi := Pad(s.year, 4), Pad(s.month, 2), Pad(s.day, 2), Pad(s.hour, 2), Pad(s.minute, 2);
    [y[0], y[1], y[2], y[3], '.', mo[0], mo[1], '.', d[0], d[1], ' ', h[0], h[1], ':', mi[0], mi[1]]
  }

  /** The shown text matches at its start, with the stamp's fields. */
  lemma ShownMatches(s: Stamp)
    ensures MatchAt(ShowStamp(s), 0)
    ensures var t := ShowStamp(s);
      t[0..4] == Pad(s.year, 4) && t[5..7] == Pad(s.month, 2) && t[8..10] == Pad(s.day, 2) &&
      SpaceEnd(t, 10) == 11 && t[11..13] == Pad(s.hour, 2) && t[14..16] == Pad(s.minute, 2)
  {
    var t := ShowStamp(s);
    var y, mo, d, h, mi := Pad(s.year, 4), Pad(s.month, 2), Pad(s.day, 2), Pad(s.hour, 2), Pad(s.minute, 2);
    assert t[0..4] == [y[0], y[1], y[2], y[3]] == y;
    assert t[5..7] == [mo[0], mo[1]] == mo;
    assert t[8..10] == [d[0], d[1]] == d;
    assert t[11..13] == [h[0], h[1]] == h;
    assert t[14..16] == [mi[0], mi[1]] == mi;
    assert IsDigit(t[11]);
    assert SpaceEnd(t, 11) == 11;
  }

  /** The fields of the shown text are the stamp's. */
  lemma StampOfShown(s: Stamp)
    requires Fits(s)
    ensures MatchAt(ShowStamp(s), 0) && StampAt(ShowStamp(s), 0) == s
  {
    ShownMatches(s);
    PadReadsBack(s.year, 4);
    PadReadsBack(s.month, 2);
    PadReadsBack(s.day, 2);
    PadReadsBack(s.hour, 2);
    PadReadsBack(s.minute, 2);
  }

  /** The date a row shows is read back as itself. */
  lemma ParseDateOfShown(s: Stamp)
    requires Fits(s)
    ensures ParseDate(ShowStamp(s)) == Some(s)
  {
    var t := ShowStamp(s);
    assert IsDigit(t[0]) && IsDigit(t[15]);
    StripOfTrimmed(t);
    StampOfShown(s);
    ParseDateAtStart(t);
  }

  /** A match at the start is the leftmost one. */
  lemma MatchFromStart(t: string)
    requires MatchAt(t, 0)
    ensures MatchFrom(t, 0) == Some(0)
  {
  }

  /** A trimmed text that matches at its start gives the fields of that match. */
  lemma ParseDateAtStart(t: string)
    requires Strip(t) == t && MatchAt(t, 0)
    ensures ParseDate(t) == Some(StampAt(t, 0))
  {
    MatchFromStart(t);
  }

  // ---------------------------------------------------------------------------
  // Point label
  // ---------------------------------------------------------------------------

  /** `Math.trunc`: the integer part, towards zero. */
  function Trunc(x: real): (r: int)
    ensures 0.0 <= x ==> r as real <= x < r as real + 1.0
    ensures x < 0.0 ==> r as real - 1.0 < x <= r as real
  {
    if x >= 0.0 then x.Floor else -((-x).Floor)
  }

  /**
   * `_fmtPoint`: the whole part of the amount, 0 when it is not a finite
   * number (`None`) or is negative, as `+ 1,234 P`.
   */
  function PointLabel(p: Option<real>): (s: string)
    ensures |s| >= 5 && s[..2] == "+ " && s[|s| - 2..] == " P"
  {
    var n := if p.Some? then Trunc(p.value) else 0;
    var shown: nat := if n < 0 then 0 else n;
    "+ " + FormatThousands(shown) + " P"
  }

  /** A label around digits and commas carries no minus sign. */
  lemma LabelHasNoMinus(f: string)
    requires forall k | 0 <= k < |f| :: IsDigit(f[k]) || f[k] == ','
    ensures '-' !in "+ " + f + " P"
  {
    var text := "+ " + f + " P";
    forall k | 0 <= k < |text| ensures text[k] != '-' {
      if 2 <= k < 2 + |f| {
        assert text[k] == f[k - 2];
      }
    }
  }

  /** The digits of a label are the digits of what it wraps. */
  lemma LabelDigits(f: string)
    ensures DigitsOnly("+ " + f + " P") == DigitsOnly(f)
  {
    DigitsOnlyConcat("+ " + f, " P");
    DigitsOnlyConcat("+ ", f);
    assert DigitsOnly("+ ") == [] by {
      assert "+ "[1..] == " ";
    }
    assert DigitsOnly(" P") == [] by {
      assert " P"[1..] == "P";
    }
  }

  /** The label carries no minus sign and reads back as the amount, clamped at 0. */
  lemma PointLabelNeverNegative(p: Option<real>)
    ensures '-' !in PointLabel(p)
    ensures var n := if p.Some? then Trunc(p.value) else 0;
      DigitsValue(DigitsOnly(PointLabel(p))) == if n < 0 then 0 else n
  {
    var n := if p.Some? then Trunc(p.value) else 0;
    var shown: nat := if n < 0 then 0 else n;
    GroupedChars(ShowNat(shown));
    FormatThousandsReadsBack(shown);
    LabelHasNoMinus(FormatThousands(shown));
    LabelDigits(FormatThousands(shown));
  }

  // ---------------------------------------------------------------------------
  // Filtering and ordering the rows
  // ---------------------------------------------------------------------------

  /** The positions of the rows whose shown flag is `want`, in page order. */
  function RowsWhere(shown: seq<bool>, want: bool): (r: seq<nat>)
    ensures forall k | 0 <= k < |r| :: r[k] < |shown| && shown[r[k]] == want
    ensures forall i | 0 <= i < |shown| && shown[i] == want :: i in r
    ensures forall p, q | 0 <= p < q < |r| :: r[p] < r[q]
  {
    if shown == [] then []
    else
      var last := |shown| - 1;
      var prev := RowsWhere(shown[..last], want);
      assert forall i | 0 <= i < last :: shown[..last][i] == shown[i];
      if shown[last] == want then prev + [last] else prev
  }

  /** All positions `0 .. n - 1`. */
  function Positions(n: nat): (r: seq<nat>)
    ensures |r| == n && forall i | 0 <= i < n :: r[i] == i
  {
    if n == 0 then [] else Positions(n - 1) + [n - 1]
  }

  /** Shown and hidden rows together are every row once. */
  lemma {:induction false} RowsWhereSplit(shown: seq<bool>)
    ensures multiset(RowsWhere(shown, true)) + multiset(RowsWhere(shown, false)) == multiset(Positions(|shown|))
  {
    if shown != [] {
      RowsWhereSplit(shown[..|shown| - 1]);
    }
  }

  /** The timestamp of the row at a position. */
  function StampOf(stamps: seq<int>): nat -> int {
    (i: nat) => if i < |stamps| then stamps[i] else 0
  }

  /** Newest first; rows with the same time keep their page order. */
  predicate NewestFirst(rows: seq<nat>, key: nat -> int) {
    forall p, q | 0 <= p < q < |rows| :: key(rows[p]) > key(rows[q]) || (key(rows[p]) == key(rows[q]) && rows[p] < rows[q])
  }

  /** Inserting a row that comes before all others on the page keeps the order. */
  lemma {:induction false} InsertKeepsPageOrder(x: nat, s: seq<nat>, key: nat -> int)
    requires SortedDesc(s, key) && NewestFirst(s, key)
    requires forall k | 0 <= k < |s| :: x < s[k]
    ensures NewestFirst(InsertDesc(x, s, key), key)
  {
    if s != [] && key(x) < key(s[0]) {
      InsertKeepsPageOrder(x, s[1..], key);
      InsertBehindHead(x, s, key);
    } else if s != [] {
      InsertAtHead(x, s, key);
    }
  }

  /** A row newer than every other goes first and keeps the order. */
  lemma InsertAtHead(x: nat, s: seq<nat>, key: nat -> int)
    requires SortedDesc(s, key) && NewestFirst(s, key) && s != [] && key(x) >= key(s[0])
    requires forall k | 0 <= k < |s| :: x < s[k]
    ensures NewestFirst(InsertDesc(x, s, key), key)
  {
    var r := InsertDesc(x, s, key);
    assert r == [x] + s;
    forall p, q | 0 <= p < q < |r| ensures key(r[p]) > key(r[q]) || (key(r[p]) == key(r[q]) && r[p] < r[q]) {
      if p == 0 {
        assert r[q] == s[q - 1];
      } else {
        assert r[p] == s[p - 1] && r[q] == s[q - 1];
      }
    }
  }

  /** A row older than the first goes behind it, so the order holds when it holds for the rest. */
  lemma InsertBehindHead(x: nat, s: seq<nat>, key: nat -> int)
    requires SortedDesc(s, key) && NewestFirst(s, key) && s != [] && key(x) < key(s[0])
    requires NewestFirst(InsertDesc(x, s[1..], key), key)
    ensures NewestFirst(InsertDesc(x, s, key), key)
  {
    var r := InsertDesc(x, s, key);
    var t := InsertDesc(x, s[1..], key);
    assert r == [s[0]] + t;
    forall p, q | 0 <= p < q < |r| ensures key(r[p]) > key(r[q]) || (key(r[p]) == key(r[q]) && r[p] < r[q]) {
      var y := t[q - 1];
      if p == 0 {
        InsertedMember(x, s[1..], key, y);
        if y != x {
          var j :| 0 <= j < |s[1..]| && s[1..][j] == y;
          assert s[j + 1] == y;
        }
      } else {
        assert r[p] == t[p - 1] && r[q] == y;
      }
    }
  }

  /** What `InsertDesc` places is the new row or a row that was there. */
  lemma InsertedMember(x: nat, s: seq<nat>, key: nat -> int, y: nat)
    requires SortedDesc(s, key) && y in InsertDesc(x, s, key)
    ensures y == x || y in s
  {
    assert y in multiset(InsertDesc(x, s, key));
  }

  /** Sorting rows listed in page order puts them newest first with ties in page order. */
  lemma {:induction false} SortKeepsPageOrder(s: seq<nat>, key: nat -> int)
    requires forall p, q | 0 <= p < q < |s| :: s[p] < s[q]
    ensures NewestFirst(SortDesc(s, key), key)
  {
    if s != [] {
      var rest := SortDesc(s[1..], key);
      SortKeepsPageOrder(s[1..], key);
      forall k | 0 <= k < |rest| ensures s[0] < rest[k] {
        assert rest[k] in multiset(rest);
        assert rest[k] in multiset(s[1..]);
        var j :| 0 <= j < |s[1..]| && s[1..][j] == rest[k];
        assert s[j + 1] == rest[k];
      }
      InsertKeepsPageOrder(s[0], rest, key);
    }
  }

  /** The order `sortList("latest")` leaves the rows in: shown rows newest first, then hidden rows in page order. */
  function RowOrder(stamps: seq<int>, shown: seq<bool>): (r: seq<nat>)
    ensures |r| == |shown|
  {
    RowsWhereSplit(shown);
    assert |multiset(RowsWhere(shown, true)) + multiset(RowsWhere(shown, false))| == |shown|;
    SortDesc(RowsWhere(shown, true), StampOf(stamps)) + RowsWhere(shown, false)
  }

  /** The reordering moves every row exactly once. */
  lemma RowOrderIsPermutation(stamps: seq<int>, shown: seq<bool>)
    ensures multiset(RowOrder(stamps, shown)) == multiset(Positions(|shown|))
  {
    RowsWhereSplit(shown);
  }

  /** The shown rows come first and the hidden rows after them. */
  lemma RowOrderShownFirst(stamps: seq<int>, shown: seq<bool>)
    ensures var r := RowOrder(stamps, shown);
      forall p | 0 <= p < |r| :: r[p] < |shown| && (shown[r[p]] <==> p < |RowsWhere(shown, true)|)
  {
    var vis := RowsWhere(shown, true);
    var sorted := SortDesc(vis, StampOf(stamps));
    ShownThenHidden(shown, sorted, RowsWhere(shown, false));
  }

  /** Shown rows in any order followed by the hidden rows: a position holds a shown row exactly when it comes first. */
  lemma ShownThenHidden(shown: seq<bool>, sorted: seq<nat>, hid: seq<nat>)
    requires multiset(sorted) == multiset(RowsWhere(shown, true)) && hid == RowsWhere(shown, false)
    ensures var r := sorted + hid;
      forall p | 0 <= p < |r| :: r[p] < |shown| && (shown[r[p]] <==> p < |sorted|)
  {
    var r := sorted + hid;
    PermutedRowsAreShown(shown, sorted);
    forall p | 0 <= p < |r| ensures r[p] < |shown| && (shown[r[p]] <==> p < |sorted|) {
      if p < |sorted| {
        assert r[p] == sorted[p];
      } else {
        assert r[p] == hid[p - |sorted|];
      }
    }
  }

  /** Reordering the shown rows brings in no hidden row. */
  lemma PermutedRowsAreShown(shown: seq<bool>, sorted: seq<nat>)
    requires multiset(sorted) == multiset(RowsWhere(shown, true))
    ensures forall p | 0 <= p < |sorted| :: sorted[p] < |shown| && shown[sorted[p]]
  {
    var vis := RowsWhere(shown, true);
    forall p | 0 <= p < |sorted| ensures sorted[p] < |shown| && shown[sorted[p]] {
      assert sorted[p] in multiset(sorted);
      assert sorted[p] in vis;
    }
  }

  /** The shown rows are newest first, with rows of the same time in page order. */
  lemma RowOrderNewestFirst(stamps: seq<int>, shown: seq<bool>)
    ensures NewestFirst(RowOrder(stamps, shown)[..|RowsWhere(shown, true)|], StampOf(stamps))
  {
    var vis := RowsWhere(shown, true);
    var sorted := SortDesc(vis, StampOf(stamps));
    SortKeepsPageOrder(vis, StampOf(stamps));
    assert RowOrder(stamps, shown)[..|vis|] == sorted;
  }

  /** The hidden rows keep their page order. */
  lemma RowOrderHiddenInPageOrder(stamps: seq<int>, shown: seq<bool>)
    ensures var r := RowOrder(stamps, shown); var v := |RowsWhere(shown, true)|;
      forall p, q | v <= p < q < |r| :: r[p] < r[q]
  {
    var vis := RowsWhere(shown, true);
    var sorted := SortDesc<nat>(vis, StampOf(stamps));
    assert |sorted| == |vis|;
    TailKeepsOrder(sorted, RowsWhere(shown, false));
  }

  /** Rows appended after a block keep their increasing order there. */
  lemma TailKeepsOrder(front: seq<nat>, tail: seq<nat>)
    requires forall p, q | 0 <= p < q < |tail| :: tail[p] < tail[q]
    ensures var r := front + tail; forall p, q | |front| <= p < q < |r| :: r[p] < r[q]
  {
    var r := front + tail;
    forall p, q | |front| <= p < q < |r| ensures r[p] < r[q] {
      assert r[p] == tail[p - |front|] && r[q] == tail[q - |front|];
    }
  }

  /** The history list: each row's timestamp and whether it is shown, and the rows in their current order. */
  class HistoryPage {
    const stamps: seq<int>
    const shown: array<bool>
    var order: seq<nat>

    predicate Valid()
      reads this
    {
      shown.Length == |stamps|
    }

    constructor (stamps: seq<int>)
      ensures Valid() && this.stamps == stamps && fresh(shown)
      ensures order == Positions(|stamps|)
      ensures forall i | 0 <= i < shown.Length :: shown[i]
    {
      this.stamps := stamps;
      shown := new bool[|stamps|](_ => true);
      order := Positions(|stamps|);
    }

    /**
     * `applyRangeFilter`: with "all" every row is shown; with any other value a
     * row is shown exactly when its timestamp is not before `since`.
     */
    method ApplyRangeFilter(value: string, since: int)
      requires Valid()
      modifies shown
      ensures Valid()
      ensures forall i | 0 <= i < shown.Length :: shown[i] == (value == "all" || stamps[i] >= since)
    {
      for i := 0 to shown.Length
        invariant forall k | 0 <= k < i :: shown[k] == (value == "all" || stamps[k] >= since)
      {
        shown[i] := if value == "all" then true else stamps[i] >= since;
      }
    }

    /** `sortList("latest")`: the rows are re-appended in `RowOrder`. */
    method SortLatest()
      requires Valid()
      modifies this
      ensures Valid()
      ensures order == RowOrder(stamps, shown[..])
    {
      var visible: seq<nat> := [];
      var hidden: seq<nat> := [];
      for i := 0 to shown.Length
        invariant visible == RowsWhere(shown[..i], true)
        invariant hidden == RowsWhere(shown[..i], false)
      {
        assert shown[..i + 1][..i] == shown[..i];
        if shown[i] {
          visible := visible + [i];
        } else {
          hidden := hidden + [i];
        }
      }
      assert shown[..shown.Length] == shown[..];
      order := SortDesc(visible, StampOf(stamps)) + hidden;
    }
  }
}

=== FILE: BarcodeScreen.dfy ===
/**
 * The point-use page in the browser: the masked four-box PIN entry, the
 * use-point field with its step and balance rules and the remaining-balance
 * display, and the submit guard that only lets through what the server's
 * own checks accept. Page elements become fields of `Screen`; the dial pad,
 * focus handling and shake animation are not part of this model.
 */
module BarcodeScreen {
  import opened Wrappers
  import opened Text
  import PointUtils

  // ---------------------------------------------------------------------------
  // The balance the page starts from
  // ---------------------------------------------------------------------------

  /**
   * `LEFT_POINT`: the digits of the `data-left-point` attribute when it is
   * present, else of the shown balance text (or "0" when there is none),
   * read as a number; text without digits reads as 0.
   */
  function LeftPoint(attr: Option<string>, shown: Option<string>): (n: nat)
    ensures attr.Some? ==> n == DigitsValue(DigitsOnly(attr.value))
    ensures attr.None? && (shown.None? || shown.value == []) ==> n == 0
    ensures attr.None? && shown.Some? && shown.value != [] ==> n == DigitsValue(DigitsOnly(shown.value))
  {
    var source := if attr.Some? then attr.value else if shown.Some? && shown.value != [] then shown.value else "0";
    assert DigitsOnly("0") == "0";
    DigitsValue(DigitsOnly(source))
  }

  /** A balance the page printed with thousands separators is read back as itself. */
  lemma LeftPointReadsShownBalance(n: nat)
    ensures LeftPoint(None, Some(FormatThousands(n))) == n
  {
    FormatThousandsReadsBack(n);
  }

  // ---------------------------------------------------------------------------
  // The use-point rules
  // ---------------------------------------------------------------------------

  /** What `validateUsePoint` decides about the amount. */
  datatype PointCheck = Empty | OffStep | OverBalance | Accepted(amount: nat)

  /**
   * The rules on the digits of the field: no digits or zero shows the empty
   * error, an amount that is not a multiple of 100 the step error, and an
   * amount above the balance is refused without a message.
   */
  function CheckUsePoint(raw: string, left: nat): (c: PointCheck)
    ensures var d := DigitsOnly(raw);
      (c.Empty? <==> DigitsValue(d) == 0) &&
      (c.OffStep? <==> DigitsValue(d) != 0 && DigitsValue(d) % 100 != 0) &&
      (c.Accepted? <==> 0 < DigitsValue(d) <= left && DigitsValue(d) % 100 == 0) &&
      (c.Accepted? ==> c.amount == DigitsValue(d))
  {
    var digits := DigitsOnly(raw);
    var v := DigitsValue(digits);
    if digits == [] || v == 0 then Empty
    else if v % 100 != 0 then OffStep
    else if v > left then OverBalance
    else Accepted(v)
  }

  /** The balance shown after the check: what would remain when the amount is accepted, else the balance. */
  function Remaining(c: PointCheck, left: nat): (r: nat)
    ensures c.Accepted? && c.amount <= left ==> r + c.amount == left
    ensures !c.Accepted? ==> r == left
  {
    var used := if c.Accepted? then c.amount else 0;
    if left - used < 0 then 0 else left - used
  }

  /** An amount the page accepts is one the server's `parse_use_point` accepts, and the balance covers it. */
  lemma AcceptedAmountParses(raw: string, left: nat)
    requires CheckUsePoint(raw, left).Accepted?
    ensures var v := CheckUsePoint(raw, left).amount;
      PointUtils.ParseUsePoint(DigitsOnly(raw)) == Some(v) && 0 < v <= left
  {
    var d := DigitsOnly(raw);
    assert d != [];
    StripOfDigits(d);
  }

  /** Every positive multiple of 100 within the balance, typed as digits, is accepted as itself. */
  lemma StepAmountAccepted(n: nat, left: nat)
    requires 0 < n <= left && n % 100 == 0
    ensures CheckUsePoint(ShowNat(n), left) == Accepted(n)
  {
    DigitsOnlyOfDigits(ShowNat(n));
    DigitsValueShowNat(n);
  }

  /** The server accepts 0 points, the page does not. */
  lemma ZeroRefusedOnlyByPage(left: nat)
    ensures CheckUsePoint("0", left) == Empty
    ensures PointUtils.ParseUsePoint("0") == Some(0)
  {
    assert DigitsOnly("0") == "0";
    StripOfDigits("0");
  }

  // ---------------------------------------------------------------------------
  // The page
  // ---------------------------------------------------------------------------

  /** One PIN box: its text, and its `has-value`, `next` and `error` classes. */
  datatype PinBox = PinBox(text: string, hasValue: bool, next: bool, error: bool)

  /** The mask a box shows for an entered digit. */
  const Mask: string := "•"

  class Screen {
    const boxes: array<PinBox>
    /** The hidden input that collects the PIN. */
    var hidden: string
    var nextDisabled: bool
    var pinErrorShown: bool
    /** Whether the page has a use-point field, and its value. */
    const hasUsePoint: bool
    var usePoint: string
    var emptyErrorShown: bool
    var stepErrorShown: bool
    /** Whether the page shows the balance, and the text it shows. */
    const hasLeftText: bool
    var leftText: string
    const leftPoint: nat
    /** The `code` field the server reads. */
    var code: string

    /** The page after loading: the balance is read once and the empty PIN is rendered. */
    constructor (boxes: array<PinBox>, leftAttr: Option<string>, hasLeftText: bool, leftText: string,
                 hasUsePoint: bool, usePoint: string)
      modifies boxes
      ensures this.boxes == boxes && this.hasLeftText == hasLeftText && this.hasUsePoint == hasUsePoint
      ensures this.leftText == leftText && this.usePoint == usePoint
      ensures leftPoint == LeftPoint(leftAttr, if hasLeftText then Some(leftText) else None)
      ensures hidden == [] && nextDisabled && !pinErrorShown && code == []
      ensures forall i | 0 <= i < boxes.Length :: boxes[i] == PinBox([], false, i == 0, false)
    {
      this.boxes := boxes;
      this.hasLeftText, this.leftText := hasLeftText, leftText;
      this.hasUsePoint, this.usePoint := hasUsePoint, usePoint;
      leftPoint := LeftPoint(leftAttr, if hasLeftText then Some(leftText) else None);
      emptyErrorShown, stepErrorShown := false, false;
      code := [];
      hidden, nextDisabled, pinErrorShown := [], true, false;
      new;
      RenderPin([]);
    }

    /**
     * `renderPin`: the first four digits of the input become the PIN; box `i`
     * is masked exactly when a digit was entered for it, the box after the last
     * digit is marked as next, errors are cleared, and the button is enabled
     * exactly when the PIN is a valid four-digit code.
     */
    method RenderPin(input: string)
      modifies this, boxes
      ensures hidden == FirstDigits(input, 4)
      ensures forall i | 0 <= i < boxes.Length ::
        boxes[i].hasValue == (i < |hidden|) &&
        boxes[i].text == (if i < |hidden| then Mask else []) &&
        boxes[i].next == (i == |hidden| && |hidden| < boxes.Length) &&
        !boxes[i].error
      ensures nextDisabled <==> !PointUtils.Valid4Digit(hidden)
      ensures !pinErrorShown
      ensures usePoint == old(usePoint) && leftText == old(leftText) && code == old(code)
      ensures emptyErrorShown == old(emptyErrorShown) && stepErrorShown == old(stepErrorShown)
    {
      var digits := FirstDigits(input, 4);
      for i := 0 to boxes.Length
        modifies boxes
        invariant forall k | 0 <= k < i ::
          boxes[k] == PinBox(if k < |digits| then Mask else [], k < |digits|, k == |digits| && |digits| < boxes.Length, false)
      {
        var filled := i < |digits|;
        boxes[i] := PinBox(if filled then Mask else [], filled, i == |digits| && |digits| < boxes.Length, false);
      }
      hidden := digits;
      nextDisabled := |digits| != 4;
      pinErrorShown := false;
    }

    /** The point messages and the balance text show the outcome of a check. */
    predicate ShowsCheck(c: PointCheck)
      reads this
    {
      emptyErrorShown == c.Empty? && stepErrorShown == c.OffStep? &&
      (hasLeftText ==> leftText == FormatThousands(Remaining(c, leftPoint)))
    }

    /**
     * `validateUsePoint`: the field keeps only its digits, the messages and
     * the remaining balance show the outcome, and the result says whether the
     * amount is accepted. A page without the field accepts.
     */
    method ValidateUsePoint() returns (ok: bool)
      modifies this
      ensures !hasUsePoint ==> ok && usePoint == old(usePoint) && leftText == old(leftText)
      ensures !hasUsePoint ==> emptyErrorShown == old(emptyErrorShown) && stepErrorShown == old(stepErrorShown)
      ensures hasUsePoint ==> usePoint == DigitsOnly(old(usePoint))
      ensures hasUsePoint ==> var c := CheckUsePoint(old(usePoint), leftPoint);
        ok == c.Accepted? && ShowsCheck(c)
      ensures !hasLeftText ==> leftText == old(leftText)
      ensures hidden == old(hidden) && nextDisabled == old(nextDisabled)
      ensures pinErrorShown == old(pinErrorShown) && code == old(code)
    {
      if !hasUsePoint {
        return true;
      }
      var raw := DigitsOnly(usePoint);
      usePoint := raw;
      DigitsOnlyOfDigits(raw);
      var c := CheckUsePoint(raw, leftPoint);
      emptyErrorShown, stepErrorShown := c.Empty?, c.OffStep?;
      ok := c.Accepted?;
      if hasLeftText {
        leftText := FormatThousands(Remaining(c, leftPoint));
      }
    }

    /**
     * The submit handler: the form is sent only when the PIN is exactly four
     * digits and the amount is accepted; then the code field carries the PIN.
     * A malformed PIN shows the PIN error. What is sent passes the server's
     * PIN format check and amount parsing, and the balance covers the amount.
     */
    method Submit() returns (sent: bool)
      modifies this
      ensures hidden == old(hidden) && nextDisabled == old(nextDisabled)
      ensures hasUsePoint ==> usePoint == DigitsOnly(old(usePoint))
      ensures !hasUsePoint ==> usePoint == old(usePoint)
      ensures hasUsePoint ==> ShowsCheck(CheckUsePoint(old(usePoint), leftPoint))
      ensures sent <==> (PointUtils.Valid4Digit(hidden) &&
                         (!hasUsePoint || CheckUsePoint(old(usePoint), leftPoint).Accepted?))
      ensures sent ==> code == hidden && PointUtils.Valid4Digit(code)
      ensures sent && hasUsePoint ==> exists v: nat ::
        PointUtils.ParseUsePoint(usePoint) == Some(v) && 0 < v <= leftPoint
      ensures !sent ==> code == old(code)
      ensures pinErrorShown == (old(pinErrorShown) || !PointUtils.Valid4Digit(hidden))
    {
      var pin := hidden;
      var pinOk := |pin| == 4 && AllDigits(pin);
      var pointOk := ValidateUsePoint();
      if !pinOk || !pointOk {
        if !pinOk {
          pinErrorShown := true;
        }
        return false;
      }
      if hasUsePoint {
        AcceptedAmountParses(old(usePoint), leftPoint);
      }
      code := pin;
      sent := true;
    }
  }
}

=== FILE: Calendar.dfy ===
/**
 * Local wall-clock instants. An instant is a whole number of seconds since
 * 0001-01-01 00:00 local time, which was a Monday (Python's date ordinal 1),
 * so the weekday and the time of day fall out of integer division.
 */
module Calendar {

  const DaySeconds: nat := 86400
  const WeekSeconds: nat := 7 * 86400

  /** A time of day (`datetime.time`) in seconds after midnight. */
  type Clock = t: int | 0 <= t < 86400

  /** `datetime.weekday()`: Monday is 0, Sunday is 6. */
  function Weekday(now: nat): (d: nat)
    ensures d < 7
  {
    (now / DaySeconds) % 7
  }

  /** `datetime.time()` of an instant. */
  function TimeOfDay(now: nat): Clock {
    now % DaySeconds
  }

  /** Midnight at the start of the instant's date. */
  function DayStart(now: nat): (r: nat)
    ensures r <= now < r + DaySeconds && r % DaySeconds == 0
    ensures now == r + TimeOfDay(now)
  {
    (now / DaySeconds) * DaySeconds
  }

  /** Shifting an instant by whole days keeps its time of day. */
  lemma {:induction false} TimeOfDayShift(t: nat, days: nat)
    ensures TimeOfDay(t + days * DaySeconds) == TimeOfDay(t)
  {
    if days > 0 {
      TimeOfDayShift(t, days - 1);
      assert t + days * DaySeconds == (t + (days - 1) * DaySeconds) + DaySeconds;
    }
  }
}

=== FILE: Carts.dfy ===
/**
 * The cart: the `ShoppingListIngredient` rows of the user's active shopping
 * list. Each row has a database id and names one catalogue ingredient
 * (ingredient names are unique in the catalogue, so a row is identified by
 * its name). Deletions are queries over the rows; creation appends rows
 * with fresh ids.
 */
module Carts {

  datatype Row = Row(id: nat, name: string)

  /** The ingredient names of `rows`, in row order. */
  function NamesOf(rows: seq<Row>): (r: seq<string>)
    ensures |r| == |rows|
    ensures forall i | 0 <= i < |rows| :: r[i] == rows[i].name
  {
    if rows == [] then [] else [rows[0].name] + NamesOf(rows[1..])
  }

  /** Row ids increase along the sequence, as the database assigns them. */
  predicate IdsIncreasing(rows: seq<Row>) {
    forall i, j | 0 <= i < j < |rows| :: rows[i].id < rows[j].id
  }

  /** Rows for `names`, numbered from `start` upwards: the result of `bulk_create`. */
  function FreshRows(start: nat, names: seq<string>): (r: seq<Row>)
    ensures NamesOf(r) == names
    ensures forall i | 0 <= i < |r| :: r[i].id == start + i
    decreases names
  {
    if names == [] then [] else [Row(start, names[0])] + FreshRows(start + 1, names[1..])
  }

  /** `.filter(ingredient__name__in=names).delete()`: the rows whose name is not in `names`, in order. */
  function WithoutNames(rows: seq<Row>, names: set<string>): (r: seq<Row>)
    ensures forall x :: x in r <==> x in rows && x.name !in names
    ensures |r| <= |rows|
    ensures (forall i | 0 <= i < |rows| :: rows[i].name !in names) ==> r == rows
  {
    if rows == [] then []
    else
      var rest := WithoutNames(rows[1..], names);
      assert forall x :: x in rows <==> x == rows[0] || x in rows[1..];
      if rows[0].name in names then rest else [rows[0]] + rest
  }

  /** Deleting by name keeps the remaining rows in their order. */
  lemma {:induction false} WithoutNamesOrdered(rows: seq<Row>, names: set<string>)
    requires IdsIncreasing(rows)
    ensures IdsIncreasing(WithoutNames(rows, names))
  {
    if rows != [] {
      var tail := rows[1..];
      assert forall k | 0 <= k < |tail| :: tail[k] == rows[k + 1];
      WithoutNamesOrdered(tail, names);
      if rows[0].name !in names {
        ConsOrdered(rows[0], WithoutNames(tail, names), tail);
      }
    }
  }

  /** A row with a smaller id than every row of `tail` can go in front of ordered rows taken from `tail`. */
  lemma ConsOrdered(h: Row, rest: seq<Row>, tail: seq<Row>)
    requires IdsIncreasing(rest) && forall x | x in rest :: x in tail
    requires forall k | 0 <= k < |tail| :: h.id < tail[k].id
    ensures IdsIncreasing([h] + rest)
  {
    var r := [h] + rest;
    forall i, j | 0 <= i < j < |r| ensures r[i].id < r[j].id {
      assert r[j] == rest[j - 1] && r[j] in tail;
      if i > 0 {
        assert r[i] == rest[i - 1];
      }
    }
  }

  /** The cart's names after deleting `names` are the others. */
  lemma NamesWithoutNames(rows: seq<Row>, names: set<string>)
    ensures forall n :: n in NamesOf(WithoutNames(rows, names)) <==> n in NamesOf(rows) && n !in names
  {
    var r := WithoutNames(rows, names);
    forall n ensures n in NamesOf(r) <==> n in NamesOf(rows) && n !in names {
      NameInRows(r, n);
      NameInRows(rows, n);
      if n in NamesOf(r) {
        var x :| x in r && x.name == n;
        assert x in rows;
      }
      if n in NamesOf(rows) && n !in names {
        var x :| x in rows && x.name == n;
        assert x in r;
      }
    }
  }

  /** A name is among the names of `rows` exactly when some row carries it. */
  lemma NameInRows(rows: seq<Row>, n: string)
    ensures n in NamesOf(rows) <==> exists x | x in rows :: x.name == n
  {
    if n in NamesOf(rows) {
      var i :| 0 <= i < |rows| && NamesOf(rows)[i] == n;
      assert rows[i] in rows;
    }
    if exists x | x in rows :: x.name == n {
      var x :| x in rows && x.name == n;
      var i :| 0 <= i < |rows| && rows[i] == x;
      assert NamesOf(rows)[i] == n;
    }
  }

  /** `.filter(id__in=ids).delete()`: the rows whose id is not in `ids`, in order. */
  function WithoutIds(rows: seq<Row>, ids: set<nat>): (r: seq<Row>)
    ensures forall x :: x in r <==> x in rows && x.id !in ids
    ensures |r| <= |rows|
  {
    if rows == [] then []
    else
      var rest := WithoutIds(rows[1..], ids);
      assert forall x :: x in rows <==> x == rows[0] || x in rows[1..];
      if rows[0].id in ids then rest else [rows[0]] + rest
  }

  /** Deleting by id keeps the remaining rows in their order. */
  lemma {:induction false} WithoutIdsOrdered(rows: seq<Row>, ids: set<nat>)
    requires IdsIncreasing(rows)
    ensures IdsIncreasing(WithoutIds(rows, ids))
  {
    if rows != [] {
      var tail := rows[1..];
      assert forall k | 0 <= k < |tail| :: tail[k] == rows[k + 1];
      WithoutIdsOrdered(tail, ids);
      if rows[0].id !in ids {
        ConsOrdered(rows[0], WithoutIds(tail, ids), tail);
      }
    }
  }

  /** The names of the rows whose id is in `ids`, in row order. */
  function NamesWithIds(rows: seq<Row>, ids: set<nat>): (r: seq<string>)
    ensures forall n :: n in r <==> exists x | x in rows :: x.id in ids && x.name == n
    ensures |r| <= |rows|
  {
    if rows == [] then []
    else
      var rest := NamesWithIds(rows[1..], ids);
      assert forall x :: x in rows <==> x == rows[0] || x in rows[1..];
      (if rows[0].id in ids then [rows[0].name] else []) + rest
  }

  class Cart {
    var rows: seq<Row>
    var nextId: nat

    /** Ids increase and stay below the next id the database will hand out. */
    ghost predicate Valid()
      reads this
    {
      IdsIncreasing(rows) && forall i | 0 <= i < |rows| :: rows[i].id < nextId
    }

    function Names(): seq<string>
      reads this
    {
      NamesOf(rows)
    }

    constructor ()
      ensures rows == [] && Valid()
    {
      rows, nextId := [], 0;
    }

    /** `ShoppingListIngredient.objects.filter(shopping_list=...).delete()`. */
    method Clear()
      requires Valid()
      modifies this
      ensures rows == [] && nextId == old(nextId) && Valid()
    {
      rows := [];
    }

    /** `bulk_create` of one row per name, in order. */
    method Append(names: seq<string>)
      requires Valid()
      modifies this
      ensures Valid()
      ensures rows == old(rows) + FreshRows(old(nextId), names)
      ensures Names() == old(Names()) + names
      ensures nextId == old(nextId) + |names|
    {
      var added := FreshRows(nextId, names);
      rows := rows + added;
      nextId := nextId + |names|;
      NamesOfConcat(old(rows), added);
    }

    /** `get_or_create(shopping_list=..., ingredient=...)`: a row for `name` unless one exists. */
    method GetOrCreate(name: string) returns (created: bool)
      requires Valid()
      modifies this
      ensures Valid()
      ensures created <==> name !in old(Names())
      ensures !created ==> rows == old(rows) && nextId == old(nextId)
      ensures created ==> Names() == old(Names()) + [name]
      ensures name in Names()
      ensures NoDuplicates(old(Names())) ==> NoDuplicates(Names())
    {
      created := name !in Names();
      if created {
        Append([name]);
      }
    }

    /** Deletes the rows whose ingredient is in `names`. */
    method DeleteNames(names: set<string>)
      requires Valid()
      modifies this
      ensures Valid() && nextId == old(nextId)
      ensures rows == WithoutNames(old(rows), names)
      ensures forall n :: n in Names() <==> n in old(Names()) && n !in names
    {
      WithoutNamesOrdered(rows, names);
      NamesWithoutNames(rows, names);
      rows := WithoutNames(rows, names);
    }

    /** Deletes the rows whose id is in `ids`. */
    method DeleteIds(ids: set<nat>)
      requires Valid()
      modifies this
      ensures Valid() && nextId == old(nextId)
      ensures rows == WithoutIds(old(rows), ids)
    {
      WithoutIdsOrdered(rows, ids);
      rows := WithoutIds(rows, ids);
    }
  }

  lemma {:induction false} NamesOfConcat(a: seq<Row>, b: seq<Row>)
    ensures NamesOf(a + b) == NamesOf(a) + NamesOf(b)
  {
    if a == [] {
      assert a + b == b;
    } else {
      assert (a + b)[1..] == a[1..] + b;
      NamesOfConcat(a[1..], b);
    }
  }

  /** No name occurs twice. */
  predicate NoDuplicates(names: seq<string>) {
    forall i, j | 0 <= i < j < |names| :: names[i] != names[j]
  }
}

=== FILE: FoodAi.dfy ===
/**
 * Reading the model's replies in the recipe flow: the recipe name quoted in a
 * reply, and the "기본" (basic) and "선택" (optional) ingredient lines of a
 * recipe breakdown. The reply text is an input; the call that produces it is
 * not part of this model.
 */
module FoodAi {
  import opened Wrappers
  import opened Text

  // ---------------------------------------------------------------------------
  // The quoted recipe name: re.search(r'["“](.+?)["”]', text)
  // ---------------------------------------------------------------------------

  predicate IsOpenQuote(c: char) { c == '"' || c == '“' }

  predicate IsCloseQuote(c: char) { c == '"' || c == '”' }

  /**
   * `text[i..j + 1]` is a match of the pattern: an opening quote at `i`, a
   * closing quote at `j`, at least one character between them and no line
   * break among those characters (`.` does not match a newline).
   */
  predicate IsSpan(text: string, i: int, j: int) {
    0 <= i && i + 2 <= j < |text| && IsOpenQuote(text[i]) && IsCloseQuote(text[j]) &&
    forall k | i < k < j :: text[k] != '\n'
  }

  /** The lazy `.+?` from the quote at `i`: the nearest closing quote at `j` or later on the same line. */
  function CloseFrom(text: string, i: nat, j: nat): (r: Option<nat>)
    requires i + 2 <= j <= |text| && IsOpenQuote(text[i])
    requires forall k | i < k < j :: text[k] != '\n'
    ensures r.Some? ==> j <= r.value && IsSpan(text, i, r.value)
    ensures r.Some? ==> forall k | j <= k < r.value :: !IsCloseQuote(text[k])
    ensures r.None? ==> forall k | j <= k < |text| :: !IsSpan(text, i, k)
    decreases |text| - j
  {
    if j == |text| then None
    else if IsCloseQuote(text[j]) then Some(j)
    else if text[j] == '\n' then None
    else CloseFrom(text, i, j + 1)
  }

  /** The leftmost match starting at `i` or later, as (opening, closing) positions. */
  function SpanFrom(text: string, i: nat): (r: Option<(nat, nat)>)
    ensures r.Some? ==> i <= r.value.0 && IsSpan(text, r.value.0, r.value.1)
    ensures r.Some? ==> forall k | r.value.0 + 2 <= k < r.value.1 :: !IsCloseQuote(text[k])
    ensures r.Some? ==> forall s, k | i <= s < r.value.0 :: !IsSpan(text, s, k)
    ensures r.None? ==> forall s, k | i <= s :: !IsSpan(text, s, k)
    decreases |text| - i
  {
    if i >= |text| then None
    else if IsOpenQuote(text[i]) && i + 2 <= |text| && text[i + 1] != '\n' && CloseFrom(text, i, i + 2).Some? then
      Some((i, CloseFrom(text, i, i + 2).value))
    else
      var r := SpanFrom(text, i + 1);
      assert forall k :: !IsSpan(text, i, k);
      r
  }

  /** The span the pattern matches: the leftmost one, closed at its nearest closing quote. */
  ghost predicate FirstSpan(text: string, i: int, j: int) {
    IsSpan(text, i, j) &&
    (forall k | i + 2 <= k < j :: !IsCloseQuote(text[k])) &&
    (forall s, k | 0 <= s < i :: !IsSpan(text, s, k))
  }

  /**
   * `extract_recipe_name_from_gpt_response`: the stripped text of the
   * leftmost quoted span whose closing quote is the nearest one, or `None`
   * when the text holds no quoted span on one line.
   */
  function ExtractRecipeName(text: string): (r: Option<string>)
    ensures r.None? <==> forall i, j :: !IsSpan(text, i, j)
    ensures r.Some? ==> exists i, j | FirstSpan(text, i, j) :: r.value == Strip(text[i + 1..j])
  {
    var span := SpanFrom(text, 0);
    if span.None? then None
    else
      var (i, j) := span.value;
      assert FirstSpan(text, i, j);
      Some(Strip(text[i + 1..j]))
  }

  /** A name quoted alone on a line is found, stripped. */
  lemma QuotedNameFound(name: string)
    requires |name| >= 1 && '\n' !in name
    requires forall k | 0 <= k < |name| :: !IsCloseQuote(name[k])
    ensures ExtractRecipeName(['"'] + name + ['"']) == Some(Strip(name))
  {
    var text := ['"'] + name + ['"'];
    var j := |text| - 1;
    forall k | 0 < k < j ensures text[k] != '\n' && !IsCloseQuote(text[k]) {
      assert text[k] == name[k - 1];
    }
    assert IsSpan(text, 0, j);
    assert text[1..j] == name;
  }

  // ---------------------------------------------------------------------------
  // The ingredient lines of a recipe breakdown
  // ---------------------------------------------------------------------------

  datatype Section = Basic | Optional

  /**
   * The line sets the section's list: a basic line mentions "기본" and a
   * colon; an optional line mentions "선택" and a colon and is not a basic
   * line.
   */
  predicate Feeds(line: string, section: Section) {
    var basic := Contains(line, "기본") && ':' in line;
    match section
    case Basic => basic
    case Optional => !basic && Contains(line, "선택") && ':' in line
  }

  /** The last line that feeds `section`, if any. */
  function LastFeeding(lines: seq<string>, section: Section): (r: Option<nat>)
    ensures r.Some? ==> r.value < |lines| && Feeds(lines[r.value], section)
    ensures r.Some? ==> forall k | r.value < k < |lines| :: !Feeds(lines[k], section)
    ensures r.None? ==> forall k | 0 <= k < |lines| :: !Feeds(lines[k], section)
  {
    if lines == [] then None
    else if Feeds(lines[|lines| - 1], section) then Some(|lines| - 1)
    else
      var r := LastFeeding(lines[..|lines| - 1], section);
      assert forall k | 0 <= k < |lines| - 1 :: lines[..|lines| - 1][k] == lines[k];
      r
  }

  /** A separator that occurs in the text splits it into at least two pieces. */
  lemma SplitAtOccurrence(s: string, sep: char)
    requires sep in s
    ensures |Split(s, sep)| >= 2
  {
    JoinSplit(s, sep);
  }

  /** `[i.strip() for i in pieces]`. */
  function StripEach(pieces: seq<string>): (r: seq<string>)
    ensures |r| == |pieces|
    ensures forall k | 0 <= k < |pieces| :: r[k] == Strip(pieces[k])
  {
    if pieces == [] then [] else [Strip(pieces[0])] + StripEach(pieces[1..])
  }

  /**
   * `[i.strip() for i in line.split(':')[1].split(',')]`: the stripped,
   * comma-separated items between the first and the second colon.
   */
  function Items(line: string): (r: seq<string>)
    requires ':' in line
    ensures |r| >= 1
  {
    SplitAtOccurrence(line, ':');
    StripEach(Split(Split(line, ':')[1], ','))
  }

  /** No item holds a colon or a comma. */
  lemma ItemsHaveNoSeparators(line: string)
    requires ':' in line
    ensures var r := Items(line); forall k | 0 <= k < |r| :: ':' !in r[k] && ',' !in r[k]
  {
    SplitAtOccurrence(line, ':');
    var between := Split(line, ':')[1];
    var pieces := Split(between, ',');
    var r := Items(line);
    JoinSplit(between, ',');
    assert ':' !in between;
    forall k | 0 <= k < |r| ensures ':' !in r[k] && ',' !in r[k] {
      var piece := pieces[k];
      assert ':' !in piece by {
        PieceInJoin(pieces, k, ',');
        forall m | 0 <= m < |piece| ensures piece[m] != ':' {
          assert piece[m] in between;
        }
      }
      StripKeepsOut(piece, ':');
      StripKeepsOut(piece, ',');
    }
  }

  /** Every character of a piece occurs in the joined text. */
  lemma {:induction false} PieceInJoin(parts: seq<string>, k: nat, sep: char)
    requires |parts| >= 1 && k < |parts|
    ensures forall m | 0 <= m < |parts[k]| :: parts[k][m] in Join(parts, sep)
  {
    if |parts| > 1 {
      assert Join(parts, sep) == parts[0] + [sep] + Join(parts[1..], sep);
      if k == 0 {
        forall m | 0 <= m < |parts[0]| ensures parts[0][m] in Join(parts, sep) {
          assert Join(parts, sep)[m] == parts[0][m];
        }
      } else {
        PieceInJoin(parts[1..], k - 1, sep);
        assert parts[1..][k - 1] == parts[k];
        forall m | 0 <= m < |parts[k]| ensures parts[k][m] in Join(parts, sep) {
          var t := Join(parts[1..], sep);
          var p :| 0 <= p < |t| && t[p] == parts[k][m];
          assert Join(parts, sep)[|parts[0]| + 1 + p] == t[p];
        }
      }
    }
  }

  /** A line written as `head: a, b, c` gives back the items, stripped. */
  lemma ItemsOfWrittenLine(head: string, items: seq<string>)
    requires ':' !in head && |items| >= 1
    requires forall k | 0 <= k < |items| :: ':' !in items[k] && ',' !in items[k]
    ensures Items(head + [':'] + Join(items, ',')) == StripEach(items)
  {
    var body := Join(items, ',');
    JoinHasNo(items, ',', ':');
    SplitAfterPiece(head, body, ':');
    SplitNoSep(body, ':');
    var line := head + [':'] + body;
    assert Split(line, ':') == [head] + [body];
    assert Split(line, ':')[1] == body;
    SplitJoin(items, ',');
    assert Split(body, ',') == items;
  }

  /** Joining pieces that lack a character, with another separator, gives a text that lacks it too. */
  lemma {:induction false} JoinHasNo(parts: seq<string>, sep: char, c: char)
    requires |parts| >= 1 && c != sep
    requires forall k | 0 <= k < |parts| :: c !in parts[k]
    ensures c !in Join(parts, sep)
  {
    if |parts| > 1 {
      JoinHasNo(parts[1..], sep, c);
      assert Join(parts, sep) == parts[0] + [sep] + Join(parts[1..], sep);
    }
  }

  /** The section's list after reading `lines`: the items of its last line, or nothing. */
  function SectionItems(lines: seq<string>, section: Section): (r: seq<string>)
    ensures LastFeeding(lines, section).None? <==> r == []
  {
    match LastFeeding(lines, section)
    case None => []
    case Some(k) => Items(lines[k])
  }

  /** Reading one more line changes a section only when the line feeds it. */
  lemma SectionItemsStep(seen: seq<string>, line: string, all: seq<string>, section: Section)
    requires all == seen + [line]
    ensures SectionItems(all, section) ==
      if Feeds(line, section) then Items(line) else SectionItems(seen, section)
  {
    assert all[..|all| - 1] == seen;
  }

  lemma PrefixStep(lines: seq<string>, i: nat)
    requires i < |lines|
    ensures lines[..i + 1] == lines[..i] + [lines[i]]
  {
  }

  /**
   * The line loop of `extract_ingredients_from_recipe` over the reply
   * `content`: each list is set by the last line that feeds it, and stays
   * empty when no line does.
   */
  method ExtractIngredients(content: string) returns (basic: seq<string>, optional: seq<string>)
    ensures basic == SectionItems(Split(content, '\n'), Basic)
    ensures optional == SectionItems(Split(content, '\n'), Optional)
  {
    var lines := Split(content, '\n');
    basic, optional := [], [];
    for i := 0 to |lines|
      invariant basic == SectionItems(lines[..i], Basic)
      invariant optional == SectionItems(lines[..i], Optional)
    {
      var line := lines[i];
      PrefixStep(lines, i);
      SectionItemsStep(lines[..i], line, lines[..i + 1], Basic);
      SectionItemsStep(lines[..i], line, lines[..i + 1], Optional);
      if Contains(line, "기본") && ':' in line {
        basic := Items(line);
      } else if Contains(line, "선택") && ':' in line {
        optional := Items(line);
      }
    }
    assert lines[..|lines|] == lines;
  }
}

=== FILE: FoodViews.dfy ===
/**
 * The food views' bookkeeping: the ingredient lists kept in the session
 * (`extra_selected`, `optional_selected`, the search snapshot), the rows of
 * the active cart, the per-cart and per-recipe session resets, the follow-up
 * idea history and the `ids` parameter of the leftover chat. The ingredient
 * catalogue is the set of `Ingredient` names; calls into the model service
 * and into helpers not shown are left to their callers (their results are
 * parameters).
 */
module FoodViews {
  import opened Wrappers
  import opened Text
  import opened Sessions
  import opened Carts

  const ExtraKey := "extra_selected"
  const OptionalKey := "optional_selected"
  const StartedKey := "ing_search_started"
  const SnapshotKey := "optional_selected_snapshot"
  const AddedTempKey := "ing_added_temp"
  const ShoppingListIdKey := "shopping_list_id"
  const RecipeInputKey := "recipe_input"
  const SelectedIdsKey := "selected_ingredient_ids"
  const SeedKey := "selected_seed"
  const RecipeChatKey := "recipe_chat"
  const LastRecipeKey := "last_recipe_text"

  /** `PER_CART_SESSION_KEYS`: what belongs to one cart and is dropped when the active cart changes. */
  const PerCartKeys: seq<string> := [ExtraKey, OptionalKey, StartedKey, SnapshotKey, AddedTempKey]

  /** What belongs to one recipe and is dropped when the recipe changes. */
  const RecipeKeys: seq<string> := ["basic", "optional", OptionalKey, ExtraKey]

  /** The keys of one ingredient search, dropped when it is cancelled. */
  const SearchKeys: seq<string> := [StartedKey, SnapshotKey, AddedTempKey]

  /** The follow-up history keeps this many messages. */
  const IdeaHistoryLimit := 20

  // ---------------------------------------------------------------------------
  // Lists of names
  // ---------------------------------------------------------------------------

  /** `if name not in xs: xs.append(name)`. */
  function AppendIfAbsent(s: seq<string>, x: string): (r: seq<string>)
    ensures forall y :: y in r <==> y in s || y == x
    ensures |s| <= |r| <= |s| + 1 && r[..|s|] == s
    ensures NoDuplicates(s) ==> NoDuplicates(r)
  {
    if x in s then s else s + [x]
  }

  /** `xs.remove(name)`: the list without the first occurrence of `x`. */
  function RemoveFirst(s: seq<string>, x: string): (r: seq<string>)
    ensures multiset(r) == multiset(s) - multiset{x}
    ensures x !in s ==> r == s
  {
    if s == [] then []
    else if s[0] == x then
      assert s == [s[0]] + s[1..];
      s[1..]
    else
      assert s == [s[0]] + s[1..];
      [s[0]] + RemoveFirst(s[1..], x)
  }

  /** Removing from a list without duplicates leaves a list without duplicates that lacks the name. */
  lemma {:induction false} RemoveFirstDistinct(s: seq<string>, x: string)
    requires NoDuplicates(s)
    ensures NoDuplicates(RemoveFirst(s, x))
    ensures forall y :: y in RemoveFirst(s, x) <==> y in s && y != x
  {
    if s != [] {
      var tail := s[1..];
      assert NoDuplicates(tail);
      assert s[0] !in tail;
      assert forall y :: y in s <==> y == s[0] || y in tail;
      if s[0] != x {
        RemoveFirstDistinct(tail, x);
        var rest := RemoveFirst(tail, x);
        assert RemoveFirst(s, x) == [s[0]] + rest;
        assert s[0] !in rest;
      }
    }
  }

  /** Removing a name just appended restores the list. */
  lemma RemoveUndoesAppend(s: seq<string>, x: string)
    requires x !in s
    ensures RemoveFirst(AppendIfAbsent(s, x), x) == s
  {
    RemoveLast(s, x);
  }

  lemma {:induction false} RemoveLast(s: seq<string>, x: string)
    requires x !in s
    ensures RemoveFirst(s + [x], x) == s
  {
    if s != [] {
      assert (s + [x])[1..] == s[1..] + [x];
      RemoveLast(s[1..], x);
      assert [s[0]] + s[1..] == s;
    }
  }

  /** The position where `x` first occurs in `s`. */
  function FirstIndex(s: seq<string>, x: string): (r: nat)
    requires x in s
    ensures r < |s| && s[r] == x
    ensures forall j | 0 <= j < r :: s[j] != x
  {
    if s[0] == x then 0 else 1 + FirstIndex(s[1..], x)
  }

  /** Extending a list does not move the first occurrence of what it already holds. */
  lemma FirstIndexOfPrefix(p: seq<string>, x: string, y: string)
    requires y in p
    ensures FirstIndex(p + [x], y) == FirstIndex(p, y)
  {
    var s := p + [x];
    var a, b := FirstIndex(s, y), FirstIndex(p, y);
    assert s[b] == y;
    assert a <= b;
    assert p[a] == y;
  }

  /** A name that is new to a list first occurs where it is appended. */
  lemma FirstIndexOfLast(p: seq<string>, x: string)
    requires x !in p
    ensures FirstIndex(p + [x], x) == |p|
  {
  }

  /**
   * `list(dict.fromkeys(xs))`: each name once, in the order in which the names
   * first appear.
   */
  function Dedupe(s: seq<string>): (r: seq<string>)
    ensures NoDuplicates(r)
    ensures forall x :: x in r <==> x in s
  {
    if s == [] then []
    else
      var p := s[..|s| - 1];
      var x := s[|s| - 1];
      var d := Dedupe(p);
      assert forall y :: y in s <==> y in p || y == x;
      if x in d then d else d + [x]
  }

  /** De-duplication lists the names in the order in which they first appear. */
  lemma {:induction false} DedupeFirstAppearance(s: seq<string>)
    ensures forall i, j | 0 <= i < j < |Dedupe(s)| :: FirstIndex(s, Dedupe(s)[i]) < FirstIndex(s, Dedupe(s)[j])
  {
    if s != [] {
      var p := s[..|s| - 1];
      var x := s[|s| - 1];
      assert s == p + [x];
      var d := Dedupe(p);
      var r := Dedupe(s);
      assert r == if x in d then d else d + [x];
      DedupeFirstAppearance(p);
      forall i, j | 0 <= i < j < |r| ensures FirstIndex(s, r[i]) < FirstIndex(s, r[j]) {
        assert r[i] == d[i] && r[i] in p;
        FirstIndexOfPrefix(p, x, r[i]);
        assert FirstIndex(s, r[i]) == FirstIndex(p, d[i]);
        if j < |d| {
          assert r[j] == d[j] && r[j] in p;
          FirstIndexOfPrefix(p, x, r[j]);
          assert FirstIndex(s, r[j]) == FirstIndex(p, d[j]);
          assert FirstIndex(p, d[i]) < FirstIndex(p, d[j]);
        } else {
          assert r[j] == x && x !in p;
          FirstIndexOfLast(p, x);
        }
      }
    }
  }

  /** A list that has no duplicates is its own de-duplication. */
  lemma {:induction false} DedupeOfDistinct(s: seq<string>)
    requires NoDuplicates(s)
    ensures Dedupe(s) == s
  {
    if s != [] {
      var p := s[..|s| - 1];
      assert NoDuplicates(p);
      DedupeOfDistinct(p);
      assert s[|s| - 1] !in p;
      assert p + [s[|s| - 1]] == s;
    }
  }

  /** `[n for n in xs if n in catalogue]`: the names the catalogue knows, in order. */
  function KeepIn(s: seq<string>, catalogue: set<string>): (r: seq<string>)
    ensures forall x :: x in r <==> x in s && x in catalogue
    ensures |r| <= |s|
  {
    if s == [] then []
    else
      var rest := KeepIn(s[1..], catalogue);
      assert forall x :: x in s <==> x == s[0] || x in s[1..];
      if s[0] in catalogue then [s[0]] + rest else rest
  }

  /** Filtering a list without duplicates leaves a list without duplicates. */
  lemma {:induction false} KeepInDistinct(s: seq<string>, catalogue: set<string>)
    requires NoDuplicates(s)
    ensures NoDuplicates(KeepIn(s, catalogue))
  {
    if s != [] {
      KeepInDistinct(s[1..], catalogue);
      var rest := KeepIn(s[1..], catalogue);
      assert s[0] !in s[1..];
      assert s[0] !in rest;
    }
  }

  /** Filtering works piece by piece, so it keeps the relative order of what it keeps. */
  lemma {:induction false} KeepInConcat(a: seq<string>, b: seq<string>, catalogue: set<string>)
    ensures KeepIn(a + b, catalogue) == KeepIn(a, catalogue) + KeepIn(b, catalogue)
  {
    if a == [] {
      assert a + b == b;
    } else {
      assert (a + b)[1..] == a[1..] + b;
      KeepInConcat(a[1..], b, catalogue);
    }
  }

  /** The newest `IdeaHistoryLimit` messages: `hist[-20:]`. */
  function KeepLast(h: seq<ChatMessage>): (r: seq<ChatMessage>)
    ensures |r| == if |h| <= IdeaHistoryLimit then |h| else IdeaHistoryLimit
    ensures r == h[|h| - |r|..]
  {
    if |h| <= IdeaHistoryLimit then h else h[|h| - IdeaHistoryLimit..]
  }

  /** The question and answer just added are always kept. */
  lemma KeepLastKeepsNewTurns(h: seq<ChatMessage>, question: ChatMessage, answer: ChatMessage)
    ensures var r := KeepLast(h + [question, answer]);
      |r| >= 2 && r[|r| - 2..] == [question, answer]
  {
    var full := h + [question, answer];
    var r := KeepLast(full);
    assert r[|r| - 2..] == full[|full| - 2..];
  }

  /**
   * `[s for s in ids.split(',') if s.strip().isdigit()]`: the comma-separated
   * pieces whose stripped text is a non-empty run of digits, kept as written.
   */
  function DigitTokens(pieces: seq<string>): (r: seq<string>)
    ensures forall t | t in r :: t in pieces && IsIdToken(t)
    ensures forall t | t in pieces && IsIdToken(t) :: t in r
  {
    if pieces == [] then []
    else
      var rest := DigitTokens(pieces[1..]);
      assert forall x :: x in pieces <==> x == pieces[0] || x in pieces[1..];
      if IsIdToken(pieces[0]) then [pieces[0]] + rest else rest
  }

  /** `s.strip().isdigit()`. */
  predicate IsIdToken(t: string) {
    Strip(t) != [] && AllDigits(Strip(t))
  }

  /** The ids the leftover chat reads from its stripped `ids` parameter. */
  function IdTokens(ids: string): (r: seq<string>)
    ensures forall t | t in r :: t in Split(Strip(ids), ',') && IsIdToken(t)
  {
    DigitTokens(Split(Strip(ids), ','))
  }

  /** A blank parameter gives no ids. */
  lemma IdTokensOfBlank(ids: string)
    requires Strip(ids) == []
    ensures IdTokens(ids) == []
  {
    assert Split(Strip(ids), ',') == [[]];
    assert !IsIdToken([]);
    assert DigitTokens([[]]) == DigitTokens([[]][1..]);
  }

  /** The decimal numerals of `ids`. */
  function Numerals(ids: seq<nat>): (r: seq<string>)
    ensures |r| == |ids|
    ensures forall i | 0 <= i < |ids| :: r[i] == ShowNat(ids[i])
  {
    if ids == [] then [] else [ShowNat(ids[0])] + Numerals(ids[1..])
  }

  /** Tokens that are all ids are all kept. */
  lemma {:induction false} DigitTokensOfIds(pieces: seq<string>)
    requires forall i | 0 <= i < |pieces| :: IsIdToken(pieces[i])
    ensures DigitTokens(pieces) == pieces
  {
    if pieces != [] {
      assert IsIdToken(pieces[0]);
      DigitTokensOfIds(pieces[1..]);
      assert [pieces[0]] + pieces[1..] == pieces;
    }
  }

  /** Printed numbers are ids. */
  lemma {:induction false} NumeralsAreIds(ids: seq<nat>)
    ensures forall i | 0 <= i < |ids| :: IsIdToken(Numerals(ids)[i])
  {
    var ns := Numerals(ids);
    forall i | 0 <= i < |ids| ensures IsIdToken(ns[i]) {
      NumeralIsId(ids[i]);
    }
  }

  lemma NumeralIsId(n: nat)
    ensures IsIdToken(ShowNat(n))
  {
    DigitsAreId(ShowNat(n));
  }

  lemma DigitsAreId(s: string)
    requires AllDigits(s) && s != []
    ensures IsIdToken(s)
  {
    StripOfDigits(s);
  }

  /** The ids a page writes as `2,8,13` come back as the same numerals. */
  lemma IdTokensRoundTrip(ids: seq<nat>)
    requires ids != []
    ensures IdTokens(Join(Numerals(ids), ',')) == Numerals(ids)
  {
    var parts := Numerals(ids);
    var text := Join(parts, ',');
    forall i | 0 <= i < |parts| ensures ',' !in parts[i] {
      assert AllDigits(parts[i]);
    }
    SplitJoin(parts, ',');
    JoinDigitsTrimmed(parts);
    StripOfTrimmed(text);
    NumeralsAreIds(ids);
    DigitTokensOfIds(parts);
  }

  /** Numerals joined by commas start and end with a digit. */
  lemma {:induction false} JoinDigitsTrimmed(parts: seq<string>)
    requires |parts| >= 1
    requires forall i | 0 <= i < |parts| :: AllDigits(parts[i]) && |parts[i]| >= 1
    ensures var t := Join(parts, ','); |t| >= 1 && IsDigit(t[0]) && IsDigit(t[|t| - 1])
  {
    if |parts| > 1 {
      JoinDigitsTrimmed(parts[1..]);
      var tail := Join(parts[1..], ',');
      var t := Join(parts, ',');
      assert t == parts[0] + [','] + tail;
      assert t[0] == parts[0][0];
      assert t[|t| - 1] == tail[|tail| - 1];
    }
  }

  // ---------------------------------------------------------------------------
  // Session resets
  // ---------------------------------------------------------------------------

  /**
   * The session after `marker` is recorded under `markerKey`: unchanged when
   * it was already recorded, otherwise with `cleared` dropped and the new
   * marker stored.
   */
  function ResetOnChange(d: map<string, Value>, markerKey: string, marker: Value, cleared: seq<string>): (r: map<string, Value>)
    requires markerKey !in cleared
    ensures markerKey in r && r[markerKey] == marker
    ensures markerKey in d && d[markerKey] == marker ==> r == d
    ensures !(markerKey in d && d[markerKey] == marker) ==> forall k | k in cleared :: k !in r
    ensures forall k | k != markerKey && k !in cleared :: (k in r <==> k in d) && (k in r ==> r[k] == d[k])
  {
    if markerKey in d && d[markerKey] == marker then d
    else (d - KeySet(cleared))[markerKey := marker]
  }

  /** Recording the same marker twice is the same as recording it once. */
  lemma ResetOnChangeIdempotent(d: map<string, Value>, markerKey: string, marker: Value, cleared: seq<string>)
    requires markerKey !in cleared
    ensures var once := ResetOnChange(d, markerKey, marker, cleared);
      ResetOnChange(once, markerKey, marker, cleared) == once
  {
  }

  /**
   * Entering a page of the active cart `cartId`: when the session followed
   * another cart, the per-cart keys are dropped and the new cart is recorded.
   */
  method EnterActiveCart(session: Session, cartId: nat)
    modifies session
    ensures session.data == ResetOnChange(old(session.data), ShoppingListIdKey, Num(cartId), PerCartKeys)
  {
    var prev := session.Get(ShoppingListIdKey);
    if prev != Some(Num(cartId)) {
      session.PopAll(PerCartKeys);
      session.Put(ShoppingListIdKey, Num(cartId));
    }
  }

  /** Asking for the ingredients of `recipe`: a different recipe drops what was chosen for the old one. */
  method EnterRecipe(session: Session, recipe: string)
    modifies session
    ensures session.data == ResetOnChange(old(session.data), RecipeInputKey, Str(recipe), RecipeKeys)
  {
    var prev := session.Get(RecipeInputKey);
    if prev != Some(Str(recipe)) {
      session.Put(RecipeInputKey, Str(recipe));
      session.PopAll(RecipeKeys);
    }
  }

  // ---------------------------------------------------------------------------
  // Name lists in the session
  // ---------------------------------------------------------------------------

  /** Appends `name` to the list under `key` unless it is already there. */
  method AppendToList(session: Session, key: string, name: string) returns (added: bool)
    modifies session
    ensures added <==> name !in old(session.NamesAt(key))
    ensures session.data == if added then old(session.data)[key := Names(AppendIfAbsent(old(session.NamesAt(key)), name))]
                            else old(session.data)
  {
    var items := session.NamesAt(key);
    added := name !in items;
    if added {
      session.Put(key, Names(items + [name]));
    }
  }

  /** Removes the first occurrence of `name` from the list under `key`, if there is one. */
  method RemoveFromList(session: Session, key: string, name: string) returns (removed: bool)
    modifies session
    ensures removed <==> name in old(session.NamesAt(key))
    ensures session.data == if removed then old(session.data)[key := Names(RemoveFirst(old(session.NamesAt(key)), name))]
                            else old(session.data)
  {
    var items := session.NamesAt(key);
    removed := name in items;
    if removed {
      session.Put(key, Names(RemoveFirst(items, name)));
    }
  }

  datatype AddOutcome = EmptyName | UnknownIngredient | Added | AlreadyListed

  /**
   * `add_extra_ingredient`: the stripped name is added to the search
   * candidates when it is a catalogue ingredient not listed yet; the list
   * keeps having no duplicates.
   */
  method AddExtraIngredient(session: Session, catalogue: set<string>, rawName: string) returns (outcome: AddOutcome)
    modifies session
    ensures var name := Strip(rawName);
      outcome == (if name == [] then EmptyName else if name !in catalogue then UnknownIngredient
                  else if name in old(session.NamesAt(ExtraKey)) then AlreadyListed else Added)
    ensures outcome != Added ==> session.data == old(session.data)
    ensures outcome == Added ==>
      session.data == old(session.data)[ExtraKey := Names(old(session.NamesAt(ExtraKey)) + [Strip(rawName)])]
    ensures NoDuplicates(old(session.NamesAt(ExtraKey))) ==> NoDuplicates(session.NamesAt(ExtraKey))
  {
    var name := Strip(rawName);
    if name == [] {
      return EmptyName;
    }
    if name !in catalogue {
      return UnknownIngredient;
    }
    var added := AppendToList(session, ExtraKey, name);
    outcome := if added then Added else AlreadyListed;
  }

  /** `delete_extra_ingredient`: drops `name` from the candidates when it is there. */
  method DeleteExtraIngredient(session: Session, name: string) returns (removed: bool)
    modifies session
    ensures removed <==> name in old(session.NamesAt(ExtraKey))
    ensures session.data == if removed then old(session.data)[ExtraKey := Names(RemoveFirst(old(session.NamesAt(ExtraKey)), name))]
                            else old(session.data)
    ensures NoDuplicates(old(session.NamesAt(ExtraKey))) ==>
      NoDuplicates(session.NamesAt(ExtraKey)) && name !in session.NamesAt(ExtraKey)
  {
    ghost var before := session.NamesAt(ExtraKey);
    removed := RemoveFromList(session, ExtraKey, name);
    if NoDuplicates(before) {
      RemoveFirstDistinct(before, name);
    }
  }

  // ---------------------------------------------------------------------------
  // Cart
  // ---------------------------------------------------------------------------

  /**
   * `confirm_shopping_list`: a POST replaces the cart with the posted names
   * the catalogue knows, each once, in the order they first appear; a GET
   * leaves the cart alone. Both record the cart in the session.
   */
  method ConfirmShoppingList(session: Session, cart: Cart, cartId: nat, catalogue: set<string>, isPost: bool, posted: seq<string>)
    requires cart.Valid()
    modifies session, cart
    ensures cart.Valid()
    ensures isPost ==> cart.Names() == KeepIn(Dedupe(posted), catalogue) && NoDuplicates(cart.Names())
    ensures !isPost ==> cart.rows == old(cart.rows)
    ensures session.data == old(session.data)[ShoppingListIdKey := Num(cartId)]
  {
    if isPost {
      var selected := Dedupe(posted);
      cart.Clear();
      if selected != [] {
        var known := KeepIn(selected, catalogue);
        if known != [] {
          cart.Append(known);
        }
      }
      KeepInDistinct(selected, catalogue);
    }
    session.Put(ShoppingListIdKey, Num(cartId));
  }

  datatype RecipeStep = GoToSearch | NothingSelected | Confirmed | StayOnPage

  /**
   * A POST to `recipe_ingredient_result`: the checked names become
   * `optional_selected`; confirming with nothing checked changes nothing else,
   * confirming with something checked replaces the cart with the checked
   * names the catalogue knows.
   */
  method RecipeIngredientsPost(session: Session, cart: Cart, cartId: nat, catalogue: set<string>, selected: seq<string>, next: string)
    returns (step: RecipeStep)
    requires cart.Valid()
    modifies session, cart
    ensures cart.Valid()
    ensures step == (if next == "search" then GoToSearch else if next != "confirm" then StayOnPage
                     else if selected == [] then NothingSelected else Confirmed)
    ensures step != Confirmed ==> cart.rows == old(cart.rows) && session.data == old(session.data)[OptionalKey := Names(selected)]
    ensures step == Confirmed ==>
      cart.Names() == KeepIn(selected, catalogue) &&
      session.data == old(session.data)[OptionalKey := Names(selected)][ShoppingListIdKey := Num(cartId)]
  {
    session.Put(OptionalKey, Names(selected));
    if next == "search" {
      return GoToSearch;
    }
    if next != "confirm" {
      return StayOnPage;
    }
    if selected == [] {
      return NothingSelected;
    }
    cart.Clear();
    var known := KeepIn(selected, catalogue);
    if known != [] {
      cart.Append(known);
    }
    session.Put(ShoppingListIdKey, Num(cartId));
    step := Confirmed;
  }

  /**
   * `add_ingredient`: a catalogue ingredient gets one cart row (created only
   * when missing) and is listed once in `optional_selected`.
   */
  method AddIngredient(session: Session, cart: Cart, catalogue: set<string>, rawName: string) returns (outcome: AddOutcome)
    requires cart.Valid()
    modifies session, cart
    ensures cart.Valid()
    ensures var name := Strip(rawName);
      outcome == (if name == [] then EmptyName else if name !in catalogue then UnknownIngredient
                  else if name in old(cart.Names()) then AlreadyListed else Added)
    ensures outcome in {EmptyName, UnknownIngredient} ==> cart.rows == old(cart.rows) && session.data == old(session.data)
    ensures outcome in {Added, AlreadyListed} ==>
      var name := Strip(rawName);
      name in cart.Names() &&
      (outcome == AlreadyListed ==> cart.rows == old(cart.rows)) &&
      (outcome == Added ==> cart.Names() == old(cart.Names()) + [name]) &&
      (NoDuplicates(old(cart.Names())) ==> NoDuplicates(cart.Names())) &&
      session.NamesAt(OptionalKey) == AppendIfAbsent(old(session.NamesAt(OptionalKey)), name) &&
      forall k | k != OptionalKey :: (k in session.data <==> k in old(session.data)) &&
        (k in session.data ==> session.data[k] == old(session.data)[k])
  {
    var name := Strip(rawName);
    if name == [] {
      return EmptyName;
    }
    if name !in catalogue {
      return UnknownIngredient;
    }
    var created := cart.GetOrCreate(name);
    var _ := AppendToList(session, OptionalKey, name);
    outcome := if created then Added else AlreadyListed;
  }

  /**
   * `delete_ingredient`: a catalogue ingredient loses its cart rows and its
   * place in `optional_selected`.
   */
  method DeleteIngredient(session: Session, cart: Cart, catalogue: set<string>, name: string) returns (known: bool)
    requires cart.Valid()
    modifies session, cart
    ensures cart.Valid()
    ensures known <==> name in catalogue
    ensures !known ==> cart.rows == old(cart.rows) && session.data == old(session.data)
    ensures known ==>
      cart.rows == WithoutNames(old(cart.rows), {name}) &&
      (forall n :: n in cart.Names() <==> n in old(cart.Names()) && n != name) &&
      session.data == if name in old(session.NamesAt(OptionalKey))
                      then old(session.data)[OptionalKey := Names(RemoveFirst(old(session.NamesAt(OptionalKey)), name))]
                      else old(session.data)
  {
    known := name in catalogue;
    if !known {
      return;
    }
    cart.DeleteNames({name});
    var _ := RemoveFromList(session, OptionalKey, name);
  }

  /**
   * `cancel_ingredient_search`: when a search was started, the rows added
   * during it are deleted, `optional_selected` goes back to the snapshot and
   * the search keys are dropped; otherwise nothing changes.
   */
  method CancelIngredientSearch(session: Session, cart: Cart)
    requires cart.Valid()
    modifies session, cart
    ensures cart.Valid()
    ensures var started := old(session.Get(StartedKey)); !(started.Some? && Truthy(started.value)) ==>
      cart.rows == old(cart.rows) && session.data == old(session.data)
    ensures var started := old(session.Get(StartedKey)); started.Some? && Truthy(started.value) ==>
      var added := old(session.NamesAt(AddedTempKey));
      var snapshot := old(session.Get(SnapshotKey)).GetOr(Names([]));
      cart.rows == WithoutNames(old(cart.rows), set n | n in added) &&
      (forall n :: n in cart.Names() <==> n in old(cart.Names()) && n !in added) &&
      (added == [] ==> cart.rows == old(cart.rows)) &&
      session.data == old(session.data)[OptionalKey := snapshot] - KeySet(SearchKeys)
  {
    var started := session.Get(StartedKey);
    if started.Some? && Truthy(started.value) {
      var added := session.NamesAt(AddedTempKey);
      if added != [] {
        cart.DeleteNames(set n | n in added);
      } else {
        assert cart.rows == WithoutNames(cart.rows, set n | n in added);
      }
      var snapshot := session.Get(SnapshotKey).GetOr(Names([]));
      session.Put(OptionalKey, snapshot);
      session.PopAll(SearchKeys);
    }
  }

  /**
   * The POST actions of `cart_view` on the active cart: clear it, delete the
   * selected rows, delete one row, or hand the selected names (all names when
   * none is selected) to `optional_selected`. Without an active cart nothing
   * changes.
   */
  method CartAction(session: Session, cart: Cart, hasCart: bool, action: string, selected: seq<nat>, removeOne: Option<nat>)
    requires cart.Valid()
    modifies session, cart
    ensures cart.Valid()
    ensures !hasCart ==> cart.rows == old(cart.rows) && session.data == old(session.data)
    ensures hasCart && action == "clear_all" ==> cart.rows == [] && session.data == old(session.data) - {OptionalKey}
    ensures hasCart && action == "remove_selected" ==>
      cart.rows == WithoutIds(old(cart.rows), IdSet(selected)) && session.data == old(session.data)
    ensures hasCart && action !in {"clear_all", "remove_selected"} && removeOne.Some? ==>
      cart.rows == WithoutIds(old(cart.rows), {removeOne.value}) && session.data == old(session.data)
    ensures hasCart && action == "go_confirm" && removeOne.None? ==>
      cart.rows == old(cart.rows) &&
      session.data == old(session.data)[OptionalKey := Names(if selected != [] then NamesWithIds(old(cart.rows), IdSet(selected))
                                                              else old(cart.Names()))]
    ensures hasCart && action !in {"clear_all", "remove_selected", "go_confirm"} && removeOne.None? ==>
      cart.rows == old(cart.rows) && session.data == old(session.data)
  {
    if !hasCart {
      return;
    }
    if action == "clear_all" {
      cart.Clear();
      var _ := session.Pop(OptionalKey);
      return;
    }
    if action == "remove_selected" {
      if selected != [] {
        cart.DeleteIds(IdSet(selected));
      } else {
        assert IdSet(selected) == {};
        WithoutNoIds(cart.rows);
      }
      return;
    }
    if removeOne.Some? {
      cart.DeleteIds({removeOne.value});
      return;
    }
    if action == "go_confirm" {
      var names := if selected != [] then NamesWithIds(cart.rows, IdSet(selected)) else cart.Names();
      session.Put(OptionalKey, Names(names));
    }
  }

  /** The ids of `ids`, as a set. */
  function IdSet(ids: seq<nat>): (r: set<nat>)
    ensures forall i :: i in r <==> i in ids
  {
    set i | i in ids
  }

  /** Deleting no ids keeps every row. */
  lemma {:induction false} WithoutNoIds(rows: seq<Row>)
    ensures WithoutIds(rows, {}) == rows
  {
    if rows != [] {
      WithoutNoIds(rows[1..]);
      assert [rows[0]] + rows[1..] == rows;
    }
  }

  // ---------------------------------------------------------------------------
  // Chat helpers
  // ---------------------------------------------------------------------------

  datatype IdeaOutcome = NameRequired | Answered(text: string)

  /**
   * `ingredient_idea_api` on the session: a follow-up question appends the
   * question and `answer` to the history under `histKey` and keeps the newest
   * 20 messages; a first visit stores `answer` as the whole history only when
   * there is none. `histKey` is the key for the lower-cased name and `answer`
   * the model's reply.
   */
  method IdeaApi(session: Session, rawName: string, rawQuestion: string, histKey: string, answer: string)
    returns (outcome: IdeaOutcome)
    modifies session
    ensures Strip(rawName) == [] ==> outcome == NameRequired && session.data == old(session.data)
    ensures Strip(rawName) != [] ==> outcome == Answered(answer)
    ensures var hist := if histKey in old(session.data) && old(session.data)[histKey].Messages?
                        then old(session.data)[histKey].turns else [];
      Strip(rawName) != [] && Strip(rawQuestion) != [] ==>
      session.data == old(session.data)[histKey := Messages(KeepLast(hist + [
        ChatMessage("user", "재료: " + Strip(rawName) + "\n질문: " + Strip(rawQuestion)),
        ChatMessage("assistant", answer)]))]
    ensures var hist := if histKey in old(session.data) && old(session.data)[histKey].Messages?
                        then old(session.data)[histKey].turns else [];
      Strip(rawName) != [] && Strip(rawQuestion) == [] ==>
      session.data == if hist == [] then old(session.data)[histKey := Messages([ChatMessage("assistant", answer)])]
                      else old(session.data)
  {
    var name := Strip(rawName);
    var q := Strip(rawQuestion);
    if name == [] {
      return NameRequired;
    }
    var stored := session.Get(histKey);
    var hist := if stored.Some? && stored.value.Messages? then stored.value.turns else [];
    if q != [] {
      var question := ChatMessage("user", "재료: " + name + "\n질문: " + q);
      session.Put(histKey, Messages(KeepLast(hist + [question, ChatMessage("assistant", answer)])));
    } else if hist == [] {
      session.Put(histKey, Messages([ChatMessage("assistant", answer)]));
    }
    outcome := Answered(answer);
  }

  /**
   * The session after `ids` are stored with their `seed`: the chat history
   * and the last recipe are created, empty, only when missing.
   */
  function WithSelection(d: map<string, Value>, ids: seq<string>, seed: Value): (r: map<string, Value>)
    ensures SelectedIdsKey in r && r[SelectedIdsKey] == Names(ids)
    ensures SeedKey in r && r[SeedKey] == seed
    ensures RecipeChatKey in r && LastRecipeKey in r
    ensures forall k | k in d && k !in {SelectedIdsKey, SeedKey} :: k in r && r[k] == d[k]
    ensures forall k | k in r :: k in d || k in {SelectedIdsKey, SeedKey, RecipeChatKey, LastRecipeKey}
  {
    var d1 := d[SelectedIdsKey := Names(ids)][SeedKey := seed];
    var d2 := if RecipeChatKey in d1 then d1 else d1[RecipeChatKey := Messages([])];
    if LastRecipeKey in d2 then d2 else d2[LastRecipeKey := Null]
  }

  /**
   * `chat_with_selected_ingredients`, first step: when the session holds no
   * selected ids, the digit tokens of `?ids=` are stored with their `seed`,
   * and the chat keys are created when missing.
   */
  method RestoreSelectedIds(session: Session, rawIds: string, seed: Value) returns (ids: seq<string>)
    modifies session
    ensures old(session.NamesAt(SelectedIdsKey)) != [] ==> ids == old(session.NamesAt(SelectedIdsKey)) && session.data == old(session.data)
    ensures old(session.NamesAt(SelectedIdsKey)) == [] ==> ids == IdTokens(rawIds)
    ensures old(session.NamesAt(SelectedIdsKey)) == [] && ids == [] ==> session.data == old(session.data)
    ensures old(session.NamesAt(SelectedIdsKey)) == [] && ids != [] ==> session.data == WithSelection(old(session.data), ids, seed)
  {
    ids := session.NamesAt(SelectedIdsKey);
    if ids == [] {
      if Strip(rawIds) != [] {
        ids := IdTokens(rawIds);
        if ids != [] {
          session.Put(SelectedIdsKey, Names(ids));
          session.Put(SeedKey, seed);
          if RecipeChatKey !in session.data {
            session.Put(RecipeChatKey, Messages([]));
          }
          if LastRecipeKey !in session.data {
            session.Put(LastRecipeKey, Null);
          }
        }
      } else {
        IdTokensOfBlank(rawIds);
      }
    }
  }
}

=== FILE: Lex.dfy ===
/**
 * Python's ordering of `str` values (code point by code point, a proper prefix
 * first) and `sorted()` applied to a set of names.
 */
module Lex {

  /** `a < b` for Python strings. */
  predicate Less(a: string, b: string)
    decreases |a|
  {
    if a == [] then b != []
    else if b == [] then false
    else if a[0] != b[0] then a[0] < b[0]
    else Less(a[1..], b[1..])
  }

  lemma {:induction false} LessIrreflexive(a: string)
    ensures !Less(a, a)
  {
    if a != [] { LessIrreflexive(a[1..]); }
  }

  lemma {:induction false} LessTransitive(a: string, b: string, c: string)
    requires Less(a, b) && Less(b, c)
    ensures Less(a, c)
  {
    if a != [] && b != [] && c != [] && a[0] == b[0] && b[0] == c[0] {
      LessTransitive(a[1..], b[1..], c[1..]);
    }
  }

  lemma {:induction false} LessTotal(a: string, b: string)
    requires a != b
    ensures Less(a, b) || Less(b, a)
  {
    if a != [] && b != [] && a[0] == b[0] {
      assert a == [a[0]] + a[1..] && b == [b[0]] + b[1..];
      LessTotal(a[1..], b[1..]);
    }
  }

  lemma LessAsymmetric(a: string, b: string)
    requires Less(a, b)
    ensures !Less(b, a)
  {
    if Less(b, a) {
      LessTransitive(a, b, a);
      LessIrreflexive(a);
    }
  }

  /** Ascending order without repetitions, which is what `sorted()` yields for a set. */
  predicate StrictlySorted(s: seq<string>) {
    forall i, j | 0 <= i < j < |s| :: Less(s[i], s[j])
  }

  /** Places `x` in an ascending sequence that does not hold it yet. */
  function Insert(x: string, s: seq<string>): (r: seq<string>)
    requires StrictlySorted(s) && x !in s
    ensures StrictlySorted(r) && |r| == |s| + 1
    ensures forall y :: y in r <==> y == x || y in s
  {
    if s == [] then [x]
    else if Less(x, s[0]) then
      InsertFrontSorted(x, s);
      [x] + s
    else
      LessTotal(x, s[0]);
      var r := [s[0]] + Insert(x, s[1..]);
      assert forall y :: y in s[1..] ==> Less(s[0], y) by {
        forall y | y in s[1..] ensures Less(s[0], y) {
          var j :| 0 <= j < |s[1..]| && s[1..][j] == y;
          assert s[j + 1] == y;
        }
      }
      r
  }

  lemma InsertFrontSorted(x: string, s: seq<string>)
    requires StrictlySorted(s) && s != [] && Less(x, s[0])
    ensures StrictlySorted([x] + s)
  {
    var r := [x] + s;
    forall i, j | 0 <= i < j < |r| ensures Less(r[i], r[j]) {
      if i == 0 && j > 1 {
        LessTransitive(x, s[0], s[j - 1]);
      }
    }
  }

  /** Two ascending sequences without repetitions that hold the same names are equal. */
  lemma {:induction false} StrictlySortedUnique(a: seq<string>, b: seq<string>)
    requires StrictlySorted(a) && StrictlySorted(b)
    requires forall y :: y in a <==> y in b
    ensures a == b
  {
    if a != [] && b != [] {
      if a[0] != b[0] {
        assert a[0] in a && b[0] in b;
        var k :| 0 <= k < |b| && b[k] == a[0];
        var m :| 0 <= m < |a| && a[m] == b[0];
        assert Less(b[0], a[0]);
        assert Less(a[0], b[0]);
        LessAsymmetric(a[0], b[0]);
      }
      assert a == [a[0]] + a[1..] && b == [b[0]] + b[1..];
      forall y | y in a[1..] ensures y in b[1..] {
        var i :| 0 <= i < |a[1..]| && a[1..][i] == y;
        assert Less(a[0], a[i + 1]);
        LessIrreflexive(y);
        assert y in a && y in b && y != b[0];
        var k :| 0 <= k < |b| && b[k] == y;
        assert b[1..][k - 1] == y;
      }
      forall y | y in b[1..] ensures y in a[1..] {
        var i :| 0 <= i < |b[1..]| && b[1..][i] == y;
        assert Less(b[0], b[i + 1]);
        LessIrreflexive(y);
        assert y in b && y in a && y != a[0];
        var k :| 0 <= k < |a| && a[k] == y;
        assert a[1..][k - 1] == y;
      }
      StrictlySortedUnique(a[1..], b[1..]);
    } else {
      EmptyIffNoMembers(a);
      EmptyIffNoMembers(b);
    }
  }

  lemma EmptyIffNoMembers(s: seq<string>)
    ensures s == [] <==> forall y :: y !in s
  {
    if s != [] {
      assert s[0] in s;
    }
  }

  /** `sorted(names)` for a set of names. */
  method SortedNames(names: set<string>) returns (r: seq<string>)
    ensures StrictlySorted(r) && |r| == |names|
    ensures forall y :: y in r <==> y in names
  {
    r := [];
    var rest := names;
    while rest != {}
      invariant rest <= names
      invariant StrictlySorted(r) && |r| + |rest| == |names|
      invariant forall y :: y in r <==> y in names && y !in rest
      decreases |rest|
    {
      var x :| x in rest;
      r := Insert(x, r);
      rest := rest - {x};
    }
  }
}

=== FILE: MarketUtils.dfy ===
/**
 * The market helpers: opening hours, the walking-route polyline, the travel
 * estimate's integer fallback, matching a shopping set against a market's
 * stock, the cart-session reset after a trip, and the clean-up of the two
 * praise lines shown on arrival.
 */
module MarketUtils {
  import opened Wrappers
  import opened Text
  import opened Calendar
  import opened Lex
  import opened Sessions

  // ---------------------------------------------------------------------------
  // Opening hours
  // ---------------------------------------------------------------------------

  /** Korean weekday abbreviations, Monday first. */
  const WeekdaysKo: seq<string> := ["월", "화", "수", "목", "금", "토", "일"]

  /** A day name as `open_days` holds it: non-empty, no comma, no whitespace at its ends. */
  predicate PlainDay(d: string) {
    d != [] && ',' !in d && !IsSpace(d[0]) && !IsSpace(d[|d| - 1])
  }

  /** The day entries of an `open_days` text: comma-separated, trimmed, blanks dropped. */
  function OpenDaySet(openDays: string): (r: set<string>)
    ensures forall d | d in r :: PlainDay(d)
    ensures forall d :: d in r <==> d != [] && exists p | p in Split(openDays, ',') :: Strip(p) == d
    ensures openDays == [] ==> r == {}
  {
    set p | p in Split(openDays, ',') && Strip(p) != [] :: Strip(p)
  }

  /** Days written one after the other with commas, without stray spaces, are read back exactly. */
  lemma {:induction false} OpenDaysOfJoined(days: seq<string>)
    requires |days| >= 1
    requires forall i | 0 <= i < |days| :: PlainDay(days[i])
    ensures forall d :: d in OpenDaySet(Join(days, ',')) <==> d in days
  {
    var text := Join(days, ',');
    SplitJoin(days, ',');
    OpenDaysOfParts(text, days);
  }

  lemma {:induction false} OpenDaysOfParts(text: string, days: seq<string>)
    requires Split(text, ',') == days
    requires forall i | 0 <= i < |days| :: PlainDay(days[i])
    ensures forall d :: d in OpenDaySet(text) <==> d in days
  {
    forall d | d in OpenDaySet(text) ensures d in days {
      DayIsPlainPiece(text, days, d);
    }
    forall d | d in days ensures d in OpenDaySet(text) {
      PlainPieceIsDay(text, d);
    }
  }

  lemma {:induction false} DayIsPlainPiece(text: string, days: seq<string>, d: string)
    requires Split(text, ',') == days
    requires forall i | 0 <= i < |days| :: PlainDay(days[i])
    requires d in OpenDaySet(text)
    ensures d in days
  {
    var p :| p in days && Strip(p) == d;
    StripOfTrimmed(p);
  }

  lemma PlainPieceIsDay(text: string, d: string)
    requires d in Split(text, ',') && PlainDay(d)
    ensures d in OpenDaySet(text)
  {
    StripOfTrimmed(d);
  }

  /**
   * Reference definition of the opening window: the time elapsed since opening,
   * taken modulo a day, is at most the length of the opening, taken modulo a
   * day. It covers same-day and overnight windows alike.
   */
  predicate InWindow(open: Clock, close: Clock, t: Clock) {
    (t - open) % DaySeconds <= (close - open) % DaySeconds
  }

  /** The window in the two cases the code distinguishes. */
  lemma InWindowCases(open: Clock, close: Clock, t: Clock)
    ensures open <= close ==> (InWindow(open, close, t) <==> open <= t <= close)
    ensures open > close ==> (InWindow(open, close, t) <==> t >= open || t <= close)
  {
    if t >= open {
      assert (t - open) % DaySeconds == t - open;
    } else {
      assert (t - open) % DaySeconds == t - open + DaySeconds;
    }
    if close >= open {
      assert (close - open) % DaySeconds == close - open;
    } else {
      assert (close - open) % DaySeconds == close - open + DaySeconds;
    }
  }

  /**
   * `is_open_now`: closed without days or either time; closed on a weekday not
   * listed; with `treat_equal_as_24h` an equal opening and closing time means
   * all day; otherwise open inside the window, both ends included.
   */
  function IsOpenNow(openDays: string, openTime: Option<Clock>, closeTime: Option<Clock>, now: nat, treatEqualAs24h: bool): (open: bool)
    ensures open <==>
      openDays != [] && openTime.Some? && closeTime.Some? &&
      WeekdaysKo[Weekday(now)] in OpenDaySet(openDays) &&
      ((treatEqualAs24h && openTime.value == closeTime.value) ||
       InWindow(openTime.value, closeTime.value, TimeOfDay(now)))
  {
    if openDays == [] || openTime.None? || closeTime.None? then false
    else if WeekdaysKo[Weekday(now)] !in OpenDaySet(openDays) then false
    else
      var t := TimeOfDay(now);
      var ot, ct := openTime.value, closeTime.value;
      InWindowCases(ot, ct, t);
      if treatEqualAs24h && ot == ct then true
      else if ot <= ct then ot <= t <= ct
      else t >= ot || t <= ct
  }

  /**
   * `minutes_until_close`: 0 without both times or outside the window;
   * otherwise the whole minutes until the closing time, which for an overnight
   * window falls on the next day once the clock has passed it.
   */
  function MinutesUntilClose(openTime: Option<Clock>, closeTime: Option<Clock>, now: nat): (m: nat)
    ensures openTime.None? || closeTime.None? ==> m == 0
    ensures openTime.Some? && closeTime.Some? ==>
      var t := TimeOfDay(now);
      m == if InWindow(openTime.value, closeTime.value, t)
           then ((closeTime.value - t) % DaySeconds) / 60 else 0
  {
    if openTime.None? || closeTime.None? then 0
    else
      var t := TimeOfDay(now);
      var ot, ct := openTime.value, closeTime.value;
      var today := DayStart(now);
      InWindowCases(ot, ct, t);
      if ot <= ct then
        if !(ot <= t <= ct) then 0
        else
          assert (ct - t) % DaySeconds == ct - t;
          Max0((today + ct - now) / 60)
      else if !(t >= ot || t <= ct) then 0
      else
        var endDay := if t <= ct then today else today + DaySeconds;
        assert (ct - t) % DaySeconds == endDay + ct - now;
        Max0((endDay + ct - now) / 60)
  }

  function Max0(x: int): nat {
    if x < 0 then 0 else x
  }

  /** While minutes remain before closing, a market open on this weekday is open. */
  lemma OpenWhileMinutesRemain(openDays: string, openTime: Clock, closeTime: Clock, now: nat, treatEqualAs24h: bool)
    requires WeekdaysKo[Weekday(now)] in OpenDaySet(openDays)
    requires MinutesUntilClose(Some(openTime), Some(closeTime), now) > 0
    ensures IsOpenNow(openDays, Some(openTime), Some(closeTime), now, treatEqualAs24h)
  {
  }

  /**
   * An equal opening and closing time reads as open all day, yet the countdown
   * to closing is 0 then: the two helpers disagree on such markets.
   */
  lemma AllDayHasNoCountdown(openDays: string, time: Clock, now: nat)
    requires WeekdaysKo[Weekday(now)] in OpenDaySet(openDays)
    ensures IsOpenNow(openDays, Some(time), Some(time), now, true)
    ensures MinutesUntilClose(Some(time), Some(time), now) == 0
  {
    InWindowCases(time, time, TimeOfDay(now));
  }

  // ---------------------------------------------------------------------------
  // Travel estimate
  // ---------------------------------------------------------------------------

  /** The estimate as `get_travel_info` returns it, without the point figure. */
  datatype Travel = Travel(expectedMin: nat, distanceM: nat)

  /** Whole minutes for a walk of `seconds`, rounded up (`math.ceil(seconds / 60)`). */
  function CeilMinutes(seconds: nat): (m: nat)
    ensures (m - 1) * 60 < seconds <= m * 60
  {
    (seconds + 59) / 60
  }

  /**
   * The fallback walking time at 80 m per minute, at least a minute, in exact
   * arithmetic: the whole part of `max(240, 3 * distanceM) / 4` seconds.
   */
  function FallbackSeconds(distanceM: nat): (s: nat)
    ensures s >= 60
    ensures 4 * s <= Max(240, 3 * distanceM) < 4 * s + 4
  {
    Max(60, distanceM * 60 / 80)
  }

  /**
   * `get_travel_info`'s integer part: the walking route's distance and duration
   * when positive (`route` is `None` when the route service failed), else the
   * straight-line distance and the fallback walking time; the expected minutes
   * round the duration up.
   */
  function TravelInfo(route: Option<(int, int)>, straightLineM: nat): (r: Travel)
    ensures r.expectedMin >= 1
    ensures r.distanceM == if route.Some? && route.value.0 > 0 then route.value.0 else straightLineM
    ensures r.expectedMin == CeilMinutes(if route.Some? && route.value.1 > 0 then route.value.1 else FallbackSeconds(r.distanceM))
  {
    var (dist0, dur0) := if route.Some? then route.value else (0, 0);
    var dist: nat := if dist0 <= 0 then straightLineM else dist0;
    var dur: nat := if dur0 <= 0 then FallbackSeconds(dist) else dur0;
    Travel(CeilMinutes(dur), dist)
  }

  function Max(a: int, b: int): (r: int)
    ensures r >= a && r >= b && (r == a || r == b)
  {
    if a >= b then a else b
  }

  /**
   * The source computes the fallback as `int(distance_m / 80 * 60)` in
   * floating point, which can land one below the exact whole part when
   * `3 * distance_m / 4` is a whole number (164 m gives 122 seconds, not 123).
   * That slip never changes the expected minutes.
   */
  lemma {:induction false} FallbackMinutesTolerateFloat(d: nat)
    requires d % 4 == 0 && d > 0
    ensures CeilMinutes(Max(60, 3 * d / 4 - 1)) == CeilMinutes(FallbackSeconds(d))
  {
    var k := d / 4;
    assert 3 * d / 4 == 3 * k;
    assert d * 60 / 80 == 3 * k;
    if 3 * k - 1 >= 60 {
      assert (3 * k + 58) / 60 == (3 * k + 59) / 60 by {
        assert (3 * k + 59) % 60 != 0;
      }
    }
  }

  /** Without a route, a longer walk is never expected to take fewer minutes. */
  lemma {:induction false} FallbackMonotone(d1: nat, d2: nat)
    requires d1 <= d2
    ensures TravelInfo(None, d1).expectedMin <= TravelInfo(None, d2).expectedMin
  {
    assert d1 * 60 / 80 <= d2 * 60 / 80;
    assert FallbackSeconds(d1) <= FallbackSeconds(d2);
  }

  // ---------------------------------------------------------------------------
  // Walking route polyline
  // ---------------------------------------------------------------------------

  datatype LatLng = LatLng(lat: real, lng: real)

  /** The points of one road's flat `[lng, lat, lng, lat, …]` vertex list. */
  function Pairs(v: seq<real>): (r: seq<LatLng>)
    requires |v| % 2 == 0
    ensures |r| * 2 == |v|
  {
    if v == [] then [] else Pairs(v[..|v| - 2]) + [LatLng(v[|v| - 1], v[|v| - 2])]
  }

  /** Point k of a road is the k-th vertex pair with latitude and longitude swapped. */
  lemma {:induction false} PairsAt(v: seq<real>, k: nat)
    requires |v| % 2 == 0 && k < |v| / 2
    ensures Pairs(v)[k] == LatLng(v[2 * k + 1], v[2 * k])
  {
    if 2 * k + 2 < |v| {
      PairsAt(v[..|v| - 2], k);
    }
  }

  predicate AllEven(roads: seq<seq<real>>) {
    forall j | 0 <= j < |roads| :: |roads[j]| % 2 == 0
  }

  /** The points of all roads, road after road. */
  function Polyline(roads: seq<seq<real>>): (r: seq<LatLng>)
    requires AllEven(roads)
  {
    if roads == [] then [] else Polyline(roads[..|roads| - 1]) + Pairs(roads[|roads| - 1])
  }

  /**
   * The conversion in market/utils.py's `get_walking_directions`: `roads` is
   * `None` when the route service gave nothing usable; a road without
   * vertexes contributes nothing, and an odd-length vertex list makes the
   * whole result empty.
   */
  method WalkingDirections(roads: Option<seq<seq<real>>>) returns (polyline: seq<LatLng>)
    ensures roads.None? ==> polyline == []
    ensures roads.Some? && AllEven(roads.value) ==> polyline == Polyline(roads.value)
    ensures roads.Some? && !AllEven(roads.value) ==> polyline == []
  {
    if roads.None? {
      return [];
    }
    var rs := roads.value;
    polyline := [];
    for j := 0 to |rs|
      invariant AllEven(rs[..j]) && polyline == Polyline(rs[..j])
    {
      var v := rs[j];
      ghost var before := polyline;
      var i := 0;
      while i < |v|
        invariant 0 <= i <= |v| && i % 2 == 0
        invariant polyline == before + Pairs(v[..i])
      {
        if i + 1 >= |v| {
          assert !AllEven(rs) by { assert |rs[j]| % 2 == 1; }
          return [];
        }
        PairsStep(v, i);
        polyline := polyline + [LatLng(v[i + 1], v[i])];
        i := i + 2;
      }
      assert v[..i] == v;
      PolylineStep(rs, j);
    }
    assert rs[..|rs|] == rs;
  }

  /** Reading one more vertex pair adds its point at the end. */
  lemma PairsStep(v: seq<real>, i: nat)
    requires i % 2 == 0 && i + 2 <= |v|
    ensures Pairs(v[..i + 2]) == Pairs(v[..i]) + [LatLng(v[i + 1], v[i])]
  {
    assert v[..i + 2][..i] == v[..i];
  }

  /** Reading one more road adds its points at the end. */
  lemma PolylineStep(rs: seq<seq<real>>, j: nat)
    requires j < |rs| && AllEven(rs[..j]) && |rs[j]| % 2 == 0
    ensures AllEven(rs[..j + 1])
    ensures Polyline(rs[..j + 1]) == Polyline(rs[..j]) + Pairs(rs[j])
  {
    assert rs[..j + 1][..j] == rs[..j];
  }

  // ---------------------------------------------------------------------------
  // Matching a shopping set against a market's stock
  // ---------------------------------------------------------------------------

  /** One row of the matched or unmatched list: a name and its image URL, if any. */
  datatype Item = Item(name: string, image: Option<string>)

  function ItemNames(items: seq<Item>): (r: seq<string>)
    ensures |r| == |items| && forall i | 0 <= i < |items| :: r[i] == items[i].name
  {
    seq(|items|, i requires 0 <= i < |items| => items[i].name)
  }

  /** `img_map.get(name)`, where the map holds the catalogue ingredients of the set. */
  function ImageOf(images: map<string, Option<string>>, name: string): (r: Option<string>)
    ensures name !in images ==> r.None?
    ensures name in images ==> r == images[name]
  {
    if name in images then images[name] else None
  }

  /** The items of the names in `order` whose stock status is `inStock`, in order. */
  function ItemsWhere(order: seq<string>, stocked: set<string>, inStock: bool, images: map<string, Option<string>>): (r: seq<Item>)
    ensures forall n :: n in ItemNames(r) <==> n in order && (n in stocked <==> inStock)
    ensures forall it | it in r :: it.image == ImageOf(images, it.name)
  {
    if order == [] then []
    else
      var n := order[|order| - 1];
      var prev := ItemsWhere(order[..|order| - 1], stocked, inStock, images);
      assert forall x :: x in order <==> x in order[..|order| - 1] || x == n;
      var r := if (n in stocked) == inStock then prev + [Item(n, ImageOf(images, n))] else prev;
      assert ItemNames(r) == if (n in stocked) == inStock then ItemNames(prev) + [n] else ItemNames(prev);
      r
  }

  /** Filtering an ascending list keeps it ascending. */
  lemma {:induction false} ItemsWhereSorted(order: seq<string>, stocked: set<string>, inStock: bool, images: map<string, Option<string>>)
    requires StrictlySorted(order)
    ensures StrictlySorted(ItemNames(ItemsWhere(order, stocked, inStock, images)))
  {
    if order != [] {
      var n := order[|order| - 1];
      var init := order[..|order| - 1];
      ItemsWhereSorted(init, stocked, inStock, images);
      var prev := ItemNames(ItemsWhere(init, stocked, inStock, images));
      if (n in stocked) == inStock {
        var r := ItemNames(ItemsWhere(order, stocked, inStock, images));
        assert r == prev + [n];
        forall i | 0 <= i < |prev| ensures Less(prev[i], n) {
          assert prev[i] in init;
          var k :| 0 <= k < |init| && init[k] == prev[i];
          assert order[k] == prev[i];
        }
      }
    }
  }

  /** Every name of `order` lands in exactly one of the two lists. */
  lemma {:induction false} ItemsWhereSizes(order: seq<string>, stocked: set<string>, images: map<string, Option<string>>)
    ensures |ItemsWhere(order, stocked, true, images)| + |ItemsWhere(order, stocked, false, images)| == |order|
  {
    if order != [] {
      ItemsWhereSizes(order[..|order| - 1], stocked, images);
    }
  }

  /**
   * `match_ingredients` in the market helpers: the shopping names in ascending
   * order, split into those the market stocks and the rest, each with its image.
   */
  method MatchIngredients(shopping: set<string>, stocked: set<string>, images: map<string, Option<string>>)
    returns (matched: seq<Item>, unmatched: seq<Item>)
    ensures StrictlySorted(ItemNames(matched)) && StrictlySorted(ItemNames(unmatched))
    ensures forall n :: n in ItemNames(matched) <==> n in shopping && n in stocked
    ensures forall n :: n in ItemNames(unmatched) <==> n in shopping && n !in stocked
    ensures forall it | it in matched + unmatched :: it.image == ImageOf(images, it.name)
    ensures |matched| + |unmatched| == |shopping|
  {
    var order := SortedNames(shopping);
    matched, unmatched := [], [];
    for i := 0 to |order|
      invariant matched == ItemsWhere(order[..i], stocked, true, images)
      invariant unmatched == ItemsWhere(order[..i], stocked, false, images)
    {
      assert order[..i + 1][..i] == order[..i];
      var item := Item(order[i], ImageOf(images, order[i]));
      if order[i] in stocked {
        matched := matched + [item];
      } else {
        unmatched := unmatched + [item];
      }
    }
    assert order[..|order|] == order;
    ItemsWhereSorted(order, stocked, true, images);
    ItemsWhereSorted(order, stocked, false, images);
    ItemsWhereSizes(order, stocked, images);
  }

  // ---------------------------------------------------------------------------
  // Session reset after a trip
  // ---------------------------------------------------------------------------

  const TripSessionKeys: seq<string> :=
    ["optional_selected", "extra_ingredients", "search_selected", "basic", "optional", "recipe_input", "latest_recipe"]

  const ActiveListKey: string := "active_sl_id"

  /** `reset_cart_session`: the seven recipe and cart keys go, the active list becomes `None`. */
  method ResetCartSession(session: Session)
    modifies session
    ensures session.data == (old(session.data) - KeySet(TripSessionKeys))[ActiveListKey := Null]
  {
    session.PopAll(TripSessionKeys);
    session.Put(ActiveListKey, Null);
  }

  // ---------------------------------------------------------------------------
  // Arrival praise lines
  // ---------------------------------------------------------------------------

  /** The characters `str.splitlines()` breaks at. */
  predicate IsLineBreak(c: char) {
    c == '\n' || c == '\r' || c == '\U{B}' || c == '\U{C}' || c == '\U{1C}' || c == '\U{1D}' ||
    c == '\U{1E}' || c == '\U{85}' || c == '\U{2028}' || c == '\U{2029}'
  }

  predicate NoBreaks(s: string) {
    forall k | 0 <= k < |s| :: !IsLineBreak(s[k])
  }

  /**
   * The pieces between line breaks. A `\r\n` pair or a final break gives an
   * empty piece that `splitlines()` would not, which the blank-line filter
   * applied to every use drops again.
   */
  function Lines(s: string): (r: seq<string>)
    ensures |r| >= 1
  {
    if s == [] then [[]]
    else
      var rest := Lines(s[1..]);
      if IsLineBreak(s[0]) then [[]] + rest else [[s[0]] + rest[0]] + rest[1..]
  }

  lemma {:induction false} LinesNoBreaks(s: string)
    ensures forall x | x in Lines(s) :: NoBreaks(x)
  {
    if s != [] {
      LinesNoBreaks(s[1..]);
      var rest := Lines(s[1..]);
      if !IsLineBreak(s[0]) {
        assert rest[0] in rest;
        assert forall x | x in rest[1..] :: x in rest;
        var first := [s[0]] + rest[0];
        assert NoBreaks(first) by {
          forall k | 0 <= k < |first| ensures !IsLineBreak(first[k]) {
            if k > 0 { assert first[k] == rest[0][k - 1]; }
          }
        }
      }
    }
  }

  /** The characters of the leading-bullet pattern `[\s\-\*\•\d\.\)\(]`. */
  predicate IsBulletChar(c: char) {
    IsSpace(c) || IsDigit(c) || c == '-' || c == '*' || c == '•' || c == '.' || c == ')' || c == '('
  }

  /** `re.sub(r'^[…]+', '', ln)`: the line without its leading run of bullet characters. */
  function DropBullets(s: string): (r: string)
    ensures |r| <= |s| && r == s[|s| - |r|..]
    ensures forall i | 0 <= i < |s| - |r| :: IsBulletChar(s[i])
    ensures r == [] || !IsBulletChar(r[0])
  {
    if s != [] && IsBulletChar(s[0]) then DropBullets(s[1..]) else s
  }

  /** One line cleaned: leading bullets dropped, then stripped. */
  function CleanLine(line: string): string {
    Strip(DropBullets(line))
  }

  /** A non-empty cleaned line starts with no bullet. */
  lemma CleanLineStart(line: string)
    ensures CleanLine(line) != [] ==> !IsBulletChar(CleanLine(line)[0])
  {
    var d := DropBullets(line);
    var c := Strip(d);
    if c != [] {
      assert d != [] && !IsSpace(d[0]);
      assert LStrip(d) == d;
      assert c[0] == d[0];
    }
  }

  /** Cleaning a line without line breaks gives a line without line breaks. */
  lemma CleanLineNoBreaks(line: string)
    requires NoBreaks(line)
    ensures NoBreaks(CleanLine(line))
  {
    DropBulletsNoBreaks(line);
    StripNoBreaks(DropBullets(line));
  }

  lemma DropBulletsNoBreaks(line: string)
    requires NoBreaks(line)
    ensures NoBreaks(DropBullets(line))
  {
    var d := DropBullets(line);
    forall m | 0 <= m < |d| ensures !IsLineBreak(d[m]) {
      assert d[m] == line[|line| - |d| + m];
    }
  }

  lemma StripNoBreaks(d: string)
    requires NoBreaks(d)
    ensures NoBreaks(Strip(d))
  {
    StripKeepsNone(d, IsLineBreak);
  }

  /** `not ln.strip()`: by `StripEmptyIffBlank`, the line is whitespace only. */
  predicate IsBlank(s: string) {
    forall i | 0 <= i < |s| :: IsSpace(s[i])
  }

  /** Cleans the non-blank lines: the blank filter looks at each line before cleaning. */
  function CleanEachLine(lines: seq<string>): (r: seq<string>)
    ensures |r| <= |lines|
  {
    if lines == [] then []
    else
      var rest := CleanEachLine(lines[1..]);
      if IsBlank(lines[0]) then rest else [CleanLine(lines[0])] + rest
  }

  function Take2(s: seq<string>): (r: seq<string>)
    ensures |r| == if |s| < 2 then |s| else 2
    ensures r == s[..|r|]
  {
    if |s| < 2 then s else s[..2]
  }

  /**
   * `generate_arrival_praises`' post-processing as written: the reply (or ""),
   * stripped and split into lines; blank lines dropped; each remaining line
   * freed of its leading bullets and stripped; the first two kept.
   */
  function PraiseLinesAsWritten(reply: Option<string>): (r: seq<string>)
    ensures |r| <= 2
  {
    Take2(CleanEachLine(Lines(Strip(reply.GetOr("")))))
  }

  /** A piece without line breaks is a single line. */
  lemma {:induction false} LinesOfPiece(x: string)
    requires NoBreaks(x)
    ensures Lines(x) == [x]
  {
    if x != [] {
      LinesOfPiece(x[1..]);
      assert [x[0]] + x[1..] == x;
    }
  }

  /** A piece followed by a line break is the first line, the rest follows. */
  lemma {:induction false} LinesAfterPiece(x: string, c: char, rest: string)
    requires NoBreaks(x) && IsLineBreak(c)
    ensures Lines(x + [c] + rest) == [x] + Lines(rest)
  {
    var s := x + [c] + rest;
    if x == [] {
      assert s == [c] + rest;
      assert s[1..] == rest;
    } else {
      assert s[1..] == x[1..] + [c] + rest;
      LinesAfterPiece(x[1..], c, rest);
      assert [x[0]] + x[1..] == x;
    }
  }

  /** A line fit to show: not empty, no line break, no bullet in front, no space behind. */
  predicate CleanText(x: string) {
    x != [] && NoBreaks(x) && !IsBulletChar(x[0]) && !IsSpace(x[|x| - 1])
  }

  lemma CleanTextCleaned(x: string)
    requires CleanText(x)
    ensures Strip(x) == x && CleanLine(x) == x
  {
    StripOfTrimmed(x);
  }

  /** A line of numbering only, such as "1." or "2)", is not blank, yet cleans to nothing. */
  lemma NumberingCleaned(n: string)
    requires n != [] && !IsSpace(n[0]) && forall i | 0 <= i < |n| :: IsBulletChar(n[i])
    ensures !IsBlank(n) && CleanLine(n) == []
  {
    var d := DropBullets(n);
    assert d == [];
  }

  lemma CleanEachLineCons(x: string, rest: seq<string>)
    ensures CleanEachLine([x] + rest) == if IsBlank(x) then CleanEachLine(rest) else [CleanLine(x)] + CleanEachLine(rest)
  {
    assert ([x] + rest)[1..] == rest;
  }

  lemma CleanLinesCons(x: string, rest: seq<string>)
    ensures CleanLines([x] + rest) == if CleanLine(x) == [] then CleanLines(rest) else [CleanLine(x)] + CleanLines(rest)
  {
    assert ([x] + rest)[1..] == rest;
  }

  /** A line of numbering only, such as "1." or "2)": a digit, then bullet characters. */
  predicate NumberingLine(n: string) {
    n != [] && IsDigit(n[0]) && NoBreaks(n) && forall i | 0 <= i < |n| :: IsBulletChar(n[i])
  }

  /** A reply of three lines. */
  function Reply3(a: string, b: string, c: string): string {
    a + "\n" + b + "\n" + c
  }

  lemma Reply3Stripped(n: string, first: string, second: string)
    requires NumberingLine(n) && CleanText(second)
    ensures Strip(Reply3(n, first, second)) == Reply3(n, first, second)
  {
    var reply := Reply3(n, first, second);
    assert reply[0] == n[0] && reply[|reply| - 1] == second[|second| - 1];
    StripOfTrimmed(reply);
  }

  lemma Reply3Lines(a: string, b: string, c: string)
    requires NoBreaks(a) && NoBreaks(b) && NoBreaks(c)
    ensures Lines(Reply3(a, b, c)) == [a] + [b, c]
  {
    var reply := Reply3(a, b, c);
    assert reply == a + ['\n'] + (b + ['\n'] + c);
    LinesAfterPiece(a, '\n', b + ['\n'] + c);
    LinesAfterPiece(b, '\n', c);
    LinesOfPiece(c);
  }

  lemma CleanSingle(x: string)
    requires CleanText(x)
    ensures CleanEachLine([x]) == [x] && CleanLines([x]) == [x]
  {
    CleanTextCleaned(x);
    var none: seq<string> := [];
    CleanEachLineCons(x, none);
    CleanLinesCons(x, none);
    assert [x] + none == [x];
  }

  lemma CleanPair(x: string, y: string)
    requires CleanText(x) && CleanText(y)
    ensures CleanEachLine([x, y]) == [x, y] && CleanLines([x, y]) == [x, y]
  {
    CleanTextCleaned(x);
    CleanSingle(y);
    CleanEachLineCons(x, [y]);
    CleanLinesCons(x, [y]);
    assert [x] + [y] == [x, y];
  }

  /** A numbering line is kept by the blank filter as an empty line. */
  lemma EachLineAfterNumbering(n: string, tail: seq<string>)
    requires !IsBlank(n) && CleanLine(n) == []
    ensures CleanEachLine([n] + tail) == [""] + CleanEachLine(tail)
  {
    CleanEachLineCons(n, tail);
  }

  /** A numbering line is dropped once the filter looks at the cleaned line. */
  lemma CleanLinesAfterNumbering(n: string, tail: seq<string>)
    requires CleanLine(n) == []
    ensures CleanLines([n] + tail) == CleanLines(tail)
  {
    CleanLinesCons(n, tail);
  }

  /**
   * As written, a numbering line on its own passes the blank filter and comes
   * out as an empty praise line, and the second proper line is cut off.
   */
  lemma NumberedLineComesOutEmpty(n: string, first: string, second: string)
    requires NumberingLine(n) && CleanText(first) && CleanText(second)
    ensures PraiseLinesAsWritten(Some(Reply3(n, first, second))) == ["", first]
  {
    Reply3Stripped(n, first, second);
    Reply3Lines(n, first, second);
    NumberingCleaned(n);
    CleanPair(first, second);
    AsWrittenOfLines(Reply3(n, first, second), n, [first, second]);
  }

  lemma AsWrittenOfLines(text: string, n: string, tail: seq<string>)
    requires Strip(text) == text && Lines(text) == [n] + tail
    requires !IsBlank(n) && CleanLine(n) == [] && CleanEachLine(tail) == tail && |tail| >= 1
    ensures PraiseLinesAsWritten(Some(text)) == ["", tail[0]]
  {
    EachLineAfterNumbering(n, tail);
  }

  lemma CorrectedOfLines(text: string, n: string, tail: seq<string>)
    requires Strip(text) == text && Lines(text) == [n] + tail
    requires CleanLine(n) == [] && CleanLines(tail) == tail
    ensures CleanLines(Lines(Strip(text))) == tail
  {
    CleanLinesAfterNumbering(n, tail);
  }

  lemma PraiseLinesOfTwo(text: string, tail: seq<string>)
    requires CleanLines(Lines(Strip(text))) == tail && |tail| == 2
    ensures PraiseLines(Some(text)) == tail
  {
  }

  /** The smallest such reply: "1.", "A" and "B" on three lines. */
  lemma SampleNumberedReply()
    ensures PraiseLinesAsWritten(Some("1.\nA\nB")) == ["", "A"]
  {
    assert NumberingLine("1.") && CleanText("A") && CleanText("B");
    assert Reply3("1.", "A", "B") == "1.\nA\nB";
    NumberedLineComesOutEmpty("1.", "A", "B");
  }

  lemma SampleNumberedReplyCorrected()
    ensures PraiseLines(Some("1.\nA\nB")) == ["A", "B"]
  {
    assert NumberingLine("1.") && CleanText("A") && CleanText("B");
    assert Reply3("1.", "A", "B") == "1.\nA\nB";
    NumberedLineSkipped("1.", "A", "B");
  }

  /** Cleans every line first and then drops the lines that came out empty. */
  function CleanLines(lines: seq<string>): (r: seq<string>)
    ensures |r| <= |lines|
    ensures forall x | x in r :: x != [] && !IsBulletChar(x[0])
  {
    if lines == [] then []
    else
      var rest := CleanLines(lines[1..]);
      var c := CleanLine(lines[0]);
      CleanLineStart(lines[0]);
      if c == [] then rest
      else
        assert forall x | x in [c] + rest :: x == c || x in rest;
        [c] + rest
  }

  /** Cleaning never joins lines: a cleaned line holds no line break. */
  lemma {:induction false} CleanLinesNoBreaks(lines: seq<string>)
    requires forall x | x in lines :: NoBreaks(x)
    ensures forall x | x in CleanLines(lines) :: NoBreaks(x)
  {
    if lines != [] {
      CleanLinesNoBreaks(lines[1..]);
      CleanLineNoBreaks(lines[0]);
      assert lines[0] in lines;
    }
  }

  /**
   * The clean-up as evidently meant ("only sentences, two lines"): the same
   * cleaning, with the blank filter applied after it, so no line comes out
   * empty, none starts with a bullet and none spans a line break.
   */
  function PraiseLines(reply: Option<string>): (r: seq<string>)
    ensures |r| <= 2
    ensures forall x | x in r :: x != [] && !IsBulletChar(x[0]) && NoBreaks(x)
  {
    var lines := Lines(Strip(reply.GetOr("")));
    LinesNoBreaks(Strip(reply.GetOr("")));
    CleanLinesNoBreaks(lines);
    var r := Take2(CleanLines(lines));
    assert forall x | x in r :: x in CleanLines(lines);
    r
  }

  /** On such a reply, the corrected clean-up yields the two proper lines. */
  lemma NumberedLineSkipped(n: string, first: string, second: string)
    requires NumberingLine(n) && CleanText(first) && CleanText(second)
    ensures PraiseLines(Some(Reply3(n, first, second))) == [first, second]
  {
    Reply3Stripped(n, first, second);
    Reply3Lines(n, first, second);
    NumberingCleaned(n);
    CleanPair(first, second);
    CorrectedOfLines(Reply3(n, first, second), n, [first, second]);
    PraiseLinesOfTwo(Reply3(n, first, second), [first, second]);
  }
}

=== FILE: MarketViews.dfy ===
/**
 * The market views: the nearest market and its closing countdown, attaching
 * the chosen market to the latest shopping list, the view's own stock match,
 * the market's secret-code check and the once-only point award when a
 * shopping trip is completed.
 */
module MarketViews {
  import opened Wrappers
  import opened Calendar
  import opened Lex
  import opened PointUtils
  import opened MarketUtils

  // ---------------------------------------------------------------------------
  // Nearest market
  // ---------------------------------------------------------------------------

  /**
   * `min(pairs, key=distance)` over the markets' distances: the index of the
   * first smallest one. `None` stands for the `ValueError` that `min` raises
   * when there is no market.
   */
  function NearestIndex(distances: seq<real>): (r: Option<nat>)
    ensures r.None? <==> distances == []
    ensures r.Some? ==> r.value < |distances|
    ensures r.Some? ==> forall j | 0 <= j < |distances| :: distances[r.value] <= distances[j]
    ensures r.Some? ==> forall j | 0 <= j < r.value :: distances[j] > distances[r.value]
  {
    if distances == [] then None
    else if |distances| == 1 then Some(0)
    else
      var last := |distances| - 1;
      var k := NearestIndex(distances[..last]).value;
      assert forall j | 0 <= j < last :: distances[..last][j] == distances[j];
      if distances[last] < distances[k] then Some(last) else Some(k)
  }

  // ---------------------------------------------------------------------------
  // Closing countdown of the nearest market
  // ---------------------------------------------------------------------------

  /** `timedelta.seconds`: the seconds part of a signed difference, which wraps into one day. */
  function TimedeltaSeconds(delta: int): (r: Clock)
    ensures 0 <= delta < DaySeconds ==> r == delta
  {
    delta % DaySeconds
  }

  /**
   * The countdown in `nearest_market_view`: a same-day window (open strictly
   * before close) counts down while open; any other window counts down when
   * the clock is past opening or not yet past closing. The closing day it picks
   * is off by one in both overnight cases, and `timedelta.seconds` wraps the
   * difference back into the right number of seconds.
   */
  function ClosingInMinutes(openTime: Clock, closeTime: Clock, now: Clock): (m: nat)
    ensures m < 24 * 60
    ensures m == if openTime == closeTime || InWindow(openTime, closeTime, now)
                 then ((closeTime - now) % DaySeconds) / 60 else 0
  {
    InWindowCases(openTime, closeTime, now);
    if openTime < closeTime then
      if openTime <= now <= closeTime then
        TimedeltaSeconds(closeTime - now) / 60
      else 0
    else if now >= openTime || now <= closeTime then
      var endDay := if now <= closeTime then DaySeconds else 0;
      assert (endDay + closeTime - now) % DaySeconds == (closeTime - now) % DaySeconds;
      TimedeltaSeconds(endDay + closeTime - now) / 60
    else 0
  }

  /** Unless opening and closing coincide, the view's countdown is `minutes_until_close`. */
  lemma ClosingAgreesWithCountdown(openTime: Clock, closeTime: Clock, now: nat)
    requires openTime != closeTime
    ensures ClosingInMinutes(openTime, closeTime, TimeOfDay(now)) == MinutesUntilClose(Some(openTime), Some(closeTime), now)
  {
  }

  /**
   * When opening and closing coincide the view counts down to the next time
   * the clock shows that hour, while `minutes_until_close` gives 0.
   */
  lemma ClosingAllDay(time: Clock, now: nat)
    ensures ClosingInMinutes(time, time, TimeOfDay(now)) == ((time - TimeOfDay(now)) % DaySeconds) / 60
    ensures MinutesUntilClose(Some(time), Some(time), now) == 0
  {
    InWindowCases(time, time, TimeOfDay(now));
  }

  // ---------------------------------------------------------------------------
  // Shopping lists
  // ---------------------------------------------------------------------------

  /** A `ShoppingList` row: its owner, the market it was used at, and whether the trip is done. */
  class ShoppingList {
    const id: nat
    const owner: UserId
    var market: Option<nat>
    var isDone: bool

    constructor (id: nat, owner: UserId)
      ensures this.id == id && this.owner == owner && market.None? && !isDone
    {
      this.id, this.owner := id, owner;
      market, isDone := None, false;
    }

    /** `map_direction_view`: the list takes the market only when it has none yet. */
    method AttachMarketIfUnset(marketId: nat)
      modifies this
      ensures market == if old(market).None? then Some(marketId) else old(market)
      ensures isDone == old(isDone)
    {
      if market.None? {
        market := Some(marketId);
      }
    }
  }

  // ---------------------------------------------------------------------------
  // The view's own stock match
  // ---------------------------------------------------------------------------

  /** The stocked names of `order` with their images, in the order given. */
  function StockedItems(order: seq<string>, stock: map<string, Option<string>>): (r: seq<Item>)
    ensures forall n :: n in ItemNames(r) <==> n in order && n in stock
    ensures forall it | it in r :: it.name in stock && it.image == stock[it.name]
    ensures |r| <= |order|
  {
    if order == [] then []
    else
      var n := order[|order| - 1];
      var prev := StockedItems(order[..|order| - 1], stock);
      assert forall x :: x in order <==> x in order[..|order| - 1] || x == n;
      var r := if n in stock then prev + [Item(n, stock[n])] else prev;
      assert ItemNames(r) == if n in stock then ItemNames(prev) + [n] else ItemNames(prev);
      r
  }

  /**
   * `match_ingredients` in the market views. `order` is the order in which the
   * shopping set is iterated and `stock` maps each stocked ingredient to its
   * image. Stocked names come out as items in iteration order; the others come
   * out as a sorted list of names. The source iterates a set, so each name
   * occurs once in `order`; the contract holds for any order, repeated names
   * included, so no precondition asks for that.
   */
  method MatchIngredientsView(order: seq<string>, stock: map<string, Option<string>>)
    returns (matched: seq<Item>, unmatched: seq<string>)
    ensures matched == StockedItems(order, stock)
    ensures StrictlySorted(unmatched)
    ensures forall n :: n in unmatched <==> n in order && n !in stock
  {
    matched := [];
    var rest: seq<string> := [];
    for i := 0 to |order|
      invariant matched == StockedItems(order[..i], stock)
      invariant forall n :: n in rest <==> n in order[..i] && n !in stock
    {
      assert order[..i + 1][..i] == order[..i];
      assert forall x :: x in order[..i + 1] <==> x in order[..i] || x == order[i];
      var name := order[i];
      if name in stock {
        matched := matched + [Item(name, stock[name])];
      } else {
        rest := rest + [name];
      }
    }
    assert order[..|order|] == order;
    unmatched := SortedNames(set n | n in rest);
  }

  // ---------------------------------------------------------------------------
  // Secret code
  // ---------------------------------------------------------------------------

  datatype SecretOutcome = Verified | WrongPassword | BadRequest

  /**
   * `verify_secret_code`: a POST is verified exactly when a market with the
   * posted id exists and its secret code equals the posted password; any other
   * POST gets the wrong-password message, and any other method the
   * bad-request message. `secrets` maps market ids to their codes.
   */
  function VerifySecretCode(isPost: bool, secrets: map<nat, string>, marketId: Option<nat>, password: Option<string>): (r: SecretOutcome)
    ensures !isPost <==> r == BadRequest
    ensures r == Verified <==>
      isPost && marketId.Some? && marketId.value in secrets && password == Some(secrets[marketId.value])
  {
    if !isPost then BadRequest
    else
      var market := if marketId.Some? && marketId.value in secrets then Some(secrets[marketId.value]) else None;
      if market.Some? && password.Some? && market.value == password.value then Verified
      else WrongPassword
  }

  // ---------------------------------------------------------------------------
  // Completing a trip
  // ---------------------------------------------------------------------------

  /**
   * `shopping_success_view` on the point tables: a trip already logged for the
   * user only creates the missing balance row and credits 0; otherwise the
   * balance grows by exactly `point` and one log row with `point` is added.
   * The second component is the credited amount shown on the page.
   */
  function Award(s: LedgerState, user: UserId, listId: nat, point: nat, now: int): (r: (LedgerState, nat))
    ensures Credited(r.0, user, listId)
    ensures Credited(s, user, listId) ==> r == (GetOrCreate(s, user), 0)
    ensures !Credited(s, user, listId) ==>
      var b := GetOrCreate(s, user).balances[user];
      r.1 == point &&
      r.0.balances == s.balances[user := b + point] &&
      r.0.logs == s.logs + [LogEntry(user, listId, point, now)] &&
      r.0.usages == s.usages
  {
    if Credited(s, user, listId) then (GetOrCreate(s, user), 0)
    else
      var g := GetOrCreate(s, user);
      var logs := s.logs + [LogEntry(user, listId, point, now)];
      assert logs[|s.logs|].user == user && logs[|s.logs|].listId == listId;
      (LedgerState(g.balances[user := g.balances[user] + point], s.usages, logs), point)
  }

  /** A trip is credited once: completing it again changes nothing and credits 0. */
  lemma AwardOnce(s: LedgerState, user: UserId, listId: nat, point: nat, now: int, point2: nat, now2: int)
    ensures var first := Award(s, user, listId, point, now).0;
      Award(first, user, listId, point2, now2) == (first, 0)
  {
    var first := Award(s, user, listId, point, now).0;
    assert user in first.balances;
  }

  /** Crediting a trip keeps the books consistent: the balance grows by what the new log row earned. */
  lemma AwardConsistent(s: LedgerState, user: UserId, listId: nat, point: nat, now: int)
    requires Consistent(s)
    ensures Consistent(Award(s, user, listId, point, now).0)
  {
    var r := Award(s, user, listId, point, now);
    GetOrCreateConsistent(s, user);
    if !Credited(s, user, listId) {
      forall u ensures Earned(r.0.logs, u) == Earned(s.logs, u) + (if u == user then point else 0) {
        EarnedAppend(s.logs, LogEntry(user, listId, point, now), u);
      }
    }
  }

  /** The page `shopping_success_view` renders. */
  datatype SuccessPage = NotFound | ServerError | AlreadyCredited(total: int) | NewlyCredited(point: nat, total: int)

  /**
   * `shopping_success_view`: a list that is not the user's is a 404 and
   * changes nothing; a trip already logged only creates the missing balance
   * row and shows the total, as `Award` says. Otherwise the list's market is
   * read for the travel estimate: a list without a market raises before
   * anything is written (a server error, nothing changes); with a market the
   * trip is credited as `Award` says and the list is marked done. `point` is
   * the figure the views module's own `get_travel_info` computes: 100 times
   * the straight-line distance in km, rounded.
   */
  method ShoppingSuccess(ledger: Ledger, list: ShoppingList, user: UserId, point: nat, now: int) returns (page: SuccessPage)
    modifies ledger, list
    ensures list.owner != user ==> page == NotFound && ledger.State() == old(ledger.State()) && list.isDone == old(list.isDone)
    ensures list.owner == user && Credited(old(ledger.State()), user, list.id) ==>
      ledger.State() == GetOrCreate(old(ledger.State()), user) &&
      page == AlreadyCredited(ledger.State().balances[user]) &&
      list.isDone == old(list.isDone)
    ensures list.owner == user && !Credited(old(ledger.State()), user, list.id) && list.market.None? ==>
      page == ServerError && ledger.State() == old(ledger.State()) && list.isDone == old(list.isDone)
    ensures list.owner == user && !Credited(old(ledger.State()), user, list.id) && list.market.Some? ==>
      var r := Award(old(ledger.State()), user, list.id, point, now);
      ledger.State() == r.0 && page == NewlyCredited(point, r.0.balances[user]) && list.isDone
    ensures list.market == old(list.market)
  {
    if list.owner != user {
      return NotFound;
    }
    ghost var s0 := ledger.State();
    var logged := ledger.HasLog(user, list.id);
    if logged {
      var total := ledger.GetOrCreatePoint(user);
      return AlreadyCredited(total);
    }
    if list.market.None? {
      return ServerError;
    }
    list.isDone := true;
    var _ := ledger.GetOrCreatePoint(user);
    ledger.balances := ledger.balances[user := ledger.balances[user] + point];
    ledger.logs := ledger.logs + [LogEntry(user, list.id, point, now)];
    page := NewlyCredited(point, ledger.balances[user]);
    assert ledger.State() == Award(s0, user, list.id, point, now).0;
  }
}

=== FILE: PointUtils.dfy ===
/**
 * point/utils.py: input checks for point redemption, the request-id guard,
 * the balance-guarded deduction, the weekly rank, the week boundaries and the
 * history filter and order.
 *
 * The database tables the point code touches are one `Ledger` object:
 * `UserPoint.total_point` per user, the `PointUsage` rows and the
 * `ActivityLog` rows. Its abstract value is a `LedgerState`, and every
 * method that changes it is specified by a pure transition on that value.
 */
module PointUtils {
  import opened Wrappers
  import opened Text
  import opened Calendar
  import opened Sorting

  type UserId = nat

  // ---------------------------------------------------------------------------
  // Input checks
  // ---------------------------------------------------------------------------

  /** `valid_4digit`: a staff PIN is exactly four decimal digits. */
  function Valid4Digit(code: string): (ok: bool)
    ensures ok <==> |code| == 4 && AllDigits(code)
    ensures ok ==> DigitsOnly(code) == code
  {
    var ok := code != [] && AllDigits(code) && |code| == 4;
    if ok then DigitsOnlyOfDigits(code); ok else ok
  }

  /**
   * `parse_use_point`: `int(raw)`, accepted when it is not negative and a
   * multiple of 100. Every rejection (not an integer, negative, off-step) is
   * the `ValueError` the view catches, here `None`.
   */
  function ParseUsePoint(raw: string): (r: Option<nat>)
    ensures r.Some? <==>
      ParsePyInt(raw).Some? && ParsePyInt(raw).value >= 0 && ParsePyInt(raw).value % 100 == 0
    ensures r.Some? ==> r.value == ParsePyInt(raw).value && r.value % 100 == 0
  {
    match ParsePyInt(raw)
    case None => None
    case Some(v) => if v < 0 || v % 100 != 0 then None else Some(v)
  }

  /** Every non-negative multiple of 100, as the browser submits it, is accepted as itself; zero included. */
  lemma ParseUsePointOfStep(n: nat)
    requires n % 100 == 0
    ensures ParseUsePoint(ShowNat(n)) == Some(n)
  {
    ParsePyIntShowNat(n);
  }

  /** An amount that is not a multiple of 100 is refused. */
  lemma ParseUsePointOffStep(n: nat)
    requires n % 100 != 0
    ensures ParseUsePoint(ShowNat(n)).None?
  {
    ParsePyIntShowNat(n);
  }

  /** A negative amount, a minus sign followed by digits that are not all zero, is refused. */
  lemma ParseUsePointNegative(raw: string)
    requires |raw| > 1 && raw[0] == '-' && AllDigits(raw[1..]) && DigitsValue(raw[1..]) > 0
    ensures ParseUsePoint(raw).None?
  {
    ParsePyIntMinus(raw);
  }

  /** An ASCII letter or digit: the alphabet of `get_random_string`. */
  predicate IsAlnum(c: char) {
    IsDigit(c) || 'a' <= c <= 'z' || 'A' <= c <= 'Z'
  }

  /**
   * `ensure_request_id`: the submitted id without surrounding whitespace, or,
   * when that is empty or nothing was submitted, the freshly generated
   * 24-character id `generated`.
   */
  function EnsureRequestId(raw: Option<string>, generated: string): (rid: string)
    requires |generated| == 24 && forall i | 0 <= i < |generated| :: IsAlnum(generated[i])
    ensures rid != [] && !IsSpace(rid[0]) && !IsSpace(rid[|rid| - 1])
    ensures raw.Some? && Strip(raw.value) != [] ==> rid == Strip(raw.value)
    ensures raw.None? || Strip(raw.value) == [] ==> rid == generated
  {
    var r := Strip(raw.GetOr([]));
    if r != [] then r
    else
      assert IsAlnum(generated[0]) && IsAlnum(generated[23]);
      generated
  }

  /** Submitting the id a form was given again yields the same id, whatever would have been generated. */
  lemma EnsureRequestIdStable(raw: Option<string>, generated: string, other: string)
    requires |generated| == 24 && forall i | 0 <= i < |generated| :: IsAlnum(generated[i])
    requires |other| == 24 && forall i | 0 <= i < |other| :: IsAlnum(other[i])
    ensures var rid := EnsureRequestId(raw, generated);
      EnsureRequestId(Some(rid), other) == rid
  {
    var rid := EnsureRequestId(raw, generated);
    StripOfTrimmed(rid);
  }

  // ---------------------------------------------------------------------------
  // Weekly rank
  // ---------------------------------------------------------------------------

  /** How many of the per-user weekly sums are strictly greater than `p`. */
  function CountAbove(sums: seq<int>, p: int): (n: nat)
    ensures n <= |sums|
  {
    if sums == [] then 0 else (if sums[0] > p then 1 else 0) + CountAbove(sums[1..], p)
  }

  /**
   * `weekly_rank_among`: with `sums` the per-user weekly totals of the
   * district, a user with `my` points ranks one behind everybody strictly
   * ahead; no rank without points.
   */
  function WeeklyRankAmong(sums: seq<int>, my: int): (r: Option<nat>)
    ensures r.None? <==> my <= 0
    ensures r.Some? ==> 1 <= r.value <= |sums| + 1
  {
    if my <= 0 then None else Some(CountAbove(sums, my) + 1)
  }

  /** A user with points and nobody ahead is first. */
  lemma WeeklyRankTop(sums: seq<int>, my: int)
    requires my > 0 && forall i | 0 <= i < |sums| :: sums[i] <= my
    ensures WeeklyRankAmong(sums, my) == Some(1)
  {
    CountAboveNone(sums, my);
  }

  lemma {:induction false} CountAboveNone(sums: seq<int>, p: int)
    requires forall i | 0 <= i < |sums| :: sums[i] <= p
    ensures CountAbove(sums, p) == 0
  {
    if sums != [] {
      assert forall i | 0 <= i < |sums[1..]| :: sums[1..][i] == sums[i + 1];
      CountAboveNone(sums[1..], p);
    }
  }

  lemma {:induction false} CountAboveConcat(a: seq<int>, b: seq<int>, p: int)
    ensures CountAbove(a + b, p) == CountAbove(a, p) + CountAbove(b, p)
  {
    if a == [] {
      assert a + b == b;
    } else {
      assert (a + b)[0] == a[0] && (a + b)[1..] == a[1..] + b;
      CountAboveConcat(a[1..], b, p);
    }
  }

  /** The rank does not depend on the order in which the database returns the groups. */
  lemma {:induction false} CountAbovePermutation(a: seq<int>, b: seq<int>, p: int)
    requires multiset(a) == multiset(b)
    ensures CountAbove(a, p) == CountAbove(b, p)
    decreases |a|
  {
    if a == [] {
      assert |b| == |multiset(b)| == 0;
    } else {
      var x, tail := a[0], a[1..];
      assert multiset(a) == multiset{x} + multiset(tail) by { assert a == [x] + tail; }
      assert x in b by { assert x in multiset(b); }
      var j :| 0 <= j < |b| && b[j] == x;
      var rest := RemoveAt(b, j, p);
      assert multiset(tail) == multiset(rest);
      CountAbovePermutation(tail, rest, p);
    }
  }

  /** `b` without its element at `j`: one occurrence less of it, and one fewer above `p` if it was. */
  lemma RemoveAt(b: seq<int>, j: nat, p: int) returns (rest: seq<int>)
    requires j < |b|
    ensures |rest| == |b| - 1
    ensures multiset(rest) == multiset(b) - multiset{b[j]}
    ensures CountAbove(b, p) == CountAbove(rest, p) + (if b[j] > p then 1 else 0)
  {
    rest := b[..j] + b[j + 1..];
    var tail := [b[j]] + b[j + 1..];
    assert b == b[..j] + tail;
    CountAboveConcat(b[..j], tail, p);
    CountAboveConcat(b[..j], b[j + 1..], p);
    assert tail[1..] == b[j + 1..];
  }

  lemma {:induction false} CountAboveAntitone(sums: seq<int>, p: int, q: int)
    requires p <= q
    ensures CountAbove(sums, q) <= CountAbove(sums, p)
  {
    if sums != [] {
      CountAboveAntitone(sums[1..], p, q);
    }
  }

  /** More weekly points never give a worse rank; in particular users with equal points share a rank. */
  lemma WeeklyRankMonotone(sums: seq<int>, p: int, q: int)
    requires 0 < p <= q
    ensures WeeklyRankAmong(sums, q).value <= WeeklyRankAmong(sums, p).value
  {
    CountAboveAntitone(sums, p, q);
  }

  lemma {:induction false} CountAboveSplit(s: seq<int>, p: int, k: nat)
    requires k <= |s|
    requires forall i | 0 <= i < k :: s[i] > p
    requires forall i | k <= i < |s| :: s[i] <= p
    ensures CountAbove(s, p) == k
  {
    if k == 0 {
      CountAboveNone(s, p);
    } else {
      assert forall i | 0 <= i < |s[1..]| :: s[1..][i] == s[i + 1];
      CountAboveSplit(s[1..], p, k - 1);
    }
  }

  /**
   * The rank is the position on the leaderboard sorted by points, largest
   * first, counting from 1, where `k` users are ahead of the first entry
   * that is not larger than `my`.
   */
  lemma WeeklyRankIsBoardPosition(sums: seq<int>, board: seq<int>, my: int, k: nat)
    requires board == SortDesc(sums, x => x)
    requires my > 0
    requires k <= |board|
    requires forall i | 0 <= i < k :: board[i] > my
    requires k == |board| || board[k] <= my
    ensures WeeklyRankAmong(sums, my) == Some(k + 1)
  {
    forall i | k <= i < |board| ensures board[i] <= my {
      if i > k {
        assert (x => x)(board[k]) >= (x => x)(board[i]);
      }
    }
    CountAboveSplit(board, my, k);
    CountAbovePermutation(board, sums, my);
  }

  // ---------------------------------------------------------------------------
  // Week boundaries
  // ---------------------------------------------------------------------------

  /** `week_bounds`: Monday 00:00 of the current local week and the Monday after it. */
  function WeekBounds(now: nat): (r: (nat, nat))
    ensures r.0 <= now < r.1 && r.1 == r.0 + WeekSeconds
    ensures Weekday(r.0) == 0 && TimeOfDay(r.0) == 0
  {
    var day := now / DaySeconds;
    var start := (day - day % 7) * DaySeconds;
    assert start / DaySeconds == day - day % 7;
    (start, start + WeekSeconds)
  }

  /** Only one local week starts at a Monday midnight and contains `now`. */
  lemma WeekBoundsUnique(now: nat, s: nat)
    requires Weekday(s) == 0 && TimeOfDay(s) == 0
    requires s <= now < s + WeekSeconds
    ensures s == WeekBounds(now).0
  {
    var b := WeekBounds(now).0;
    var ds, db := s / DaySeconds, b / DaySeconds;
    assert s == ds * DaySeconds && b == db * DaySeconds;
    assert ds % 7 == 0 && db % 7 == 0;
    assert ds <= now / DaySeconds < ds + 7;
    assert db <= now / DaySeconds < db + 7;
  }

  /** Every instant of a week has the same bounds. */
  lemma WeekBoundsSameWeek(now: nat, t: nat)
    requires WeekBounds(now).0 <= t < WeekBounds(now).1
    ensures WeekBounds(t) == WeekBounds(now)
  {
    WeekBoundsUnique(t, WeekBounds(now).0);
  }

  // ---------------------------------------------------------------------------
  // Point history
  // ---------------------------------------------------------------------------

  /** An `ActivityLog` row: who shopped, which list, the points and when. */
  datatype LogEntry = LogEntry(user: UserId, listId: nat, pointEarned: int, visitedAt: int)

  /** The rows at or after `cutoff`, in their order. */
  function KeepSince(logs: seq<LogEntry>, cutoff: int): (r: seq<LogEntry>)
    ensures |r| <= |logs|
    ensures forall x :: x in r <==> x in logs && x.visitedAt >= cutoff
    ensures forall x :: multiset(r)[x] == if x.visitedAt >= cutoff then multiset(logs)[x] else 0
  {
    if logs == [] then []
    else
      assert logs == [logs[0]] + logs[1..];
      (if logs[0].visitedAt >= cutoff then [logs[0]] else []) + KeepSince(logs[1..], cutoff)
  }

  /**
   * `filter_history_period`: `days` is what the period table gives for the
   * chosen key (`None` for "all" and for an unknown key); a number of days keeps
   * the rows visited at or after `now` minus that many days.
   */
  function FilterHistoryPeriod(logs: seq<LogEntry>, days: Option<nat>, now: int): (r: seq<LogEntry>)
    ensures days.None? ==> r == logs
    ensures days.Some? ==> forall x :: x in r <==> x in logs && x.visitedAt >= now - days.value * DaySeconds
    ensures days.Some? ==> forall x :: multiset(r)[x] == if x.visitedAt >= now - days.value * DaySeconds then multiset(logs)[x] else 0
    ensures |r| <= |logs|
  {
    match days
    case None => logs
    case Some(d) => KeepSince(logs, now - d * DaySeconds)
  }

  function VisitedAt(l: LogEntry): int { l.visitedAt }
  function PointEarned(l: LogEntry): int { l.pointEarned }

  /** `order_history`: newest first for "latest", most points first for any other key. */
  function OrderHistory(logs: seq<LogEntry>, sortKey: string): (r: seq<LogEntry>)
    ensures multiset(r) == multiset(logs)
    ensures sortKey == "latest" ==> SortedDesc(r, VisitedAt)
    ensures sortKey != "latest" ==> SortedDesc(r, PointEarned)
  {
    if sortKey == "latest" then SortDesc(logs, VisitedAt) else SortDesc(logs, PointEarned)
  }

  // ---------------------------------------------------------------------------
  // The ledger
  // ---------------------------------------------------------------------------

  /** A `PointUsage` row. */
  datatype Usage = Usage(user: UserId, amount: nat, requestId: string, memo: string)

  /** The point tables: `UserPoint.total_point` per user, usage rows and activity rows. */
  datatype LedgerState = LedgerState(balances: map<UserId, int>, usages: seq<Usage>, logs: seq<LogEntry>)

  /** A usage row with this request id exists, whichever user it belongs to. */
  predicate RequestSeen(s: LedgerState, rid: string) {
    exists i | 0 <= i < |s.usages| :: s.usages[i].requestId == rid
  }

  /** An activity row exists for this user and shopping list: the trip has been credited. */
  predicate Credited(s: LedgerState, user: UserId, listId: nat) {
    exists i | 0 <= i < |s.logs| :: s.logs[i].user == user && s.logs[i].listId == listId
  }

  datatype DeductError = Insufficient

  /** Points a user has redeemed, over all usage rows. */
  function Used(usages: seq<Usage>, user: UserId): int {
    if usages == [] then 0
    else
      var last := usages[|usages| - 1];
      Used(usages[..|usages| - 1], user) + (if last.user == user then last.amount else 0)
  }

  /** Points a user has been credited, over all activity rows. */
  function Earned(logs: seq<LogEntry>, user: UserId): int {
    if logs == [] then 0
    else
      var last := logs[|logs| - 1];
      Earned(logs[..|logs| - 1], user) + (if last.user == user then last.pointEarned else 0)
  }

  /**
   * The bookkeeping invariant: every balance is what the user earned minus
   * what they redeemed, and a user without a balance row has neither.
   */
  ghost predicate Consistent(s: LedgerState) {
    (forall u :: u in s.balances ==> s.balances[u] == Earned(s.logs, u) - Used(s.usages, u)) &&
    (forall u :: u !in s.balances ==> Earned(s.logs, u) == 0 && Used(s.usages, u) == 0)
  }

  /** `UserPoint.objects.get_or_create(user=...)`: a missing row starts at 0. */
  function GetOrCreate(s: LedgerState, user: UserId): (r: LedgerState)
    ensures user in r.balances
    ensures user in s.balances ==> r == s
    ensures user !in s.balances ==> r.balances[user] == 0
    ensures forall u | u != user :: (u in r.balances <==> u in s.balances) && (u in s.balances ==> r.balances[u] == s.balances[u])
    ensures r.usages == s.usages && r.logs == s.logs
  {
    if user in s.balances then s else s.(balances := s.balances[user := 0])
  }

  /**
   * `deduct_points_and_log`: when the user's balance covers `amount` it drops
   * by exactly `amount`, exactly one usage row with that amount and request id
   * is added, and the new balance is returned; otherwise `INSUFFICIENT` and
   * nothing changes. A user without a balance row is insufficient.
   */
  function Deduct(s: LedgerState, user: UserId, amount: nat, requestId: string, memo: string): (r: (LedgerState, Result<int, DeductError>))
    ensures r.1.Success? <==> user in s.balances && s.balances[user] >= amount
    ensures r.1.Success? ==>
      r.0.balances == s.balances[user := s.balances[user] - amount] &&
      r.0.usages == s.usages + [Usage(user, amount, requestId, memo)] &&
      r.0.logs == s.logs && r.1.value == r.0.balances[user] >= 0
    ensures r.1.Failure? ==> r.0 == s
  {
    if user in s.balances && s.balances[user] >= amount then
      var b := s.balances[user] - amount;
      (LedgerState(s.balances[user := b], s.usages + [Usage(user, amount, requestId, memo)], s.logs), Success(b))
    else (s, Failure(Insufficient))
  }

  lemma UsedAppend(usages: seq<Usage>, x: Usage, u: UserId)
    ensures Used(usages + [x], u) == Used(usages, u) + (if x.user == u then x.amount else 0)
  {
    assert (usages + [x])[..|usages|] == usages;
  }

  lemma EarnedAppend(logs: seq<LogEntry>, x: LogEntry, u: UserId)
    ensures Earned(logs + [x], u) == Earned(logs, u) + (if x.user == u then x.pointEarned else 0)
  {
    assert (logs + [x])[..|logs|] == logs;
  }

  /** Creating a missing balance row keeps the books consistent. */
  lemma GetOrCreateConsistent(s: LedgerState, user: UserId)
    requires Consistent(s)
    ensures Consistent(GetOrCreate(s, user))
  {
  }

  /** A deduction keeps the books consistent: what leaves the balance shows up as a usage row. */
  lemma DeductConsistent(s: LedgerState, user: UserId, amount: nat, requestId: string, memo: string)
    requires Consistent(s)
    ensures Consistent(Deduct(s, user, amount, requestId, memo).0)
  {
    var r := Deduct(s, user, amount, requestId, memo);
    if r.1.Success? {
      forall u ensures Used(r.0.usages, u) == Used(s.usages, u) + (if u == user then amount else 0) {
        UsedAppend(s.usages, Usage(user, amount, requestId, memo), u);
      }
    }
  }

  /** The ledger as a mutable object, as the views use the database. */
  class Ledger {
    var balances: map<UserId, int>
    var usages: seq<Usage>
    var logs: seq<LogEntry>

    constructor ()
      ensures balances == map[] && usages == [] && logs == []
    {
      balances, usages, logs := map[], [], [];
    }

    function State(): LedgerState
      reads this
    {
      LedgerState(balances, usages, logs)
    }

    /** `PointUsage.objects.filter(request_id=rid).exists()`, over all users. */
    function HasRequest(rid: string): (b: bool)
      reads this
      ensures b <==> RequestSeen(State(), rid)
    {
      exists i | 0 <= i < |usages| :: usages[i].requestId == rid
    }

    /** `ActivityLog.objects.filter(user=..., shopping_list=...).exists()`. */
    function HasLog(user: UserId, listId: nat): (b: bool)
      reads this
      ensures b <==> Credited(State(), user, listId)
    {
      exists i | 0 <= i < |logs| :: logs[i].user == user && logs[i].listId == listId
    }

    method GetOrCreatePoint(user: UserId) returns (total: int)
      modifies this
      ensures State() == GetOrCreate(old(State()), user)
      ensures total == balances[user]
    {
      if user !in balances {
        balances := balances[user := 0];
      }
      total := balances[user];
    }

    method DeductPointsAndLog(user: UserId, amount: nat, requestId: string, memo: string) returns (r: Result<int, DeductError>)
      modifies this
      ensures (State(), r) == Deduct(old(State()), user, amount, requestId, memo)
    {
      if user in balances && balances[user] >= amount {
        balances := balances[user := balances[user] - amount];
        usages := usages + [Usage(user, amount, requestId, memo)];
        r := Success(balances[user]);
      } else {
        r := Failure(Insufficient);
      }
    }
  }
}

=== FILE: PointViews.dfy ===
/**
 * point/views.py: the period table and defaults of the history page, and the
 * barcode redemption view with its guard chain and its one-shot success
 * notice in the session.
 */
module PointViews {
  import opened Wrappers
  import opened Text
  import opened PointUtils
  import opened Sessions

  /** `PERIODS`: days of history per period key; "all" has no limit. */
  const Periods: map<string, Option<nat>> :=
    map["1m" := Some(30), "3m" := Some(90), "6m" := Some(180), "1y" := Some(365), "all" := None]

  const DefaultPeriod: string := "1m"
  const DefaultSort: string := "latest"

  /** `periods_map.get(period_key)`: an unknown key gives `None`, like "all". */
  function PeriodDays(key: string): (d: Option<nat>)
    ensures key !in Periods ==> d.None?
    ensures key == "all" ==> d.None?
    ensures d.Some? ==> key in Periods && d.value in {30, 90, 180, 365}
  {
    if key in Periods then Periods[key] else None
  }

  /** A row the history page lists: the user's own, and inside the period when it has a day count. */
  predicate Listed(x: LogEntry, user: UserId, days: Option<nat>, now: int) {
    x.user == user && (days.None? || x.visitedAt >= now - days.value * Calendar.DaySeconds)
  }

  /**
   * `point_history`: the user's activity rows limited to the chosen period
   * (default one month) and ordered by the chosen key (default newest first).
   * Each listed row appears as often as in the table, and no other row does.
   */
  function PointHistory(logs: seq<LogEntry>, user: UserId, period: Option<string>, sort: Option<string>, now: int): (r: seq<LogEntry>)
    ensures forall x :: x in r <==> x in logs && Listed(x, user, PeriodDays(period.GetOr(DefaultPeriod)), now)
    ensures forall x :: multiset(r)[x] == if Listed(x, user, PeriodDays(period.GetOr(DefaultPeriod)), now) then multiset(logs)[x] else 0
    ensures Sorting.SortedDesc(r, if sort.GetOr(DefaultSort) == "latest" then VisitedAt else PointEarned)
  {
    var days := PeriodDays(period.GetOr(DefaultPeriod));
    var kept := FilterHistoryPeriod(KeepUser(logs, user), days, now);
    ListedCounts(logs, user, days, now);
    var r := OrderHistory(kept, sort.GetOr(DefaultSort));
    assert forall x :: x in r <==> x in kept by {
      forall x ensures x in r <==> x in kept {
        assert x in r <==> x in multiset(r);
      }
    }
    r
  }

  /** The period filter over the user's rows keeps each listed row as often as the table holds it, and nothing else. */
  lemma ListedCounts(logs: seq<LogEntry>, user: UserId, days: Option<nat>, now: int)
    ensures var kept := FilterHistoryPeriod(KeepUser(logs, user), days, now);
      (forall x :: multiset(kept)[x] == if Listed(x, user, days, now) then multiset(logs)[x] else 0) &&
      (forall x :: x in kept <==> x in logs && Listed(x, user, days, now))
  {
    var mine := KeepUser(logs, user);
    var kept := FilterHistoryPeriod(mine, days, now);
    forall x ensures multiset(kept)[x] == if Listed(x, user, days, now) then multiset(logs)[x] else 0 {
      assert multiset(mine)[x] == if x.user == user then multiset(logs)[x] else 0;
    }
  }

  /** Without parameters the page lists the last 30 days, newest first. */
  lemma PointHistoryDefaults(logs: seq<LogEntry>, user: UserId, now: int)
    ensures var r := PointHistory(logs, user, None, None, now);
      Sorting.SortedDesc(r, VisitedAt) &&
      forall x | x in r :: x.visitedAt >= now - 30 * 86400
  {
    assert PeriodDays(DefaultPeriod) == Some(30);
    var kept := FilterHistoryPeriod(KeepUser(logs, user), Some(30), now);
    var r := OrderHistory(kept, DefaultSort);
    assert PointHistory(logs, user, None, None, now) == r;
    forall x | x in r ensures x.visitedAt >= now - 30 * 86400 {
      assert x in multiset(r);
      assert x in kept;
    }
  }

  /** The rows of one user, in order. */
  function KeepUser(logs: seq<LogEntry>, user: UserId): (r: seq<LogEntry>)
    ensures forall x :: x in r <==> x in logs && x.user == user
    ensures forall x :: multiset(r)[x] == if x.user == user then multiset(logs)[x] else 0
  {
    if logs == [] then []
    else
      assert logs == [logs[0]] + logs[1..];
      assert forall x :: x in logs <==> x == logs[0] || x in logs[1..];
      (if logs[0].user == user then [logs[0]] else []) + KeepUser(logs[1..], user)
  }

  // ---------------------------------------------------------------------------
  // Barcode redemption
  // ---------------------------------------------------------------------------

  /** What a POST to the barcode view ends with. */
  datatype BarcodeOutcome =
    | BadPinFormat
    | PinMismatch
    | BadPoint
    | AlreadyProcessed
    | LowBalance
    | Done(used: nat, remaining: int)

  const BarcodeMemo: string := "바코드 차감"

  /** `verify_staff_pin`: the active staff PIN, if there is one, matches. */
  function VerifyStaffPin(staffPin: Option<string>, code: string): (ok: bool)
    ensures ok <==> staffPin == Some(code)
  {
    staffPin.Some? && staffPin.value == code
  }

  /** The 24-character alphanumeric ids `get_random_string(24)` produces. */
  predicate IsGeneratedId(g: string) {
    |g| == 24 && forall i | 0 <= i < |g| :: IsAlnum(g[i])
  }

  /**
   * The last two guards of `barcode_view`, once the PIN and the amount are
   * accepted: a request id already in the usage history (of any user) is
   * turned away, then the balance-guarded deduction runs.
   */
  function Redeem(s0: LedgerState, user: UserId, amount: nat, rid: string): (r: (LedgerState, BarcodeOutcome))
    ensures r.1 == AlreadyProcessed <==> RequestSeen(s0, rid)
    ensures !r.1.Done? ==> r.0 == s0
    ensures r.1.Done? ==>
      user in s0.balances && s0.balances[user] >= amount && r.1.used == amount &&
      r.0.balances == s0.balances[user := s0.balances[user] - amount] &&
      r.0.usages == s0.usages + [Usage(user, amount, rid, BarcodeMemo)] &&
      r.0.logs == s0.logs && r.1.remaining == r.0.balances[user] >= 0
    ensures r.1 in {AlreadyProcessed, LowBalance} || r.1.Done?
    ensures !RequestSeen(s0, rid) ==>
      (r.1.Done? <==> user in s0.balances && s0.balances[user] >= amount)
  {
    if RequestSeen(s0, rid) then (s0, AlreadyProcessed)
    else
      var d := Deduct(s0, user, amount, rid, BarcodeMemo);
      if d.1.Failure? then (d.0, LowBalance) else (d.0, Done(amount, d.1.value))
  }

  /**
   * A POST to `barcode_view`, on the ledger value. The balance row is created
   * first; then, in this order: the PIN's format, the PIN itself, the amount,
   * and `Redeem`. `code`, `usePoint` and `requestId` are the form fields
   * (`None` when absent), `staffPin` the active staff PIN and `generated` the
   * id `ensure_request_id` would generate.
   */
  function Barcode(s: LedgerState, user: UserId, code: Option<string>, usePoint: Option<string>,
                   requestId: Option<string>, generated: string, staffPin: Option<string>): (r: (LedgerState, BarcodeOutcome))
    requires IsGeneratedId(generated)
    ensures !r.1.Done? ==> r.0 == GetOrCreate(s, user)
    ensures r.1 == BadPinFormat <==> !Valid4Digit(Strip(code.GetOr([])))
    ensures r.1 == PinMismatch <==> Valid4Digit(Strip(code.GetOr([]))) && staffPin != Some(Strip(code.GetOr([])))
    ensures r.1 == BadPoint <==>
      Valid4Digit(Strip(code.GetOr([]))) && staffPin == Some(Strip(code.GetOr([]))) &&
      ParseUsePoint(usePoint.GetOr("0")).None?
    ensures r.1.Done? ==> r == Redeem(GetOrCreate(s, user), user, r.1.used, EnsureRequestId(requestId, generated))
    ensures r.1.Done? ==> ParseUsePoint(usePoint.GetOr("0")) == Some(r.1.used)
    ensures Valid4Digit(Strip(code.GetOr([]))) && staffPin == Some(Strip(code.GetOr([]))) &&
            ParseUsePoint(usePoint.GetOr("0")).Some? ==>
      r == Redeem(GetOrCreate(s, user), user, ParseUsePoint(usePoint.GetOr("0")).value, EnsureRequestId(requestId, generated))
  {
    var s0 := GetOrCreate(s, user);
    var pin := Strip(code.GetOr([]));
    if !Valid4Digit(pin) then (s0, BadPinFormat)
    else if !VerifyStaffPin(staffPin, pin) then (s0, PinMismatch)
    else RedeemField(s0, user, usePoint, EnsureRequestId(requestId, generated))
  }

  /** The amount guard of `barcode_view` and then `Redeem`, once the PIN is accepted. */
  function RedeemField(s0: LedgerState, user: UserId, usePoint: Option<string>, rid: string): (r: (LedgerState, BarcodeOutcome))
    ensures !r.1.Done? ==> r.0 == s0
    ensures r.1 != BadPinFormat && r.1 != PinMismatch
    ensures r.1 == BadPoint <==> ParseUsePoint(usePoint.GetOr("0")).None?
    ensures r.1.Done? ==> r == Redeem(s0, user, r.1.used, rid) && ParseUsePoint(usePoint.GetOr("0")) == Some(r.1.used)
    ensures ParseUsePoint(usePoint.GetOr("0")).Some? ==> r == Redeem(s0, user, ParseUsePoint(usePoint.GetOr("0")).value, rid)
  {
    var amount := ParseUsePoint(usePoint.GetOr("0"));
    if amount.None? then (s0, BadPoint)
    else Redeem(s0, user, amount.value, rid)
  }

  /**
   * A well-formed, correct PIN, an accepted amount, a request id not seen
   * before and a balance that covers the amount: the redemption goes through
   * and deducts exactly that amount.
   */
  lemma ValidRedemptionDeducts(s: LedgerState, user: UserId, code: Option<string>, usePoint: Option<string>,
                               requestId: Option<string>, generated: string, staffPin: Option<string>, amount: nat)
    requires IsGeneratedId(generated)
    requires Valid4Digit(Strip(code.GetOr([]))) && staffPin == Some(Strip(code.GetOr([])))
    requires ParseUsePoint(usePoint.GetOr("0")) == Some(amount)
    requires forall i | 0 <= i < |s.usages| :: s.usages[i].requestId != EnsureRequestId(requestId, generated)
    requires user in s.balances && s.balances[user] >= amount
    ensures Barcode(s, user, code, usePoint, requestId, generated, staffPin) ==
      (Deduct(s, user, amount, EnsureRequestId(requestId, generated), BarcodeMemo).0, Done(amount, s.balances[user] - amount))
  {
    var rid := EnsureRequestId(requestId, generated);
    AcceptedBarcodeRedeems(s, user, code, usePoint, requestId, generated, staffPin, amount);
    NewCoveredRedeemDeducts(s, user, amount, rid);
  }

  /** Past the PIN and amount guards, for a user who already has a balance row, `Barcode` is `Redeem` on the ledger as it is. */
  lemma AcceptedBarcodeRedeems(s: LedgerState, user: UserId, code: Option<string>, usePoint: Option<string>,
                               requestId: Option<string>, generated: string, staffPin: Option<string>, amount: nat)
    requires IsGeneratedId(generated)
    requires Valid4Digit(Strip(code.GetOr([]))) && staffPin == Some(Strip(code.GetOr([])))
    requires ParseUsePoint(usePoint.GetOr("0")) == Some(amount)
    requires user in s.balances
    ensures Barcode(s, user, code, usePoint, requestId, generated, staffPin) == Redeem(s, user, amount, EnsureRequestId(requestId, generated))
  {
    assert GetOrCreate(s, user) == s;
  }

  /** `Redeem` with a new request id and a covering balance is the deduction. */
  lemma NewCoveredRedeemDeducts(s0: LedgerState, user: UserId, amount: nat, rid: string)
    requires !RequestSeen(s0, rid)
    requires user in s0.balances && s0.balances[user] >= amount
    ensures Redeem(s0, user, amount, rid) == (Deduct(s0, user, amount, rid, BarcodeMemo).0, Done(amount, s0.balances[user] - amount))
  {
  }

  /** A malformed PIN is turned away before the staff PIN is looked at: the stored PIN makes no difference. */
  lemma BadPinIgnoresStaffPin(s: LedgerState, user: UserId, code: Option<string>, usePoint: Option<string>,
                              requestId: Option<string>, generated: string, pin1: Option<string>, pin2: Option<string>)
    requires IsGeneratedId(generated)
    requires !Valid4Digit(Strip(code.GetOr([])))
    ensures Barcode(s, user, code, usePoint, requestId, generated, pin1)
         == Barcode(s, user, code, usePoint, requestId, generated, pin2)
  {
  }

  /**
   * Replaying a request id that is already in the usage history never deducts
   * again. Stored ids come from `EnsureRequestId`, so they are non-empty and
   * carry no surrounding whitespace.
   */
  lemma ReplayedRequestIsRejected(s: LedgerState, user: UserId, code: Option<string>, usePoint: Option<string>,
                                  generated: string, staffPin: Option<string>, k: nat)
    requires IsGeneratedId(generated)
    requires k < |s.usages|
    requires var rid := s.usages[k].requestId; rid != [] && !IsSpace(rid[0]) && !IsSpace(rid[|rid| - 1])
    ensures var r := Barcode(s, user, code, usePoint, Some(s.usages[k].requestId), generated, staffPin);
      r.0 == GetOrCreate(s, user) && !r.1.Done?
  {
    var rid := s.usages[k].requestId;
    StripOfTrimmed(rid);
    assert EnsureRequestId(Some(rid), generated) == rid;
    var s0 := GetOrCreate(s, user);
    assert s0.usages[k].requestId == rid;
    var r := Barcode(s, user, code, usePoint, Some(rid), generated, staffPin);
    var used := if r.1.Done? then r.1.used else 0;
    assert Redeem(s0, user, used, rid).1 == AlreadyProcessed;
  }

  /** The barcode view keeps the books consistent. */
  lemma BarcodeConsistent(s: LedgerState, user: UserId, code: Option<string>, usePoint: Option<string>,
                          requestId: Option<string>, generated: string, staffPin: Option<string>)
    requires IsGeneratedId(generated)
    requires Consistent(s)
    ensures Consistent(Barcode(s, user, code, usePoint, requestId, generated, staffPin).0)
  {
    var r := Barcode(s, user, code, usePoint, requestId, generated, staffPin);
    var s0 := GetOrCreate(s, user);
    GetOrCreateConsistent(s, user);
    if r.1.Done? {
      var rid := EnsureRequestId(requestId, generated);
      DeductConsistent(s0, user, r.1.used, rid, BarcodeMemo);
      assert r.0 == Deduct(s0, user, r.1.used, rid, BarcodeMemo).0;
    }
  }

  const ProcessedKey: string := "point_processed"

  /** POST `barcode_view`: runs the guards on the ledger and, on success only, leaves the notice in the session. */
  method BarcodePost(ledger: Ledger, session: Session, user: UserId, code: Option<string>, usePoint: Option<string>,
                     requestId: Option<string>, generated: string, staffPin: Option<string>) returns (outcome: BarcodeOutcome)
    requires IsGeneratedId(generated)
    modifies ledger, session
    ensures (ledger.State(), outcome) == Barcode(old(ledger.State()), user, code, usePoint, requestId, generated, staffPin)
    ensures outcome.Done? ==> session.data == old(session.data)[ProcessedKey := Processed(outcome.used, outcome.remaining)]
    ensures !outcome.Done? ==> session.data == old(session.data)
  {
    ghost var r := Barcode(ledger.State(), user, code, usePoint, requestId, generated, staffPin);
    outcome := BarcodeOn(ledger, user, code, usePoint, requestId, generated, staffPin);
    assert (ledger.State(), outcome) == r;
    ghost var after := ledger.State();
    if outcome.Done? {
      session.Put(ProcessedKey, Processed(outcome.used, outcome.remaining));
    }
    assert ledger.State() == after;
  }

  /** The guards and the deduction of POST `barcode_view`, on the point tables. */
  method BarcodeOn(ledger: Ledger, user: UserId, code: Option<string>, usePoint: Option<string>,
                   requestId: Option<string>, generated: string, staffPin: Option<string>) returns (outcome: BarcodeOutcome)
    requires IsGeneratedId(generated)
    modifies ledger
    ensures (ledger.State(), outcome) == Barcode(old(ledger.State()), user, code, usePoint, requestId, generated, staffPin)
  {
    ghost var s := ledger.State();
    var _ := ledger.GetOrCreatePoint(user);
    ghost var s0 := ledger.State();
    assert s0 == GetOrCreate(s, user);
    var pin := Strip(code.GetOr([]));
    if !Valid4Digit(pin) {
      return BadPinFormat;
    }
    if !VerifyStaffPin(staffPin, pin) {
      return PinMismatch;
    }
    var amount := ParseUsePoint(usePoint.GetOr("0"));
    if amount.None? {
      return BadPoint;
    }
    var rid := EnsureRequestId(requestId, generated);
    outcome := RedeemOn(ledger, user, amount.value, rid);
  }

  /** The replay guard and the deduction of `barcode_view`, on the ledger. */
  method RedeemOn(ledger: Ledger, user: UserId, amount: nat, rid: string) returns (outcome: BarcodeOutcome)
    modifies ledger
    ensures (ledger.State(), outcome) == Redeem(old(ledger.State()), user, amount, rid)
  {
    if ledger.HasRequest(rid) {
      return AlreadyProcessed;
    }
    var res := ledger.DeductPointsAndLog(user, amount, rid, BarcodeMemo);
    if res.Failure? {
      return LowBalance;
    }
    outcome := Done(amount, res.value);
  }

  /** GET `barcode_view`: the balance to show and the success notice, which is removed so it shows once. */
  method BarcodeGet(ledger: Ledger, session: Session, user: UserId) returns (total: int, notice: Option<Value>)
    modifies ledger, session
    ensures ledger.State() == GetOrCreate(old(ledger.State()), user)
    ensures total == ledger.balances[user]
    ensures notice == (if ProcessedKey in old(session.data) then Some(old(session.data)[ProcessedKey]) else None)
    ensures ProcessedKey !in session.data
    ensures session.data == old(session.data) - {ProcessedKey}
  {
    total := ledger.GetOrCreatePoint(user);
    notice := session.Pop(ProcessedKey);
  }
}

=== FILE: SecretInput.dfy ===
/**
 * The market secret-code page in the browser: four boxes that show the
 * digits typed so far, a submit guard on the length, the copy of the digits
 * into the password field the server reads, and the success modal. The dial
 * pad, focus handling and shake animation are not part of this model.
 */
module SecretInput {
  import opened Wrappers
  import opened Text
  import PointUtils
  import MarketViews

  /** One digit box: its text, and its `has-value`, `next` and `error` classes. */
  datatype DigitBox = DigitBox(text: string, hasValue: bool, next: bool, error: bool)

  /** The message shown when a submit is refused. */
  const LengthError: string := "4자리 인증번호를 입력하세요"

  /** The texts of `boxes`, one after the other. */
  function Shown(boxes: seq<DigitBox>): string {
    if boxes == [] then [] else Shown(boxes[..|boxes| - 1]) + boxes[|boxes| - 1].text
  }

  /** Boxes that each show the digit at their index spell the digits they have room for. */
  lemma {:induction false} ShownSpellsDigits(boxes: seq<DigitBox>, digits: string)
    requires forall i | 0 <= i < |boxes| :: boxes[i].text == (if i < |digits| then [digits[i]] else [])
    ensures Shown(boxes) == digits[..if |boxes| < |digits| then |boxes| else |digits|]
  {
    if boxes != [] {
      var last := |boxes| - 1;
      ShownSpellsDigits(boxes[..last], digits);
      if last < |digits| {
        assert digits[..last + 1] == digits[..last] + [digits[last]];
      }
    }
  }

  /** What the OK button of the success modal does. */
  datatype OkOutcome = FollowLink | Redirect(url: string) | CloseModal

  class Screen {
    const boxes: array<DigitBox>
    /** The hidden input that collects the code. */
    var hidden: string
    var submitDisabled: bool
    /** Whether the page has the error paragraph, whether it shows, and its text. */
    const hasError: bool
    var errorShown: bool
    var errorText: string
    /** The password field the server reads. */
    var password: string
    var modalOpen: bool

    /** The code collected so far is at most four digits. */
    predicate Valid()
      reads this
    {
      AllDigits(hidden) && |hidden| <= 4
    }

    /**
     * The page after loading: the empty code is rendered, the button is
     * disabled, and the success modal opens exactly when the page's
     * `data-success` flag is "1".
     */
    constructor (boxes: array<DigitBox>, hasError: bool, errorShown: bool, errorText: string, success: Option<string>)
      modifies boxes
      ensures Valid() && this.boxes == boxes && hidden == [] && submitDisabled && password == []
      ensures this.hasError == hasError && this.errorShown == errorShown && this.errorText == errorText
      ensures modalOpen <==> success == Some("1")
      ensures forall i | 0 <= i < boxes.Length :: boxes[i] == DigitBox([], false, i == 0, false)
    {
      this.boxes := boxes;
      this.hasError, this.errorShown, this.errorText := hasError, errorShown, errorText;
      password := [];
      hidden, submitDisabled, modalOpen := [], true, false;
      new;
      RenderBoxes([]);
      submitDisabled := true;
      modalOpen := success == Some("1");
    }

    /**
     * `renderBoxes`: the first four digits of the input become the code; box
     * `i` shows digit `i` when there is one, the box after the last digit is
     * marked as next, errors are cleared, and the button is enabled exactly
     * when the code has four digits. The boxes spell the code.
     */
    method RenderBoxes(input: string)
      modifies this, boxes
      ensures Valid() && hidden == FirstDigits(input, 4)
      ensures forall i | 0 <= i < boxes.Length ::
        boxes[i].text == (if i < |hidden| then [hidden[i]] else []) &&
        boxes[i].hasValue == (i < |hidden|) &&
        boxes[i].next == (i == |hidden| && |hidden| < boxes.Length) &&
        !boxes[i].error
      ensures Shown(boxes[..]) == hidden[..if boxes.Length < |hidden| then boxes.Length else |hidden|]
      ensures submitDisabled <==> |hidden| != 4
      ensures errorShown == old(errorShown) && errorText == old(errorText)
      ensures password == old(password) && modalOpen == old(modalOpen)
    {
      var digits := FirstDigits(input, 4);
      for i := 0 to boxes.Length
        modifies boxes
        invariant forall k | 0 <= k < i ::
          boxes[k] == DigitBox(if k < |digits| then [digits[k]] else [], k < |digits|, k == |digits| && |digits| < boxes.Length, false)
      {
        var has := i < |digits|;
        boxes[i] := DigitBox(if has then [digits[i]] else [], has, i == |digits| && |digits| < boxes.Length, false);
      }
      ShownSpellsDigits(boxes[..], digits);
      hidden := digits;
      submitDisabled := |digits| != 4;
    }

    /**
     * The submit handler: a code that is not four characters long is refused,
     * every box is marked as an error and the message is shown; otherwise the
     * code goes into the password field and the button is disabled against a
     * second submit. What is sent is a valid four-digit code.
     */
    method Submit() returns (sent: bool)
      requires Valid()
      modifies this, boxes
      ensures Valid() && hidden == old(hidden)
      ensures sent <==> |hidden| == 4
      ensures sent ==> password == hidden && PointUtils.Valid4Digit(password) && submitDisabled
      ensures sent ==> errorShown == old(errorShown) && errorText == old(errorText)
      ensures sent ==> forall i | 0 <= i < boxes.Length :: boxes[i] == old(boxes[i])
      ensures !sent ==> password == old(password) && submitDisabled == old(submitDisabled)
      ensures !sent ==> forall i | 0 <= i < boxes.Length :: boxes[i] == old(boxes[i]).(error := true)
      ensures !sent && hasError ==> errorShown && errorText == LengthError
      ensures !sent && !hasError ==> errorShown == old(errorShown) && errorText == old(errorText)
      ensures modalOpen == old(modalOpen)
    {
      var digits := hidden;
      if |digits| != 4 {
        for i := 0 to boxes.Length
          modifies boxes
          invariant forall k | 0 <= k < i :: boxes[k] == old(boxes[k]).(error := true)
          invariant forall k | i <= k < boxes.Length :: boxes[k] == old(boxes[k])
        {
          boxes[i] := boxes[i].(error := true);
        }
        if hasError {
          errorShown, errorText := true, LengthError;
        }
        return false;
      }
      password := digits;
      submitDisabled := true;
      sent := true;
    }

    /**
     * The OK button of the success modal: a link is followed as it is; a
     * button goes to the redirect address when there is one and otherwise
     * closes the modal.
     */
    method ConfirmOk(isLink: bool, redirectUrl: string) returns (outcome: OkOutcome)
      modifies this
      ensures isLink ==> outcome == FollowLink && modalOpen == old(modalOpen)
      ensures !isLink && redirectUrl != [] ==> outcome == Redirect(redirectUrl) && modalOpen == old(modalOpen)
      ensures !isLink && redirectUrl == [] ==> outcome == CloseModal && !modalOpen
      ensures hidden == old(hidden) && password == old(password) && submitDisabled == old(submitDisabled)
      ensures errorShown == old(errorShown) && errorText == old(errorText)
    {
      if isLink {
        return FollowLink;
      }
      if redirectUrl != [] {
        return Redirect(redirectUrl);
      }
      modalOpen := false;
      outcome := CloseModal;
    }
  }

  /**
   * The page only sends four-digit codes, so a market whose stored code is
   * not four digits is never verified from this page: `verify_secret_code`
   * answers such a code with the wrong-password message.
   */
  lemma SentCodeVerification(secrets: map<nat, string>, marketId: nat, code: string)
    requires PointUtils.Valid4Digit(code)
    requires marketId in secrets && !PointUtils.Valid4Digit(secrets[marketId])
    ensures MarketViews.VerifySecretCode(true, secrets, Some(marketId), Some(code)) == MarketViews.WrongPassword
  {
  }
}

=== FILE: Sessions.dfy ===
/**
 * The Django session of one browser: a dictionary from keys to stored values,
 * updated in place by the views. Only the kinds of values the modelled views
 * store are distinguished.
 */
module Sessions {
  import opened Wrappers

  /** One turn of a chat history stored in the session. */
  datatype ChatMessage = ChatMessage(role: string, content: string)

  datatype Value =
    | Null
    | Flag(b: bool)
    | Num(n: int)
    | Str(s: string)
    | Names(items: seq<string>)
    | Messages(turns: seq<ChatMessage>)
    | Processed(used: int, remaining: int)

  /** Python truthiness of a stored value. */
  predicate Truthy(v: Value) {
    match v
    case Null => false
    case Flag(b) => b
    case Num(n) => n != 0
    case Str(s) => s != []
    case Names(items) => items != []
    case Messages(turns) => turns != []
    case Processed(_, _) => true
  }

  /** The keys of `keys`, as a set. */
  function KeySet(keys: seq<string>): (r: set<string>)
    ensures forall k :: k in r <==> k in keys
  {
    set k | k in keys
  }

  class Session {
    var data: map<string, Value>

    constructor ()
      ensures data == map[]
    {
      data := map[];
    }

    /** `session.get(key)`. */
    function Get(key: string): (r: Option<Value>)
      reads this
      ensures r.Some? <==> key in data
      ensures r.Some? ==> r.value == data[key]
    {
      if key in data then Some(data[key]) else None
    }

    /** `session.get(key, [])` for a key that holds a list of names. */
    function NamesAt(key: string): (r: seq<string>)
      reads this
      ensures key in data && data[key].Names? ==> r == data[key].items
      ensures key !in data ==> r == []
    {
      if key in data && data[key].Names? then data[key].items else []
    }

    /** `session[key] = v`. */
    method Put(key: string, v: Value)
      modifies this
      ensures data == old(data)[key := v]
    {
      data := data[key := v];
    }

    /** `session.pop(key, None)`. */
    method Pop(key: string) returns (v: Option<Value>)
      modifies this
      ensures data == old(data) - {key}
      ensures v == old(Get(key))
    {
      v := Get(key);
      data := data - {key};
    }

    /** `for k in keys: session.pop(k, None)`. */
    method PopAll(keys: seq<string>)
      modifies this
      ensures data == old(data) - KeySet(keys)
    {
      var i := 0;
      while i < |keys|
        invariant 0 <= i <= |keys|
        invariant data == old(data) - KeySet(keys[..i])
      {
        assert KeySet(keys[..i + 1]) == KeySet(keys[..i]) + {keys[i]} by {
          assert keys[..i + 1] == keys[..i] + [keys[i]];
        }
        data := data - {keys[i]};
        i := i + 1;
      }
      assert keys[..i] == keys;
    }
  }
}

=== FILE: Sorting.dfy ===
/**
 * Ordering rows by an integer key, largest first: the `order_by("-field")`
 * of the history queries and the newest-first reordering of the history page.
 */
module Sorting {

  predicate SortedDesc<T>(s: seq<T>, key: T -> int) {
    forall i, j | 0 <= i < j < |s| :: key(s[i]) >= key(s[j])
  }

  /** Places `x` before the first element whose key is not larger. */
  function InsertDesc<T>(x: T, s: seq<T>, key: T -> int): (r: seq<T>)
    requires SortedDesc(s, key)
    ensures SortedDesc(r, key)
    ensures multiset(r) == multiset(s) + multiset{x}
  {
    if s == [] then [x]
    else if key(x) >= key(s[0]) then [x] + s
    else
      var t := InsertDesc(x, s[1..], key);
      assert s == [s[0]] + s[1..];
      assert forall k | 0 <= k < |t| :: key(s[0]) >= key(t[k]) by {
        forall k | 0 <= k < |t| ensures key(s[0]) >= key(t[k]) {
          assert t[k] in multiset(t);
          if t[k] != x {
            assert t[k] in multiset(s[1..]);
            var j :| 0 <= j < |s[1..]| && s[1..][j] == t[k];
            assert s[j + 1] == t[k];
          }
        }
      }
      [s[0]] + t
  }

  /** Insertion sort, largest key first. */
  function SortDesc<T>(s: seq<T>, key: T -> int): (r: seq<T>)
    ensures SortedDesc(r, key)
    ensures multiset(r) == multiset(s) && |r| == |s|
  {
    if s == [] then []
    else
      assert s == [s[0]] + s[1..];
      InsertDesc(s[0], SortDesc(s[1..], key), key)
  }

  /** Sorting a sequence that is already in order leaves it as it is. */
  lemma {:induction false} SortDescOfSorted<T>(s: seq<T>, key: T -> int)
    requires SortedDesc(s, key)
    ensures SortDesc(s, key) == s
  {
    if s != [] {
      SortDescOfSorted(s[1..], key);
      assert s == [s[0]] + s[1..];
    }
  }
}

=== FILE: Text.dfy ===
/**
 * Character classes and string operations shared by the Python views and the
 * browser scripts: digit filtering, whitespace stripping, splitting on a
 * separator, first-occurrence search and replacement, and decimal numerals.
 * Digits and whitespace are the ASCII ones (see README, "Left out").
 */
module Text {
  import opened Wrappers

  /** An ASCII decimal digit (JavaScript's `\d`). */
  predicate IsDigit(c: char) { '0' <= c <= '9' }

  /**
   * The six ASCII whitespace characters, which `str.strip()`, `\s` and
   * `String.prototype.trim` all treat as space. Python's `str.strip()` also
   * strips `\x1c` to `\x1f`, and all three strip further Unicode spaces;
   * those are not modelled (see README, "Left out").
   */
  predicate IsSpace(c: char) {
    c == ' ' || c == '\t' || c == '\n' || c == '\r' || c == '\U{B}' || c == '\U{C}'
  }

  predicate AllDigits(s: string) { forall i | 0 <= i < |s| :: IsDigit(s[i]) }

  /** The digits of `s`, in order (`s.replace(/\D/g, "")`). */
  function DigitsOnly(s: string): (r: string)
    ensures AllDigits(r) && |r| <= |s|
    ensures |r| == |s| <==> AllDigits(s)
  {
    if s == [] then [] else (if IsDigit(s[0]) then [s[0]] else []) + DigitsOnly(s[1..])
  }

  lemma {:induction false} DigitsOnlyOfDigits(s: string)
    requires AllDigits(s)
    ensures DigitsOnly(s) == s
  {
    if s != [] { DigitsOnlyOfDigits(s[1..]); }
  }

  lemma {:induction false} DigitsOnlyConcat(a: string, b: string)
    ensures DigitsOnly(a + b) == DigitsOnly(a) + DigitsOnly(b)
  {
    if a != [] {
      var head := if IsDigit(a[0]) then [a[0]] else [];
      assert (a + b)[0] == a[0] && (a + b)[1..] == a[1..] + b;
      DigitsOnlyConcat(a[1..], b);
      calc {
        DigitsOnly(a + b);
        head + DigitsOnly(a[1..] + b);
        head + (DigitsOnly(a[1..]) + DigitsOnly(b));
        (head + DigitsOnly(a[1..])) + DigitsOnly(b);
        DigitsOnly(a) + DigitsOnly(b);
      }
    } else {
      assert a + b == b;
    }
  }

  /** Removing non-digits twice is the same as removing them once. */
  lemma DigitsOnlyIdempotent(s: string)
    ensures DigitsOnly(DigitsOnly(s)) == DigitsOnly(s)
  {
    DigitsOnlyOfDigits(DigitsOnly(s));
  }

  /** `s` without its leading whitespace. */
  function LStrip(s: string): (r: string)
    ensures |r| <= |s| && r == s[|s| - |r|..]
    ensures forall i | 0 <= i < |s| - |r| :: IsSpace(s[i])
    ensures r == [] || !IsSpace(r[0])
  {
    if s != [] && IsSpace(s[0]) then
      var r := LStrip(s[1..]);
      LeadingSpaceStep(s, r);
      r
    else s
  }

  /** A suffix of `s[1..]` after only whitespace is a suffix of `s` after only whitespace, when `s` starts with whitespace. */
  lemma LeadingSpaceStep(s: string, r: string)
    requires s != [] && IsSpace(s[0])
    requires |r| <= |s| - 1 && r == s[1..][|s| - 1 - |r|..]
    requires forall i | 0 <= i < |s| - 1 - |r| :: IsSpace(s[1..][i])
    ensures r == s[|s| - |r|..]
    ensures forall i | 0 <= i < |s| - |r| :: IsSpace(s[i])
  {
    forall i | 0 < i < |s| - |r| ensures IsSpace(s[i]) {
      assert s[i] == s[1..][i - 1];
    }
  }

  /** `s` without its trailing whitespace. */
  function RStrip(s: string): (r: string)
    ensures |r| <= |s| && r == s[..|r|]
    ensures forall i | |r| <= i < |s| :: IsSpace(s[i])
    ensures r == [] || !IsSpace(r[|r| - 1])
  {
    if s != [] && IsSpace(s[|s| - 1]) then RStrip(s[..|s| - 1]) else s
  }

  /** `s.strip()`: no whitespace at either end, everything between kept. */
  function Strip(s: string): (r: string)
    ensures |r| <= |s|
    ensures r == [] || (!IsSpace(r[0]) && !IsSpace(r[|r| - 1]))
  {
    RStrip(LStrip(s))
  }

  /** `s.strip()` is the middle of `s`. */
  lemma StripIsSlice(s: string)
    ensures var k := |s| - |LStrip(s)|; var r := Strip(s);
      k + |r| <= |s| && r == s[k..k + |r|]
  {
    var l := LStrip(s);
    var r := RStrip(l);
    MiddleSlice(s, l, r);
  }

  /** What `s.strip()` cuts at either end is whitespace only. */
  lemma StripCutsOnlySpace(s: string)
    ensures var k := |s| - |LStrip(s)|; var r := Strip(s);
      (forall i | 0 <= i < k :: IsSpace(s[i])) &&
      (forall i | k + |r| <= i < |s| :: IsSpace(s[i]))
  {
    var l := LStrip(s);
    var r := RStrip(l);
    MiddleSlice(s, l, r);
  }

  /** A prefix `r` of a suffix `l` of `s`, followed in `l` only by whitespace, is the middle of `s`. */
  lemma MiddleSlice(s: string, l: string, r: string)
    requires |l| <= |s| && l == s[|s| - |l|..]
    requires |r| <= |l| && r == l[..|r|]
    requires forall i | |r| <= i < |l| :: IsSpace(l[i])
    ensures var k := |s| - |l|; r == s[k..k + |r|] && forall i | k + |r| <= i < |s| :: IsSpace(s[i])
  {
    var k := |s| - |l|;
    forall i | k + |r| <= i < |s| ensures IsSpace(s[i]) {
      assert s[i] == l[i - k];
    }
  }

  /** Stripping never brings in a character the text did not have. */
  lemma StripKeepsOut(s: string, c: char)
    requires c !in s
    ensures c !in Strip(s)
  {
    StripKeepsNone(s, x => x == c);
  }

  /** A character property that holds nowhere in the text holds nowhere in its stripped form. */
  lemma StripKeepsNone(s: string, p: char -> bool)
    requires forall i | 0 <= i < |s| :: !p(s[i])
    ensures forall i | 0 <= i < |Strip(s)| :: !p(Strip(s)[i])
  {
    StripIsSlice(s);
    SliceKeepsNone(s, Strip(s), |s| - |LStrip(s)|, p);
  }

  /** A character property that holds nowhere in `s` holds nowhere in a slice of it. */
  lemma SliceKeepsNone(s: string, r: string, k: nat, p: char -> bool)
    requires k + |r| <= |s| && r == s[k..k + |r|]
    requires forall i | 0 <= i < |s| :: !p(s[i])
    ensures forall i | 0 <= i < |r| :: !p(r[i])
  {
    forall m | 0 <= m < |r| ensures !p(r[m]) {
      assert r[m] == s[k + m];
    }
  }

  /** A string made of whitespace only strips to the empty string, and conversely. */
  lemma {:induction false} StripEmptyIffBlank(s: string)
    ensures Strip(s) == [] <==> forall i | 0 <= i < |s| :: IsSpace(s[i])
  {
    if Strip(s) == [] {
      var l := LStrip(s);
      assert RStrip(l) == [];
      assert l == [];
    } else {
      var r := Strip(s);
      var k := |s| - |LStrip(s)|;
      assert s[k] == r[0] && !IsSpace(r[0]);
    }
  }

  /** Stripping a string with no whitespace at its ends changes nothing. */
  lemma StripOfTrimmed(s: string)
    requires s == [] || (!IsSpace(s[0]) && !IsSpace(s[|s| - 1]))
    ensures Strip(s) == s
  {
  }

  /** Python's `s.split(sep)` for a one-character separator. */
  function Split(s: string, sep: char): (parts: seq<string>)
    ensures |parts| >= 1
    ensures forall i | 0 <= i < |parts| :: sep !in parts[i]
  {
    if s == [] then [[]]
    else
      var rest := Split(s[1..], sep);
      if s[0] == sep then [[]] + rest else [[s[0]] + rest[0]] + rest[1..]
  }

  /** `sep.join(parts)`. */
  function Join(parts: seq<string>, sep: char): string
    requires |parts| >= 1
  {
    if |parts| == 1 then parts[0] else parts[0] + [sep] + Join(parts[1..], sep)
  }

  /** Splitting and joining again gives back the original text. */
  lemma {:induction false} JoinSplit(s: string, sep: char)
    ensures Join(Split(s, sep), sep) == s
  {
    if s != [] {
      var rest := Split(s[1..], sep);
      JoinSplit(s[1..], sep);
      if s[0] != sep {
        var parts := Split(s, sep);
        assert parts == [[s[0]] + rest[0]] + rest[1..];
        if |rest| == 1 {
          assert Join(parts, sep) == [s[0]] + rest[0];
        } else {
          assert parts[1..] == rest[1..];
          assert Join(parts, sep) == [s[0]] + rest[0] + [sep] + Join(rest[1..], sep);
          assert Join(rest, sep) == rest[0] + [sep] + Join(rest[1..], sep);
        }
      }
    }
  }

  /** Joining pieces that do not contain the separator and splitting again gives the pieces back. */
  lemma {:induction false} SplitJoin(parts: seq<string>, sep: char)
    requires |parts| >= 1
    requires forall i | 0 <= i < |parts| :: sep !in parts[i]
    ensures Split(Join(parts, sep), sep) == parts
  {
    if |parts| == 1 {
      SplitNoSep(parts[0], sep);
    } else {
      SplitJoin(parts[1..], sep);
      SplitAfterPiece(parts[0], Join(parts[1..], sep), sep);
      assert Join(parts, sep) == parts[0] + ([sep] + Join(parts[1..], sep));
    }
  }

  lemma {:induction false} SplitNoSep(s: string, sep: char)
    requires sep !in s
    ensures Split(s, sep) == [s]
  {
    if s != [] {
      assert s[0] != sep;
      SplitNoSep(s[1..], sep);
      assert [s[0]] + s[1..] == s;
    }
  }

  lemma {:induction false} SplitAfterPiece(piece: string, rest: string, sep: char)
    requires sep !in piece
    ensures Split(piece + [sep] + rest, sep) == [piece] + Split(rest, sep)
  {
    var s := piece + [sep] + rest;
    if piece == [] {
      assert s[0] == sep && s[1..] == rest;
    } else {
      assert s[0] == piece[0] && s[1..] == piece[1..] + [sep] + rest;
      SplitAfterPiece(piece[1..], rest, sep);
      var tail := Split(s[1..], sep);
      assert tail == [piece[1..]] + Split(rest, sep);
      assert tail[0] == piece[1..] && tail[1..] == Split(rest, sep);
      assert [piece[0]] + piece[1..] == piece;
    }
  }

  /** `pat` occurs in `s` starting at index `j`. */
  predicate OccursAt(s: string, pat: string, j: nat) {
    j + |pat| <= |s| && s[j..j + |pat|] == pat
  }

  /** The first index at or after `from` where `pat` occurs in `s`. */
  function FindFrom(s: string, pat: string, from: nat): (r: Option<nat>)
    requires from <= |s|
    ensures r.Some? ==> from <= r.value && OccursAt(s, pat, r.value)
    ensures r.Some? ==> forall j | from <= j < r.value :: !OccursAt(s, pat, j)
    ensures r.None? ==> forall j: nat | from <= j :: !OccursAt(s, pat, j)
    decreases |s| - from
  {
    if from + |pat| > |s| then None
    else if OccursAt(s, pat, from) then Some(from)
    else if from == |s| then None
    else FindFrom(s, pat, from + 1)
  }

  /** The first occurrence of `pat` in `s` (`s.indexOf(pat)`, `s.find(pat)`). */
  function Find(s: string, pat: string): (r: Option<nat>)
    ensures r.Some? ==> OccursAt(s, pat, r.value) && forall j | 0 <= j < r.value :: !OccursAt(s, pat, j)
    ensures r.None? ==> forall j: nat :: !OccursAt(s, pat, j)
  {
    FindFrom(s, pat, 0)
  }

  /** `pat in s` / `s.includes(pat)`. */
  predicate Contains(s: string, pat: string) {
    Find(s, pat).Some?
  }

  /** JavaScript's `s.replace(pat, rep)` with a string pattern: only the first occurrence. */
  function ReplaceFirst(s: string, pat: string, rep: string): (r: string)
    ensures !Contains(s, pat) ==> r == s
    ensures Contains(s, pat) ==>
      var k := Find(s, pat).value;
      |r| == |s| - |pat| + |rep| &&
      r[..k] == s[..k] && r[k..k + |rep|] == rep && r[k + |rep|..] == s[k + |pat|..]
  {
    match Find(s, pat)
    case None => s
    case Some(k) => s[..k] + rep + s[k + |pat|..]
  }

  /** The value of a numeral made of decimal digits (the empty numeral is 0, as `Number("")`). */
  function DigitsValue(s: string): nat
    requires AllDigits(s)
  {
    if s == [] then 0 else 10 * DigitsValue(s[..|s| - 1]) + (s[|s| - 1] as int - '0' as int)
  }

  /** The decimal numeral of `n` without leading zeros (`str(n)`). */
  function ShowNat(n: nat): (r: string)
    ensures AllDigits(r) && |r| >= 1
    ensures |r| > 1 ==> r[0] != '0'
  {
    var d := [(('0' as int) + n % 10) as char];
    if n < 10 then d else ShowNat(n / 10) + d
  }

  /** Reading back a printed number gives the number. */
  lemma {:induction false} DigitsValueShowNat(n: nat)
    ensures DigitsValue(ShowNat(n)) == n
  {
    var s := ShowNat(n);
    if n >= 10 {
      DigitsValueShowNat(n / 10);
      assert s[..|s| - 1] == ShowNat(n / 10);
    }
  }

  /** Decimal digits with single underscores allowed between two digits, as Python's `int()` accepts. */
  predicate IsIntBody(b: string) {
    |b| >= 1 && IsDigit(b[0]) && IsDigit(b[|b| - 1]) &&
    forall i | 0 <= i < |b| :: IntBodyChar(b, i)
  }

  /** Character `i` of `b` is a digit, or an underscore between two digits. */
  predicate IntBodyChar(b: string, i: nat)
    requires i < |b|
  {
    IsDigit(b[i]) || (b[i] == '_' && 0 < i < |b| - 1 && IsDigit(b[i - 1]) && IsDigit(b[i + 1]))
  }

  /** `b` with its underscores removed. */
  function DropUnderscores(b: string): (r: string)
    ensures |r| <= |b|
    ensures AllDigits(b) ==> r == b
    ensures (forall i | 0 <= i < |b| :: IsDigit(b[i]) || b[i] == '_') ==> AllDigits(r)
  {
    if b == [] then [] else (if b[0] == '_' then [] else [b[0]]) + DropUnderscores(b[1..])
  }

  /**
   * `int()` on text already stripped: one optional sign, then digits with
   * single underscores between them; anything else is `None`.
   */
  function ParseStripped(t: string): (r: Option<int>)
    ensures AllDigits(t) && t != [] ==> r == Some(DigitsValue(t))
    ensures r.Some? ==> exists k | 0 <= k < |t| :: IsDigit(t[k])
  {
    var neg := t != [] && t[0] == '-';
    var body := if t != [] && (t[0] == '+' || t[0] == '-') then t[1..] else t;
    if !IsIntBody(body) then None
    else
      IntBodyDigits(body);
      var v: int := DigitsValue(DropUnderscores(body));
      assert IsDigit(t[|t| - 1]);
      Some(if neg then -v else v)
  }

  /** An integer body without its underscores is all digits. */
  lemma IntBodyDigits(b: string)
    requires IsIntBody(b)
    ensures AllDigits(DropUnderscores(b))
  {
    forall i | 0 <= i < |b| ensures IsDigit(b[i]) || b[i] == '_' {
      assert IntBodyChar(b, i);
    }
  }

  /**
   * Python's `int(s)` on text: surrounding whitespace is ignored, one optional sign,
   * then digits with single underscores between them. Anything else raises
   * `ValueError`, which is `None` here.
   */
  function ParsePyInt(s: string): (r: Option<int>)
    ensures Strip(s) == [] ==> r.None?
    ensures AllDigits(Strip(s)) && Strip(s) != [] ==> r == Some(DigitsValue(Strip(s)))
    ensures r.Some? ==> exists k | 0 <= k < |Strip(s)| :: IsDigit(Strip(s)[k])
  {
    ParseStripped(Strip(s))
  }

  /** Reading a printed natural number with `int()` gives the number back. */
  lemma ParsePyIntShowNat(n: nat)
    ensures ParsePyInt(ShowNat(n)) == Some(n)
  {
    var s := ShowNat(n);
    StripOfDigits(s);
    DigitsValueShowNat(n);
  }

  /** A minus sign followed by digits reads back with `int()` as the negated digits. */
  lemma ParsePyIntMinus(t: string)
    requires |t| > 1 && t[0] == '-' && AllDigits(t[1..])
    ensures ParsePyInt(t) == Some(-(DigitsValue(t[1..]) as int))
  {
    calc {
      ParsePyInt(t);
      ParseStripped(Strip(t));
      { assert t[|t| - 1] == t[1..][|t| - 2]; StripOfTrimmed(t); }
      ParseStripped(t);
      { ParseStrippedNegative(t); }
      Some(-(DigitsValue(t[1..]) as int));
    }
  }

  /** The same without surrounding whitespace to strip. */
  lemma ParseStrippedNegative(t: string)
    requires |t| > 1 && t[0] == '-' && AllDigits(t[1..])
    ensures ParseStripped(t) == Some(-(DigitsValue(t[1..]) as int))
  {
    DigitsIntBody(t[1..]);
  }

  /** A non-empty run of digits is an integer body that has no underscores to drop. */
  lemma DigitsIntBody(d: string)
    requires AllDigits(d) && d != []
    ensures IsIntBody(d) && DropUnderscores(d) == d
  {
  }

  lemma StripOfDigits(s: string)
    requires AllDigits(s)
    ensures Strip(s) == s
  {
    if s != [] {
      StripOfTrimmed(s);
    }
  }

  /** At most the first `n` digits of `s` (`s.replace(/\D/g, "").slice(0, n)`). */
  function FirstDigits(s: string, n: nat): (r: string)
    ensures AllDigits(r) && |r| <= n
    ensures |r| == if |DigitsOnly(s)| < n then |DigitsOnly(s)| else n
    ensures r == DigitsOnly(s)[..|r|]
  {
    var d := DigitsOnly(s);
    if |d| <= n then d else d[..n]
  }

  /** Filtering an already filtered value changes nothing. */
  lemma FirstDigitsIdempotent(s: string, n: nat)
    ensures FirstDigits(FirstDigits(s, n), n) == FirstDigits(s, n)
  {
    DigitsOnlyOfDigits(FirstDigits(s, n));
  }

  /**
   * A numeral with a comma before every group of three digits counted from
   * the right (`/\B(?=(\d{3})+(?!\d))/g` and `Intl.NumberFormat` on an integer).
   */
  function Grouped(s: string): (r: string)
    ensures |s| >= 1 ==> |r| == |s| + (|s| - 1) / 3
    ensures |s| <= 3 ==> r == s
    decreases |s|
  {
    if |s| <= 3 then s else Grouped(s[..|s| - 3]) + [','] + s[|s| - 3..]
  }

  /** Dropping the separators gives the numeral back. */
  lemma {:induction false} DigitsOnlyGrouped(s: string)
    requires AllDigits(s)
    ensures DigitsOnly(Grouped(s)) == s
    decreases |s|
  {
    if |s| <= 3 {
      DigitsOnlyOfDigits(s);
    } else {
      var head := s[..|s| - 3];
      var tail := s[|s| - 3..];
      DigitsOnlyGrouped(head);
      DigitsOnlyConcat(Grouped(head) + [','], tail);
      DigitsOnlyConcat(Grouped(head), [',']);
      assert DigitsOnly([',']) == [];
      DigitsOnlyOfDigits(tail);
      assert head + tail == s;
    }
  }

  /** A grouped numeral holds only digits and commas. */
  lemma {:induction false} GroupedChars(s: string)
    requires AllDigits(s)
    ensures forall k | 0 <= k < |Grouped(s)| :: IsDigit(Grouped(s)[k]) || Grouped(s)[k] == ','
    decreases |s|
  {
    if |s| > 3 {
      GroupedChars(s[..|s| - 3]);
    }
  }

  /** `n` printed with thousands separators. */
  function FormatThousands(n: nat): (r: string)
    ensures |r| >= 1 && r[0] != ','
  {
    FormatFirst(ShowNat(n));
    Grouped(ShowNat(n))
  }

  /** The first character of a grouped numeral is its first digit. */
  lemma {:induction false} FormatFirst(s: string)
    requires |s| >= 1
    ensures |Grouped(s)| >= 1 && Grouped(s)[0] == s[0]
    decreases |s|
  {
    if |s| > 3 {
      FormatFirst(s[..|s| - 3]);
    }
  }

  /** Reading the digits of a formatted number gives the number. */
  lemma FormatThousandsReadsBack(n: nat)
    ensures AllDigits(DigitsOnly(FormatThousands(n)))
    ensures DigitsValue(DigitsOnly(FormatThousands(n))) == n
  {
    DigitsOnlyGrouped(ShowNat(n));
    DigitsValueShowNat(n);
  }
}

=== FILE: Wrappers.dfy ===
/** Option and Result, for absent values and for the error paths of the modelled code. */
module Wrappers {

  datatype Option<+T> = None | Some(value: T) {
    function GetOr(default: T): T {
      match this
      case Some(v) => v
      case None => default
    }
  }

  datatype Result<+R, +E> = Success(value: R) | Failure(error: E)
}
